=== FILE: README.md ===
# Bitcoin Global Community: a Dafny model of its server decisions and client state machines

This project models the core of a community web site for Bitcoin learners.
The site has two parts.

- **The Express server.** The model covers:
  - the `/register`, `/login` and `/me` routes over a user store;
  - the strict and the optional authentication middleware;
  - the discussion routes: list pagination, get by id, create, and delete checked against the author;
  - the CORS origin rule, the SPA fallback and the API 404 responder;
  - the error handler's mapping from an error to a status and a body;
  - the environment defaults and `validateEnv`.
- **The React client.** The model covers:
  - the validators and the password-strength scorer;
  - the test phone-number generator;
  - the debounced-validation and i18n hooks;
  - the digit and image captchas;
  - the Login, Register, Contact, Community, CommunityTopic and Courses pages.

How the model is built:

- **The stores.** Prisma's tables are maps: users are keyed by id and by unique phone, discussions by id.
- **Crypto, translation, clock and randomness.** bcrypt, `jsonwebtoken`, the translation function, the clock and `Math.random` are parameters.
  - JWT verification returns an outcome datatype, and the handlers' branch order is kept.
  - Random draws come from an oracle sequence.
- **Component state.** The state of each component or hook is a class with the source's state variables as fields.
  - Each handler is a method that states the component's whole new state.
  - Toasts and navigations are appended to a `log` of effects.
  - Every `setTimeout` or `setInterval` is an explicit completion or tick method.
  - A click on a button rendered `disabled` is a handler that does nothing in that state. Where the same handler has another caller that does not check, such as `handleVerify` called on Enter, the click is its own method.
- **Pure decisions.** Route decisions and pure derivations are functions. Lemmas state the properties the code promises about them: check order, round trips, no-change guarantees, bounds.
- **Regular expressions.** Each regex is an explicit predicate over characters.
- **`parseInt`.** It is modelled as a leading-decimal-digits parser.

Shared modules:

| module | holds |
|---|---|
| `Options` | `Option` |
| `JsString` | character classes, trimming, `parseInt`, `split`, `slice` and first-occurrence `replace` |
| `Ui` | toast and navigation effects |
| `Jwt` | claims, the verification outcome, bearer-header parsing |
| `Users` | the user store |

Every other module models one source file.

## Model

| member | source | states |
|---|---|---|
| Jwt.BearerToken | server/src/middleware/auth.ts:14-20 | a token is read exactly when the header is present and starts with the case-sensitive "Bearer "; the token is the header minus that prefix |
| Jwt.BearerTokenOfHeader | server/src/routes/auth.ts:118-124 | whatever follows "Bearer " is the token, the empty string included |
| Users.FindByPhone | server/src/routes/auth.ts:40 | a user is found only through a phone key whose id resolves, and the found row is that id's row |
| Users.FindByPhoneConsistent | server/src/routes/auth.ts:40-43 | in a consistent store a phone finds a user exactly when it is registered, and the user found carries that phone |
| Users.InsertKeepsConsistent | server/src/routes/auth.ts:49-51 | inserting a row under a fresh phone with the next id keeps the two keys (id and unique phone) consistent |
| Users.UserStore.Create | server/src/routes/auth.ts:49-51 | `user.create` adds the new row under the next id and its phone, and changes nothing else |
| AuthRoutes.RegisterPhoneIssues | server/src/routes/auth.ts:12-15 | no issue exactly when the phone is 6 to 20 characters of digits, `+`, `-`, whitespace and parentheses; a short or long phone reports the length message |
| AuthRoutes.RegisterPasswordIssues | server/src/routes/auth.ts:16-18 | no issue exactly when the password is 6 to 100 characters |
| AuthRoutes.FieldErrors | server/src/routes/auth.ts:31-34 | `fieldErrors` has an entry for exactly the fields with issues, holding those issues |
| AuthRoutes.LoginFieldIssues | server/src/routes/auth.ts:21-24 | a login field has no issue exactly when it is a string of at least 6 characters |
| AuthRoutes.Register | server/src/routes/auth.ts:27-59 | 400 with the field errors and the store unchanged on a schema failure; 409 and the store unchanged for a registered phone; otherwise 201 with id, phone and createdAt only, and exactly one new row holding the hash of the password |
| AuthRoutes.RegisterAddsOneUser | server/src/routes/auth.ts:46-51 | a registration grows the store by exactly one row and leaves every existing row as it was |
| AuthRoutes.Login | server/src/routes/auth.ts:67-112 | 400 exactly on a schema failure; 200 exactly when the phone is registered and the password matches its hash, when signing also succeeds, with a token signed over just `{id, phone}` and a user without password; 401 "手机号或密码错误" exactly for an unknown phone or a wrong password; 500 "登录失败，请稍后重试" when `jwt.sign` throws |
| AuthRoutes.LoginSchemaHasNoUpperBound | server/src/routes/auth.ts:21-24 | any phone and password of at least six characters pass the login schema, whatever their length |
| AuthRoutes.LoginFailuresIndistinguishable | server/src/routes/auth.ts:80-90 | an unknown phone and a wrong password give the identical 401 response |
| AuthRoutes.RegisterThenLogin | server/src/routes/auth.ts:27-108 | after a successful registration, logging in with the same credentials returns the token and public user of the new id, or the 500 answer when signing throws |
| AuthRoutes.Me | server/src/routes/auth.ts:116-144 | 401 without a bearer header; 200 with `{id, phone, createdAt}` exactly when the token decodes to a stored id; 404 exactly when it decodes to an absent id; 401 "无效的认证令牌" when verification throws a `JsonWebTokenError`; 500 exactly when it throws anything else |
| AuthRoutes.MeExpiredIsUnauthorized | server/src/routes/auth.ts:137-140 | an expired token (a subclass of `JsonWebTokenError`) is answered 401 "无效的认证令牌" |
| AuthMiddleware.Decide | server/src/middleware/auth.ts:13-49 | 401 "缺少认证令牌" without a bearer header; the request proceeds exactly when the token decodes to a stored id, with that row's `{id, phone}`; 401 "用户不存在或已被删除" for a decoded id with no row; 401 "无效的认证令牌" for a `JsonWebTokenError`, 401 "认证令牌已过期" for an expiry that is not one; every rejection is 401 or 500, and 500 exactly for an error that is neither a token error nor an expiry |
| AuthMiddleware.Authenticate | server/src/middleware/auth.ts:13-49 | the middleware acts as `Decide` says: on success `req.user` is set to the stored user, on a rejection it is left untouched |
| AuthMiddleware.AuthenticateOptionally | server/src/middleware/auth.ts:53-78 | `req.user` is set only when a user is found, and otherwise left as it was; nothing is answered |
| AuthMiddleware.OptionalAgreesWithStrict | server/src/middleware/auth.ts:53-78 | the optional middleware attaches a user exactly when the strict one would let the request through, and the same user |
| AuthMiddleware.AttachedPhoneIgnoresClaims | server/src/middleware/auth.ts:26-35 | two tokens decoding to the same id lead to the same decision: the attached phone comes from the store, not from the token |
| AuthMiddleware.ExpiredMessageUnreachable | server/src/middleware/auth.ts:40-46 | while `TokenExpiredError` is a `JsonWebTokenError`, the "认证令牌已过期" answer is never given |
| AuthMiddleware.ExpiredMessageNeedsBrokenHierarchy | server/src/middleware/auth.ts:40-46 | the expiry answer can only come from an error that is an expiry but not a token error |
| CommunityRoutes.PageNumber | server/src/routes/community.ts:22-23 | the page is at least 1; a parsed page of 1 or more is kept, and an absent, unparsable, zero or negative page becomes 1 |
| CommunityRoutes.LimitNumber | server/src/routes/community.ts:22-24 | the limit lies in 1..100; a parsed limit in range is kept, an absent, unparsable or zero limit becomes 20, a negative one 1 and one above 100 becomes 100 |
| CommunityRoutes.PageCount | server/src/routes/community.ts:50 | `Math.ceil(total / limit)`: the pages cover the total, and the last page is not empty |
| CommunityRoutes.SkipTake | server/src/routes/community.ts:28-31 | `skip`/`take`: at most `take` rows, exactly as many as remain, each the row `skip` positions further on |
| CommunityRoutes.ListDiscussions | server/src/routes/community.ts:20-52 | 200 with pagination `{page, limit, total, pages}` from the clamped query; exactly `min(limit, total - (page-1)*limit)` rows (none past the end), the rows from `(page-1)*limit` on, in the listing's order |
| CommunityRoutes.PageOfRow | server/src/routes/community.ts:25-50 | row `k` sits at offset `k % limit` of page `k / limit + 1`, and that page is within the page count |
| CommunityRoutes.PageQuery | server/src/routes/community.ts:23 | a positive page written in decimal is taken as given |
| CommunityRoutes.LimitQuery | server/src/routes/community.ts:24 | a limit from 1 to 100 written in decimal is taken as given |
| CommunityRoutes.EveryRowOnItsPage | server/src/routes/community.ts:20-52 | every discussion is returned by the query for its page and the limit, at its offset within that page |
| CommunityRoutes.ListingKeepsOrder | server/src/routes/community.ts:29 | a listing sorted newest first yields a page sorted newest first |
| CommunityRoutes.GetDiscussion | server/src/routes/community.ts:60-83 | 400 "无效的ID" exactly when the id does not parse; 404 exactly when it parses to an absent id; otherwise 200 with that discussion |
| CommunityRoutes.GetIgnoresTrailingText | server/src/routes/community.ts:62 | `parseInt` reads only the leading digits, so an id followed by non-digit text finds the discussion |
| CommunityRoutes.TitleIssues | server/src/routes/community.ts:11-13 | no issue exactly when the title is 3 to 200 characters |
| CommunityRoutes.ContentIssues | server/src/routes/community.ts:14-16 | no issue exactly when the content is 1 to 5000 characters |
| CommunityRoutes.FieldErrors | server/src/routes/community.ts:95-98 | `fieldErrors` has an entry for exactly the fields with issues, holding those issues |
| CommunityRoutes.DiscussionStore.Create | server/src/routes/community.ts:91-121 | the middleware's rejection is passed on; 400 with the field errors on a schema failure; 201 exactly when authenticated with a valid body, adding exactly one discussion whose author is the requesting user's phone; otherwise the store is unchanged |
| CommunityRoutes.DiscussionStore.Delete | server/src/routes/community.ts:129-155 | the response is `DeleteOutcome`'s, and only a 204 removes a row, namely the requested id |
| CommunityRoutes.DeleteOutcome | server/src/routes/community.ts:129-155 | once authenticated, 400 "无效的ID" for an id that does not parse, then 404 "讨论不存在" for an absent row, then 403 (not the author), 204; 204 exactly when the requester is the author and 403 exactly when someone else is |
| CommunityRoutes.OnlyAuthorDeletes | server/src/routes/community.ts:145-151 | a successful delete was made by the author and leaves every other discussion unchanged |
| App.AllowedOrigins | server/src/app.ts:19-23 | `CORS_ORIGIN` split on ",", whose pieces joined again give the variable back; the three defaults when it is unset |
| App.CorsDecision | server/src/app.ts:18-38 | no origin, or an origin containing "localhost" anywhere, is allowed; any other origin is allowed exactly when it or "*" is on the allowlist; a refusal carries "不允许的跨域请求" |
| App.LocalhostAnywhereAllowed | server/src/app.ts:29-31 | every origin containing "localhost" anywhere, such as inside another host name, is allowed whatever `CORS_ORIGIN` says |
| App.DefaultAllowlistDecisions | server/src/app.ts:19-37 | with the default list the listed GitHub Pages origin is allowed and an unlisted origin is refused |
| App.CorsRefusalIs403 | server/src/app.ts:37 | a refused origin's error reaches the error handler as a 403 |
| App.RouteUnmatched | server/src/app.ts:105-121 | index.html is sent exactly for a GET-like request outside "/api" when the file exists; exactly the paths under "/api/" get the 404 JSON echoing the URL and method |
| App.ApiPathsNeverGetIndex | server/src/app.ts:106 | no path starting with "/api" is answered with index.html |
| App.ApiLookalikeFallsThrough | server/src/app.ts:106-115 | "/apiary" is neither served the page nor the API 404: it falls through to the final handler |
| ErrorHandler.DefaultStatus | server/src/middleware/errorHandler.ts:54 | `err.status || err.statusCode || 500`: a non-zero status wins, then a non-zero statusCode, else 500; never 0 |
| ErrorHandler.HandleError | server/src/middleware/errorHandler.ts:26-71 | the CORS message gives 403, then the name "JsonWebTokenError" 401, then "ValidationError" 400 with `errors`, then a name containing "Prisma" 500 with the error's message as details exactly outside production; otherwise the default status with the path and timestamp, and in production the generic message with no stack or details; any error matching none of the four cases gets the default body |
| ErrorHandler.ProductionRevealsNothing | server/src/middleware/errorHandler.ts:44-69 | in production neither a database error nor a default error reveals its message, stack or details |
| ErrorHandler.StatusNeverZero | server/src/middleware/errorHandler.ts:54-71 | every response has a non-zero status |
| ErrorHandler.CorsMessageWinsOverName | server/src/middleware/errorHandler.ts:27-34 | the CORS check comes first: an error with the CORS message is 403 whatever its name |
| EnvConfig.OrDefault | server/src/config/env.js:11-19 | `process.env.X || fallback`: a set, non-empty variable is used, otherwise the fallback |
| EnvConfig.CorsOrigins | server/src/config/env.js:23-26 | `CORS_ORIGIN` split on ",", or the two defaults when it is unset |
| EnvConfig.LoadEnv | server/src/config/env.js:9-31 | the loaded database URL and secret are never empty; an unset secret is "dev_secret_key" |
| EnvConfig.MissingKeys | server/src/config/env.js:35-36 | lists JWT_SECRET exactly when the secret is empty and DATABASE_URL exactly when the URL is empty |
| EnvConfig.ValidateEnv | server/src/config/env.js:34-54 | throws the missing-keys error exactly when a key is empty; throws the insecure-secret error exactly in production with the default secret; passes exactly when neither applies, with the wildcard warning exactly for a "*" origin in production |
| EnvConfig.LoadedEnvHasNoMissingKeys | server/src/config/env.js:16-40 | because of the two defaults the missing-keys error never fires on the loaded env; the only possible throw is the insecure secret |
| EnvConfig.ProductionNeedsSecret | server/src/config/env.js:11-46 | without JWT_SECRET, validation throws in production and passes silently elsewhere |
| EnvConfig.WildcardOnlyWarns | server/src/config/env.js:48-50 | a "*" in CORS_ORIGIN with a real secret never makes validation throw |
| Constants.FindCountry | src/utils/index.ts:97 | `COUNTRIES.find(c => c.code === countryCode)`: the country found is listed and has that code; none is found exactly when no listed country has it |
| Constants.FindCountryIn | src/utils/index.ts:97 | the same search over any list of countries |
| Constants.DialCodesStartWithPlus | src/constants/index.ts:96-107 | every listed dial code starts with "+" |
| ClientUtils.ValidatePhone | src/utils/index.ts:95-108 | at most one error, on `phone`; `phone_required` for an empty phone, then `phone_length` with the country's length when a known country's length differs; valid exactly when the phone is non-empty, matches the pattern and has the known country's length (or the country is unknown); `phone_invalid` exactly for a non-empty phone of acceptable length that fails the pattern |
| ClientUtils.ValidatePassword | src/utils/index.ts:110-122 | valid exactly for 6 to 128 characters, with no character-class rule; `password_required`, then `password_min_length`, then `password_max_length` |
| ClientUtils.ValidateEmail | src/utils/index.ts:124-134 | valid exactly when the email matches `^[^\s@]+@[^\s@]+\.[^\s@]+$`; `email_required` for an empty one, `email_invalid` otherwise |
| ClientUtils.ValidateVerificationCode | src/utils/index.ts:136-148 | valid exactly for six digits; `code_required`, then `code_length` for a length other than 6, then `code_invalid` for a non-digit |
| ClientUtils.PhoneValidityDependsOnCountry | src/utils/index.ts:101 | an eleven-digit Chinese mobile number passes the pattern and the CN length but not the US length of 10 |
| ClientUtils.UnknownCountrySkipsLength | src/utils/index.ts:97-101 | a code outside the ten listed countries finds no country, so no length check applies |
| ClientUtils.CriteriaMet | src/utils/index.ts:159-166 | at most six criteria (two lengths, four character classes) |
| ClientUtils.StrengthScore | src/utils/index.ts:168 | the score is capped at 4 |
| ClientUtils.CalculateStrength | src/utils/index.ts:153-169 | the score is 0 for an empty password, always in 0..4, and equals the capped count of met criteria |
| ClientUtils.StrengthGrowsWithText | src/utils/index.ts:159-168 | appending text never lowers the strength |
| ClientUtils.StrengthLabel | src/utils/index.ts:171-179 | scores 0 to 3 are labelled weak, medium, strong and very strong; any other score (4 included) is labelled weak |
| ClientUtils.StrengthColor | src/utils/index.ts:181-184 | scores 0 to 3 are coloured red, orange, green and blue; any other score is red |
| ClientUtils.StrongestPasswordShownWeak | src/utils/index.ts:168-183 | "Abcdefgh1234" meets five criteria, scores 4 and is shown as weak and red |
| ClientUtils.DisplayedStrength | src/utils/index.ts:168-183 | the corrected score stays within the four labels, and reaches the top one exactly at three criteria or more |
| ClientUtils.DisplayedLabelMonotone | src/utils/index.ts:168-183 | with the corrected score more criteria never give a lower label, weak means no criterion met, and three or more criteria give very strong |
| ClientUtils.FormatPhone | src/utils/index.ts:189-199 | the phone is prefixed with the dial code and a space exactly when the country is known, the phone is non-empty and does not start with "+"; otherwise it is unchanged |
| ClientUtils.FormatPhoneIdempotent | src/utils/index.ts:189-199 | formatting a formatted phone changes nothing |
| ClientUtils.TruncateText | src/utils/index.ts:222-225 | a text within the maximum is unchanged; a longer one is its first `max` characters plus "...", `slice` counting a negative maximum from the end, and a negative maximum beyond the text's length giving just "..." |
| ClientUtils.TruncatedKeepsPrefix | src/utils/index.ts:222-225 | a truncated text ends with "..." and what comes before is a prefix of the original |
| ClientUtils.FirstWithPrefix | src/utils/index.ts:87 | `find(lang => lang.startsWith(code))`: the result is a listed language with that prefix and no earlier language has it, and none exactly when no language has it |
| ClientUtils.BrowserLanguage | src/utils/index.ts:76-90 | the result is always supported; a supported tag is kept, otherwise the first language sharing the tag's language code, otherwise "zh-CN" |
| ClientUtils.LanguageCodeOfTag | src/utils/index.ts:86 | the language code of a tag like "en-GB" is its first two letters |
| ClientUtils.BrowserLanguageRegionalFallback | src/utils/index.ts:86-89 | "en-GB" falls back to "en-US" |
| ClientUtils.BrowserLanguageDefaultFallback | src/utils/index.ts:89 | "it-IT" falls back to "zh-CN" |
| ClientUtils.ScreenSizeOf | src/utils/index.ts:314-323 | "2xl" exactly from 1536 pixels, "xl" exactly from 1280 to 1535, "lg" exactly from 1024 to 1279, "md" exactly from 768 to 1023, "sm" exactly below 768 |
| ClientUtils.ScreenSizeMonotone | src/utils/index.ts:314-323 | a wider window never gets a smaller size class |
| PhoneNumbers.DigitsLength | src/lib/utils.ts:22 | `8 + floor(random * 5)` lies between 8 and 12 |
| PhoneNumbers.DigitsShape | src/lib/utils.ts:23 | the suffix, zero-padded to the drawn length, has exactly that length and only digits |
| PhoneNumbers.CandidateWellFormed | src/lib/utils.ts:20-24 | every candidate is one of the ten country codes followed by 8 to 12 digits, and starts with "+" |
| PhoneNumbers.DistinctCard | src/lib/utils.ts:26-28 | a list without duplicates has as many distinct entries as elements |
| PhoneNumbers.Generate | src/lib/utils.ts:13-31 | at most `count` numbers, exactly `count` unless the draws run out; no two equal; each well formed and made from a draw actually used; when short, every drawn candidate is already in the list |
| PhoneNumbers.ProposalsBoundLength | src/lib/utils.ts:26-28 | a duplicate-free list holding every candidate is at least as long as the number of distinct candidates |
| PhoneNumbers.TestPhoneNumbers | src/lib/utils.ts:35 | given draws proposing at least 100 distinct numbers, the list has 100 distinct well-formed entries |
| DebouncedValidation.Initial | src/hooks/useDebouncedValidation.ts:4-7 | the initial result is valid with an empty message |
| DebouncedValidation.Judge | src/hooks/useDebouncedValidation.ts:16-22 | validity is the validator's verdict; the message is empty exactly when valid and otherwise 'validation.invalidFormat' |
| DebouncedValidation.RunCalls | src/hooks/useDebouncedValidation.ts:11-23 | a burst of calls leaves only the last value pending and the result untouched |
| DebouncedValidation.RunAppend | src/hooks/useDebouncedValidation.ts:11-31 | running two event sequences one after the other is running their concatenation |
| DebouncedValidation.LastCallWins | src/hooks/useDebouncedValidation.ts:11-23 | once the delay elapses after a burst of calls, the result judges only the last value and nothing is pending |
| DebouncedValidation.NoUpdateAfterUnmount | src/hooks/useDebouncedValidation.ts:25-31 | after unmounting no event changes the result |
| DebouncedValidation.RunKeepsCoherent | src/hooks/useDebouncedValidation.ts:16-22 | every run keeps the message empty exactly when the result is valid |
| DebouncedValidation.DebouncedValidator.constructor | src/hooks/useDebouncedValidation.ts:3-9 | a mounted hook with the initial result and no pending timer |
| DebouncedValidation.DebouncedValidator.DebouncedValidate | src/hooks/useDebouncedValidation.ts:11-23 | the pending timer is replaced by one for the new value; the result is not touched yet |
| DebouncedValidation.DebouncedValidator.TimerElapsed | src/hooks/useDebouncedValidation.ts:16-22 | a pending value on a mounted hook is judged; otherwise the result stays |
| DebouncedValidation.DebouncedValidator.Unmount | src/hooks/useDebouncedValidation.ts:25-31 | the pending timer is cleared and the result kept |
| I18nHook.Placeholder | src/hooks/useI18n.ts:48 | `{name}`: the name between a pair of braces |
| I18nHook.PlaceholderShape | src/hooks/useI18n.ts:48 | an occurrence of a brace-free placeholder has its braces at both ends and none inside |
| I18nHook.SamePlaceSameName | src/hooks/useI18n.ts:48 | two placeholders of the same length at the same place have the same name |
| I18nHook.PlaceholdersDisjoint | src/hooks/useI18n.ts:46-50 | occurrences of two different brace-free placeholders never overlap |
| I18nHook.NoParamsUnchanged | src/hooks/useI18n.ts:43-46 | with no params the looked-up text is returned unchanged |
| I18nHook.OnlyFirstOccurrenceReplaced | src/hooks/useI18n.ts:47-49 | `replace` substitutes only the first `{name}`: a later occurrence is still in the text |
| I18nHook.UnmatchedPlaceholderSurvives | src/hooks/useI18n.ts:46-50 | a placeholder that no param names survives every substitution |
| I18nHook.I18n.constructor | src/hooks/useI18n.ts:4-24 | the hook starts on the library's language, at version 0, listening |
| I18nHook.I18n.T | src/hooks/useI18n.ts:41-53 | the text is the lookup in the current language, with each param substituted in turn when params are given |
| I18nHook.I18n.HandleLanguageChange | src/hooks/useI18n.ts:10-14 | the current language is re-read from the library and the version goes up by one |
| I18nHook.I18n.HandleStorageChange | src/hooks/useI18n.ts:17-21 | only a non-empty new value under 'preferred-language' refreshes the language and bumps the version |
| I18nHook.I18n.ChangeLanguage | src/hooks/useI18n.ts:32-39 | the language is set in the library and the hook; the version goes up by one, and by one more through its own 'languageChanged' listener; the event is dispatched |
| I18nHook.I18n.Unmount | src/hooks/useI18n.ts:26-29 | the listeners are removed; nothing else changes |
| DigitCaptcha.GenerateCode | src/components/DigitCaptcha.tsx:6-8 | the code has the requested length and only digits |
| DigitCaptcha.Sanitize | src/components/DigitCaptcha.tsx:106-113 | the typed text's digits replace the input when there are at most six of them, and otherwise the input stays; a digit-only input of at most six stays that way |
| DigitCaptcha.MatchesIsEquality | src/components/DigitCaptcha.tsx:91 | for digit-only input the trimmed comparison is plain equality with the code |
| DigitCaptcha.TypingTheCodeVerifies | src/components/DigitCaptcha.tsx:91-113 | typing text whose digits are the code makes the verification succeed |
| DigitCaptcha.VerdictEffects | src/components/DigitCaptcha.tsx:92-99 | `onVerify` is called with the verdict first, then a success toast exactly when it holds, an error toast otherwise |
| DigitCaptcha.DigitCaptcha.constructor | src/components/DigitCaptcha.tsx:73-129 | a fresh digit code, an empty input, not verifying |
| DigitCaptcha.DigitCaptcha.RefreshCaptcha | src/components/DigitCaptcha.tsx:78-150 | a new code and an empty input; a no-op while verifying, when the refresh button is disabled |
| DigitCaptcha.DigitCaptcha.HandleInputChange | src/components/DigitCaptcha.tsx:106-168 | the input becomes the sanitised text; the field is disabled while verifying |
| DigitCaptcha.DigitCaptcha.HandleVerify | src/components/DigitCaptcha.tsx:84-88 | ignored while verifying, which keeps the captured input and code; otherwise verifying starts with the current input and code captured for the timer |
| DigitCaptcha.DigitCaptcha.ClickVerify | src/components/DigitCaptcha.tsx:174-178 | the verify button does nothing unless no verification runs and the input is as long as the code; then it starts one with the current input and code, so a click-started verification always compares a full-length input |
| DigitCaptcha.DigitCaptcha.CompleteVerify | src/components/DigitCaptcha.tsx:90-102 | the captured input is compared with the captured code; the verdict effects are logged, a failure refreshes the code and clears the input, and verifying ends |
| DigitCaptcha.DigitCaptcha.HandleKeyPress | src/components/DigitCaptcha.tsx:116-120 | Enter with a non-empty input starts a verification unless one is running, in which case the running one is kept; any other key does nothing |
| ImageCaptcha.CountTargets | src/components/ImageCaptcha.tsx:73-75 | the number of targets is at most the number of pictures |
| ImageCaptcha.CountOneMore | src/components/ImageCaptcha.tsx:73-75 | counting a prefix one picture longer adds one exactly for a target |
| ImageCaptcha.CountByPrefixes | src/components/ImageCaptcha.tsx:73-75 | the count over a prefix is the size of the set of target positions in it |
| ImageCaptcha.CountOfNine | src/components/ImageCaptcha.tsx:73-75 | the count over nine pictures is the sum of their target indicators |
| ImageCaptcha.TargetCounts | src/components/ImageCaptcha.tsx:9-75 | the three sets hold 4, 4 and 5 targets |
| ImageCaptcha.EverySetCanBePassed | src/components/ImageCaptcha.tsx:9-55 | every set has nine pictures and at least three targets, so some choice of three distinct pictures passes |
| ImageCaptcha.Without | src/components/ImageCaptcha.tsx:144 | `filter(i => i !== index)`: exactly the other entries remain, and nothing is removed when the index is absent |
| ImageCaptcha.WithoutKeepsNoDup | src/components/ImageCaptcha.tsx:144 | removing an index keeps the selection free of duplicates |
| ImageCaptcha.Toggle | src/components/ImageCaptcha.tsx:141-153 | a selected picture is deselected; an unselected one is appended while fewer than three are selected, and otherwise nothing changes; no duplicates and never more than three |
| ImageCaptcha.WithoutOfAppended | src/components/ImageCaptcha.tsx:144-149 | removing the index just appended restores the selection |
| ImageCaptcha.ToggleTwice | src/components/ImageCaptcha.tsx:141-153 | selecting and then deselecting a picture restores the selection |
| ImageCaptcha.Mounted | src/components/ImageCaptcha.tsx:63-135 | after mounting the widget is loading, with a valid set index and an empty selection |
| ImageCaptcha.StepKeepsValid | src/components/ImageCaptcha.tsx:79-173 | every handler keeps the set index in range and the selection duplicate-free, within the pictures and at most three |
| ImageCaptcha.VerifiedFreezesSelection | src/components/ImageCaptcha.tsx:139 | after a successful verification picture clicks change nothing |
| ImageCaptcha.VerifyVerdict | src/components/ImageCaptcha.tsx:157-173 | verification does nothing while loading or without exactly three selected; otherwise the verdict is whether every selected picture is a target, and `onVerify` gets it |
| ImageCaptcha.FailedVerdictSticks | src/components/ImageCaptcha.tsx:176-178 | after a failure the verify button is disabled and no event other than a set change clears the verdict |
| ImageCaptcha.NextCycles | src/components/ImageCaptcha.tsx:93-104 | the next set is `(index + 1) % 3`, with selection, verdict and counters reset and loading again; three steps return to the start |
| ImageCaptcha.LoadingNeverEnds | src/components/ImageCaptcha.tsx:107-130 | as written, a loading widget stays loading under every sequence of events that can occur, because the pictures that would report loads are only rendered once loading is over |
| ImageCaptcha.MountedWidgetNeverLoads | src/components/ImageCaptcha.tsx:133-186 | in particular the mounted widget never leaves its loading state |
| ImageCaptcha.ImageEventsCount | src/components/ImageCaptcha.tsx:107-130 | with the pictures rendered during loading, each load or error report adds one to the counters; loading goes on until all nine have reported and ends at the ninth |
| ImageCaptcha.CorrectedLoadingEnds | src/components/ImageCaptcha.tsx:107-130 | with the pictures rendered during loading, nine reports end the loading of the mounted widget |
| ImageCaptcha.ImageCaptchaWidget.constructor | src/components/ImageCaptcha.tsx:63-135 | the widget starts in the mounted state |
| ImageCaptcha.ImageCaptchaWidget.ResetTo | src/components/ImageCaptcha.tsx:80-103 | loading again with no verdict, no selection, zeroed counters and the given set |
| ImageCaptcha.ImageCaptchaWidget.GenerateNewCaptcha | src/components/ImageCaptcha.tsx:79-90 | the widget moves as the `Generate` step says, keeping the invariant |
| ImageCaptcha.ImageCaptchaWidget.NextCaptcha | src/components/ImageCaptcha.tsx:93-104 | the widget moves as the `Next` step says, keeping the invariant |
| ImageCaptcha.ImageCaptchaWidget.HandleImageSelect | src/components/ImageCaptcha.tsx:138-154 | the widget moves as the `Select` step says, keeping the invariant |
| ImageCaptcha.ImageCaptchaWidget.HandleVerify | src/components/ImageCaptcha.tsx:157-173 | the widget moves as the `Verify` step says, keeping the invariant |
| ImageCaptcha.ImageCaptchaWidget.HandleImageLoad | src/components/ImageCaptcha.tsx:107-130 | the widget moves as the `ImageLoad` step says: one more load, and once every picture reported, loading ends, with a toast and then the alternative or a scheduled retry when some failed |
| ImageCaptcha.ImageCaptchaWidget.HandleImageError | src/components/ImageCaptcha.tsx:217-222 | the widget moves as the `ImageError` step says: one more error |
| ImageCaptcha.ImageCaptchaWidget.CompleteRetry | src/components/ImageCaptcha.tsx:124 | the scheduled `generateNewCaptcha` runs |
| ImageCaptcha.ImageCaptchaWidget.UseSmsVerification | src/components/ImageCaptcha.tsx:295-300 | the alternative is hidden, the error count is cleared and an info toast is logged |
| LoginPage.SubmitCheck | src/pages/Login.tsx:83-102 | the login starts exactly when the phone is non-empty and judged valid and the password is non-empty and judged valid; otherwise the key of the first failing check, in the order phone, phone validity, password, password validity |
| LoginPage.UnsettledValidationPasses | src/pages/Login.tsx:44-99 | before a debounce delay has elapsed the validations still hold their initial valid result, so any non-empty phone and password pass the guards |
| LoginPage.LookupAlwaysFails | src/pages/Login.tsx:111 | as written the digits-only phone is looked up in a list whose entries all start with "+", so no phone is ever a test phone |
| LoginPage.TestPhonesPassValidation | src/pages/Login.tsx:47-52 | every generated test phone passes the login page's phone check |
| LoginPage.KeepDigitsIdempotent | src/pages/Login.tsx:111 | stripping non-digits twice is stripping them once |
| LoginPage.CorrectedLookupAcceptsListedNumbers | src/pages/Login.tsx:111 | with both sides reduced to digits, each listed number is accepted, typed with or without its "+" |
| LoginPage.GeneratedListLocksEveryoneOut | src/pages/Login.tsx:110-122 | with the generated list no credentials log in as written, while with the corrected lookup every listed number logs in with "TestPassword123" |
| LoginPage.Login.constructor | src/pages/Login.tsx:14-60 | empty fields, nothing loading, no captcha, country "+86", both validations in their initial state, no request waiting |
| LoginPage.Login.HandlePhoneChange | src/pages/Login.tsx:63-69 | the phone is set, and a non-empty one is handed to the debounced validation; every other field of the page state is unchanged |
| LoginPage.Login.HandlePasswordChange | src/pages/Login.tsx:72-78 | the password is set, and a non-empty one is handed to the debounced validation; every other field of the page state is unchanged |
| LoginPage.Login.PhoneDelayElapsed | src/pages/Login.tsx:44-52 | the phone validation's timer fires with the phone rule; nothing else changes |
| LoginPage.Login.PasswordDelayElapsed | src/pages/Login.tsx:55-60 | the password validation's timer fires with the password rule; nothing else changes |
| LoginPage.Login.HandleCountryChange | src/pages/Login.tsx:193 | only the selected country code changes, stated over the whole page state |
| LoginPage.Login.HandleCaptchaVerify | src/pages/Login.tsx:277-280 | the captcha verdict is recorded and nothing else changes: nothing is submitted |
| LoginPage.Login.HandleLoginSubmit | src/pages/Login.tsx:83-105 | the first failing guard logs its error toast and nothing else changes; otherwise loading starts and one more request waits, with the phone and password captured, also while another is in flight; a non-empty form whose validations pass always starts one |
| LoginPage.Login.CompleteLogin | src/pages/Login.tsx:106-128 | a listed test phone with "TestPassword123" authenticates, toasts success and goes home; anything else shows the captcha and toasts failure; loading ends either way, even with later requests waiting, and the oldest request leaves the queue; nothing else changes |
| RegisterPage.PlaceholdersMatch | src/pages/Register.tsx:35-39 | each country's placeholder number matches its own pattern |
| RegisterPage.ChinaLengthBoundaries | src/pages/Register.tsx:36 | a Chinese number needs exactly eleven digits: nine, ten and twelve fail |
| RegisterPage.UkPatternIsWidest | src/pages/Register.tsx:36-38 | every Chinese or US number also matches the UK pattern |
| RegisterPage.SendCheck | src/pages/Register.tsx:68-77 | sending goes ahead exactly for a non-empty phone matching the chosen country's pattern (an unknown code has none); `enter_phone` first, then `enter_valid_phone` |
| RegisterPage.GenerateCode | src/pages/Register.tsx:86 | `floor(100000 + random * 900000)` as a string: six digits whose value is 100000 plus the draw modulo 900000 |
| RegisterPage.LeadingDigitNonZero | src/pages/Register.tsx:86 | a positive number's decimal form does not start with "0" |
| RegisterPage.Tick | src/pages/Register.tsx:92-99 | a tick takes the countdown one down and stops at 0 |
| RegisterPage.TicksFrom | src/pages/Register.tsx:92-99 | after `k` ticks the countdown is `countdown - k`, or 0 once `k` reaches it |
| RegisterPage.CountdownLastsSixtyTicks | src/pages/Register.tsx:90-100 | the countdown started at 60 reaches 0 exactly after 60 ticks |
| RegisterPage.RegisterCheck | src/pages/Register.tsx:120-138 | registration starts exactly when phone, code and password are filled, the confirmation equals the password, the code equals the one sent and the captcha passed; otherwise the first failing key in that order |
| RegisterPage.NoRegistrationBeforeCodeSent | src/pages/Register.tsx:130 | before a code was sent no registration is accepted |
| RegisterPage.AcceptedMeansButtonEnabled | src/pages/Register.tsx:125-138 | an accepted registration had matching passwords and a passed captcha, the conditions the button checks |
| RegisterPage.EmptyConfirmationRefused | src/pages/Register.tsx:54-127 | an empty confirmation counts as matching for the button but is refused by the guard |
| RegisterPage.Register.constructor | src/pages/Register.tsx:17-32 | empty fields, country "+86", both passwords hidden, no countdown or interval, no code sent, nothing pending, passwords matching |
| RegisterPage.Register.HandleInputChange | src/pages/Register.tsx:51-63 | exactly the named field changes, and the match flag follows the password and confirmation; every other field, the visibility and pending flags included, is unchanged |
| RegisterPage.Register.HandleCountryChange | src/pages/Register.tsx:186 | only the country code changes, stated over the whole page state |
| RegisterPage.Register.TogglePasswordVisibility | src/pages/Register.tsx:153-159 | exactly one of the two visibility flags flips, and nothing else changes |
| RegisterPage.Register.HandleCaptchaVerify | src/pages/Register.tsx:298 | only the captcha verdict changes, stated over the whole page state |
| RegisterPage.Register.SendVerificationCode | src/pages/Register.tsx:65-79 | no change at all while the button is disabled; otherwise the first failing check's toast and nothing else, or loading and sending start and nothing else changes |
| RegisterPage.Register.CompleteSend | src/pages/Register.tsx:83-107 | the generated code is stored, the countdown starts at 60 with its interval running, loading ends and the code is shown in development only; no other field changes |
| RegisterPage.Register.IntervalTick | src/pages/Register.tsx:92-99 | the countdown ticks, and the interval runs exactly while it is above 0; no other field changes |
| RegisterPage.Register.HandleRegister | src/pages/Register.tsx:114-140 | no change at all while loading; otherwise the first failing check's toast and nothing else, or loading and registration start and nothing else changes; a started registration had the submit button enabled |
| RegisterPage.Register.CompleteRegister | src/pages/Register.tsx:143-150 | success toast, navigation home, loading ends; nothing else changes |
| ContactPage.Update | src/pages/Contact.tsx:23-26 | `{ ...prev, [name]: value }`: the named field takes the value |
| ContactPage.UpdateOnlyNamedField | src/pages/Contact.tsx:23-26 | an update changes the named field and no other |
| ContactPage.SubmitCheck | src/pages/Contact.tsx:28-55 | the submission starts exactly when name, email, subject and message are non-empty and the email matches the pattern; otherwise the literal text of the first failing check, in that order |
| ContactPage.EmailPatternShape | src/pages/Contact.tsx:42 | an accepted email holds an "@" and no whitespace |
| ContactPage.EmailExamples | src/pages/Contact.tsx:42 | "user@example.com" is accepted; an address without a dot after the "@", or with a space and no "@", is not |
| ContactPage.BlankFieldsPass | src/pages/Contact.tsx:32-55 | the emptiness checks do not trim: fields holding one space pass |
| ContactPage.Contact.constructor | src/pages/Contact.tsx:9-15 | an empty form, not submitting |
| ContactPage.Contact.HandleChange | src/pages/Contact.tsx:23-26 | the form becomes `Update` of the old one; nothing else changes |
| ContactPage.Contact.HandleSubmit | src/pages/Contact.tsx:28-58 | nothing while the button is disabled; otherwise the first failing check's error toast, or the submission starts with the form kept |
| ContactPage.Contact.CompleteSubmit | src/pages/Contact.tsx:59-68 | the success toast, all four fields cleared, submitting ends |
| CommunityPage.TotalPages | src/pages/Community.tsx:228-230 | `Math.ceil(n / 5)`: the pages hold all items, the last page is not empty, and there are no pages exactly when there are no items |
| CommunityPage.PageSliceContents | src/pages/Community.tsx:222-225 | a page in range shows the next up-to-five items from `(page - 1) * 5`, and at least one |
| CommunityPage.EveryItemOnItsPage | src/pages/Community.tsx:222-230 | item `k` is shown on page `k / 5 + 1`, at position `k % 5`, and that page exists |
| CommunityPage.TwoPagesOfDiscussions | src/pages/Community.tsx:149-230 | the six discussions make two pages: ids 1 to 5, then 6 |
| CommunityPage.HiddenPagesAreTheGaps | src/pages/Community.tsx:390-410 | a page gets no button exactly when it lies between the first page and the current one's neighbours, or between those and the last page |
| CommunityPage.EllipsisMarksEachGap | src/pages/Community.tsx:412-417 | an ellipsis is drawn at page 2 exactly when the first gap is not empty, at the second-to-last page exactly when the second gap is not empty, and nowhere else |
| CommunityPage.PageChange | src/pages/Community.tsx:263-267 | a page in range becomes current; any other request leaves the page as it was |
| CommunityPage.EnabledArrowsMove | src/pages/Community.tsx:382-428 | an enabled previous or next button moves exactly one page |
| CommunityPage.TopicPath | src/pages/Community.tsx:239-241 | a discussion links under "/community/topic/" |
| CommunityPage.Community.constructor | src/pages/Community.tsx:145-149 | page 1, an empty topic, not publishing |
| CommunityPage.Community.HandlePageChange | src/pages/Community.tsx:263-267 | the current page becomes `PageChange` of the request and stays in range |
| CommunityPage.Community.HandleTopicInput | src/pages/Community.tsx:332-338 | the topic text follows the input, except while publishing when the field is disabled |
| CommunityPage.Community.HandleNewTopic | src/pages/Community.tsx:243-255 | nothing while publishing; a visitor who is not logged in gets an info toast and goes to the login page; a blank topic after trimming gets an error toast; otherwise publishing starts |
| CommunityPage.Community.CompleteNewTopic | src/pages/Community.tsx:256-260 | the success toast, the topic cleared, publishing ends |
| CommunityPage.Community.HandleDiscussionClick | src/pages/Community.tsx:239-241 | navigation to the discussion's topic page |
| CommunityTopic.FindById | src/pages/CommunityTopic.tsx:90 | `find`: no index exactly when no topic has the id; otherwise the first topic with that id |
| CommunityTopic.GetTopicDetails | src/pages/CommunityTopic.tsx:88-91 | `null` exactly for a missing or empty id; a found topic is listed and its id is the parsed parameter; `undefined` when the parameter does not parse or no topic has its value |
| CommunityTopic.FoundFromItsId | src/pages/CommunityTopic.tsx:88-91 | a topic's id in decimal, followed by anything that does not start with a digit, finds the first topic with that id |
| CommunityTopic.LinkedTopicOpens | src/pages/CommunityTopic.tsx:88-91 | the route parameter of a discussion link opens that topic |
| CommunityTopic.StripTags | src/pages/CommunityTopic.tsx:282 | `replace(/<\/?p>/g, '')` never lengthens the text |
| CommunityTopic.Collect | src/pages/CommunityTopic.tsx:280-286 | at most one paragraph per line |
| CommunityTopic.CollectAppend | src/pages/CommunityTopic.tsx:280-286 | a further line adds its paragraph, if it has one, at the end and changes none before it |
| CommunityTopic.StripTagsPlainPrefix | src/pages/CommunityTopic.tsx:282 | text without "<" passes through tag removal unchanged |
| CommunityTopic.SimpleParagraph | src/pages/CommunityTopic.tsx:281-283 | a line `<p>x</p>` with no other tag renders `x` |
| CommunityTopic.UnwrappedLineDropped | src/pages/CommunityTopic.tsx:281-285 | a line that does not start with `<p>` after trimming renders nothing |
| CommunityTopic.LikeAll | src/pages/CommunityTopic.tsx:170-174 | every reply with the id gets `(likes \|\| 0) + 1`; the others are kept |
| CommunityTopic.LikeCountsOnce | src/pages/CommunityTopic.tsx:167-176 | a like adds exactly one to the liked reply and changes no content, id, counter or other reply |
| CommunityTopic.AddReplyAppends | src/pages/CommunityTopic.tsx:137-151 | a reply is appended with its content and no likes, the earlier replies stay, and the displayed reply counter does not change |
| CommunityTopic.DoubleLikeCountsOnce | src/pages/CommunityTopic.tsx:162-176 | as written, two likes started from the same rendered topic each write that topic plus one: the second overwrites the first and the reply gains one like, not two |
| CommunityTopic.ReplyUndoesLike | src/pages/CommunityTopic.tsx:146-176 | as written, a reply completing after a like that started from the same topic writes back the old likes |
| CommunityTopic.CorrectedLikesAllCount | src/pages/CommunityTopic.tsx:167-176 | with updates applied to the current topic, `n` likes add exactly `n` |
| CommunityTopic.CorrectedLikeAndReplyCommute | src/pages/CommunityTopic.tsx:146-176 | with updates applied to the current topic, a like and a reply give the same topic in either completion order |
| CommunityTopic.TopicPage.constructor | src/pages/CommunityTopic.tsx:94-107 | the looked-up topic is shown when found; an unknown id toasts "话题不存在" and redirects to "/community"; a missing id does neither |
| CommunityTopic.TopicPage.HandleReplyInput | src/pages/CommunityTopic.tsx:96 | only the reply text changes |
| CommunityTopic.TopicPage.HandleReply | src/pages/CommunityTopic.tsx:120-134 | a visitor who is not logged in is sent to the login page; a blank reply is refused; otherwise a reply timer starts with the text and the rendered topic captured |
| CommunityTopic.TopicPage.HandleLike | src/pages/CommunityTopic.tsx:162-165 | a like timer starts with the rendered topic captured |
| CommunityTopic.TopicPage.CompletePending | src/pages/CommunityTopic.tsx:134-182 | the finished timer writes its update of its captured topic; a reply clears the input and toasts "回复成功！", a like toasts "点赞成功！" |
| CoursesPage.Catalog | src/pages/Courses.tsx:19-68 | the page lists six courses |
| CoursesPage.FilterLevel | src/pages/Courses.tsx:78-83 | the filter never lengthens the list and keeps exactly the courses whose translated level matches the route's level |
| CoursesPage.FilterIsSubsequence | src/pages/Courses.tsx:78-83 | the filtered courses appear in the catalog's order |
| CoursesPage.FilteredIsOrderedSelection | src/pages/Courses.tsx:77-84 | without a level every course is shown; with one, exactly the matching courses, in order |
| CoursesPage.UnknownLevelIsEmpty | src/pages/Courses.tsx:82 | a level other than the three keys shows no course, so the empty state appears |
| CoursesPage.FilterKeepsPair | src/pages/Courses.tsx:78-83 | a level that exactly two positions of the list match shows those two, in order |
| CoursesPage.BeginnerCourses | src/pages/Courses.tsx:19-79 | "beginner" shows courses 1 and 4, provided the beginner name differs from the other two level names |
| CoursesPage.IntermediateCourses | src/pages/Courses.tsx:19-80 | "intermediate" shows courses 2 and 6, under the same proviso |
| CoursesPage.AdvancedCourses | src/pages/Courses.tsx:19-81 | "advanced" shows courses 3 and 5, under the same proviso |

## Left out

- Numbers are unbounded integers. JavaScript's are IEEE doubles, so the source differs above 2^53: `parseInt` of a longer id rounds, so `GET /api/community/discussions/9007199254740993` looks up id 9007199254740992, and likewise for the ids of DELETE and of CommunityTopic's lookup. The `(page - 1) * limit` skip of a huge page is a double too, and the database's integer range for `skip` and for ids is not bounded in the model: ListDiscussions answers 200 with an empty page for every page beyond the end.
- `parseInt` is decimal only: a "0x" prefix, which `parseInt` without a radix reads as hexadecimal, and other radices are not modelled.
- `String.prototype.replace` special `$` patterns in replacement values are not modelled: the i18n parameter values are inserted literally.
- Lengths are counted in characters, not in UTF-16 code units.
- Database failures are not modelled. The other failures that reach the route handlers' `catch` blocks are: `jwt.sign` throwing, a `None` from `sign` that makes Login answer 500 "登录失败，请稍后重试"; and `jwt.verify` throwing something other than a token error, a `Thrown` outcome of `verify`. The routes read `process.env.JWT_SECRET` directly, and the `dev_secret_key` default of `server/src/config/env.js` is never written back to `process.env`, so a development server started without `JWT_SECRET` passes `validateEnv` (EnvConfig.ProductionNeedsSecret) yet answers every login with that 500.
- bcrypt salting and the cost factor 12: hashing is an abstract function of the password.
- Express routing details (case-insensitive paths, array-valued query parameters) are not modelled. A query parameter is an optional string.
- The order of the discussion listing (`orderBy createdAt desc`) is taken as an input sequence. The author `include` join is not modelled.
- Timer delays (800, 1000, 1200 and 1500 ms, the one-second countdown interval): only the order of completions is modelled, not their times.
- The CORS defaults in `server/src/app.ts` (three localhost origins) differ from those of `server/src/config/env.js` (two). Each module models its own file's defaults.
- AuthMiddleware.OptionalUser: its own contract states only that a user needs a decoded bearer token. The full characterisation is `AuthMiddleware.OptionalAgreesWithStrict`.
- Object key order of the validators' error dictionaries is not modelled: only which keys are present.
- `String()` of non-integer numbers is not modelled: i18n parameter values are strings or naturals.
- The i18n dictionary is an abstract translation function.
- The browser's `storage` event is an input of `HandleStorageChange`. The `localStorage` write inside the i18n library is not modelled.
- The SVG rendering and the noise lines of the digit captcha are not modelled, and neither are image decoding and animation.
- WeChat login, `handleLogout`, the authentication context provider and `window.scrollTo` are not modelled. Whether the visitor is logged in is a parameter.
- Register's interval cleanup on unmount is not modelled.
- The `catch` branches of the client handlers are not modelled: nothing inside their `try` blocks can throw.
- CommunityTopic's `showRetryButton` flag is not modelled: it is set only in `handleReply`'s `catch` branch, which nothing reaches (see the line above), so the flag stays false and the retry button is never shown.
- CommunityTopic's `topicsData` literal is not modelled: the topic list is the parameter `topics`, about which nothing is assumed. For the course literals, the texts, durations and images are not modelled, and only the ids and levels that the filter reads are kept.
- Registration on the client does not log the user in (`setIsAuthenticated` is never called there), and the model keeps that.
- The captcha's refresh and verify buttons have no `type`, so a click on either also submits the enclosing Login or Register form, whatever the submit button's `disabled` says. The model's submit handlers therefore do not rely on that button. Login queues overlapping requests, and Register's handler is guarded by its own `isLoading` check. The click and the submission are separate steps in the model; that one click triggers both is not modelled.
- The browser's checks on `required` inputs (and on `type="email"`) are not modelled: they are on the Login form, all four Register inputs and the Contact form. A browser would refuse such a submission before the handler runs, so the handlers' own emptiness checks model what happens without those checks. These are Register's `fill_all_fields`, Contact's emptiness toasts and the empty confirmation of RegisterPage.EmptyConfirmationRefused. Implicit form submission by Enter is not modelled.
- A JSON body field that is present but not a string, such as `{"phone": 12345678}`, is folded into an absent field (`None`) in AuthRoutes and CommunityRoutes. zod's `z.string()` then reports "Expected string, received number" where the model gives "Required"; the 400 status is the same.

## Findings

| source | as written | input that shows it | evidently intended | confidence | as-written member | corrected member |
|---|---|---|---|---|---|---|
| src/pages/Login.tsx:111 | the phone is reduced to its digits and looked up in `testPhoneNumbers`, whose entries all start with "+" | any phone, e.g. a listed "+8612345678" typed as shown | listed numbers are accepted | not executed | LoginPage.LookupAlwaysFails, LoginPage.GeneratedListLocksEveryoneOut | LoginPage.CorrectedLookupAcceptsListedNumbers |
| src/utils/index.ts:168-183 | `calculateStrength` can return 4, but labels and colours exist only for 0 to 3, so 4 falls back to weak and red | "Abcdefgh1234" | the strongest password shows the strongest label | not executed | ClientUtils.StrongestPasswordShownWeak | ClientUtils.DisplayedStrength, ClientUtils.DisplayedLabelMonotone |
| src/components/ImageCaptcha.tsx:186 | the images whose `onLoad`/`onError` end loading are rendered only once loading is over | mounting the widget: no event sequence ever ends loading | loading ends once all nine images have reported | not executed | ImageCaptcha.LoadingNeverEnds, ImageCaptcha.MountedWidgetNeverLoads | ImageCaptcha.CorrectedLoadingEnds, ImageCaptcha.ImageEventsCount |
| src/pages/CommunityTopic.tsx:146-175 | the delayed updates write a change of the `topicDetails` captured when the handler ran, not of the current state | two likes on the same reply within 500 ms leave it at 1 like, not 2 | every like and reply counts | not executed | CommunityTopic.DoubleLikeCountsOnce, CommunityTopic.ReplyUndoesLike | CommunityTopic.CorrectedLikesAllCount, CommunityTopic.CorrectedLikeAndReplyCommute |

=== FILE: app.dfy ===
/** The request-level decisions of the Express application: the CORS origin
    callback, the single-page-application fallback for paths outside `/api`,
    and the JSON 404 for unknown API paths. */
module App {
  import opened Options
  import opened JsString
  import ErrorHandler

  datatype CorsOutcome = Allow | Deny(error: string)

  /** The allowlist used when `CORS_ORIGIN` is not set. */
  const DefaultAllowedOrigins: seq<string> :=
    ["http://localhost:3000", "http://localhost:5173", "https://your-username.github.io"]

  /** `process.env.CORS_ORIGIN?.split(",") || [...]`: an unset variable
      gives the defaults; a set one (even the empty string) is split. */
  function AllowedOrigins(corsEnv: Option<string>): (r: seq<string>)
    ensures corsEnv.None? ==> r == DefaultAllowedOrigins
    ensures corsEnv.Some? ==> Join(r, ",") == corsEnv.value && forall i :: 0 <= i < |r| ==> ',' !in r[i]
  {
    match corsEnv
    case None => DefaultAllowedOrigins
    case Some(v) =>
      JoinSplit(v, ',');
      Split(v, ',')
  }

  /** The `origin` callback of the CORS options. */
  function CorsDecision(origin: Option<string>, corsEnv: Option<string>): (r: CorsOutcome)
    ensures origin.None? || origin == Some("") ==> r == Allow
    ensures origin.Some? && Includes(origin.value, "localhost") ==> r == Allow
    ensures origin.Some? && origin.value != "" && !Includes(origin.value, "localhost") ==>
              (r == Allow <==> origin.value in AllowedOrigins(corsEnv) || "*" in AllowedOrigins(corsEnv))
    ensures r.Deny? ==> r.error == ErrorHandler.CorsErrorMessage
  {
    var allowed := AllowedOrigins(corsEnv);
    if origin.None? || origin.value == "" then Allow
    else if Includes(origin.value, "localhost") then Allow
    else if origin.value in allowed || "*" in allowed then Allow
    else Deny(ErrorHandler.CorsErrorMessage)
  }

  /** The substring test accepts every origin that mentions "localhost"
      anywhere, such as a host whose name merely contains it, whatever the
      allowlist says. */
  lemma LocalhostAnywhereAllowed(pre: string, post: string, corsEnv: Option<string>)
    ensures CorsDecision(Some(pre + "localhost" + post), corsEnv) == Allow
  {
    var o := pre + "localhost" + post;
    assert o[|pre|..|pre| + 9] == "localhost";
    assert OccursAt(o, "localhost", |pre|);
  }

  /** An illustration with the defaults: the published site is allowed,
      and an unrelated origin is refused. */
  lemma DefaultAllowlistDecisions()
    ensures CorsDecision(Some("https://your-username.github.io"), None) == Allow
    ensures CorsDecision(Some("https://example.com"), None) == Deny(ErrorHandler.CorsErrorMessage)
  {
    var o := "https://example.com";
    assert !Includes(o, "localhost") by {
      forall i: nat | |o| >= i ensures !OccursAt(o, "localhost", i) {
        if i + 9 <= |o| {
          assert o[i..i + 9][0] == o[i];
        }
      }
    }
  }

  /** A refused origin ends at the error handler as a 403. */
  lemma CorsRefusalIs403(origin: Option<string>, corsEnv: Option<string>,
                         name: Option<string>, stack: string, path: string, nodeEnv: Option<string>, now: string)
    requires CorsDecision(origin, corsEnv).Deny?
    ensures ErrorHandler.HandleError(
              ErrorHandler.AppError(name, CorsDecision(origin, corsEnv).error, stack, None, None, []),
              path, nodeEnv, now) == ErrorHandler.Response(403, ErrorHandler.Message(ErrorHandler.CorsDenied))
  {
  }

  // ---------------------------------------------------------------------
  // Requests no API route answered

  datatype Unmatched =
    | SendIndex
    | ApiNotFound(message: string, path: string, verb: string)
    | FinalNotFound

  const ApiNotFoundMessage := "接口不存在"

  /** `app.get("*")` also answers HEAD requests. */
  predicate IsGetLike(verb: string) {
    verb == "GET" || verb == "HEAD"
  }

  /** What happens to a request that no API route and no static file
      answered: the SPA fallback (GET only, paths outside "/api", when
      `index.html` exists), then the JSON 404 for paths under "/api/", else Express's own
      final 404. */
  function RouteUnmatched(path: string, originalUrl: string, verb: string, indexExists: bool): (r: Unmatched)
    ensures r == SendIndex <==> IsGetLike(verb) && !StartsWith(path, "/api") && indexExists
    ensures r.ApiNotFound? <==> StartsWith(path, "/api/")
    ensures r.ApiNotFound? ==> r == ApiNotFound(ApiNotFoundMessage, originalUrl, verb)
  {
    if IsGetLike(verb) && !StartsWith(path, "/api") && indexExists then SendIndex
    else if StartsWith(path, "/api/") then ApiNotFound(ApiNotFoundMessage, originalUrl, verb)
    else FinalNotFound
  }

  /** The fallback never serves the application for an API path. */
  lemma ApiPathsNeverGetIndex(path: string, originalUrl: string, verb: string, indexExists: bool)
    requires StartsWith(path, "/api")
    ensures RouteUnmatched(path, originalUrl, verb, indexExists) != SendIndex
  {
  }

  /** A path such as "/apiary" starts with "/api" but not with "/api/": it
      gets neither the application nor the JSON 404. */
  lemma ApiLookalikeFallsThrough(indexExists: bool)
    ensures RouteUnmatched("/apiary", "/apiary", "GET", indexExists) == FinalNotFound
  {
    assert "/apiary"[..4] == "/api";
    assert "/apiary"[4] != "/api/"[4];
  }
}

=== FILE: auth_middleware.dfy ===
/** The two authentication middlewares. Both read the bearer token of the
    request, verify it, and look its user up again by id; the strict one
    answers 401 or 500 when that fails, the optional one lets the request
    through either way. */
module AuthMiddleware {
  import opened Options
  import opened Jwt
  import opened Users

  /** What the strict middleware does with a request: answer it, or attach
      a user and call `next()`. */
  datatype Decision =
    | Reject(status: int, message: string)
    | Proceed(user: PublicUser)

  /** The statuses the strict middleware answers with. */
  predicate Rejects401Or500(d: Decision) {
    d.Reject? ==> d.status == 401 || d.status == 500
  }

  const MissingToken := "缺少认证令牌"
  const UserGone := "用户不存在或已被删除"
  const InvalidToken := "无效的认证令牌"
  const ExpiredToken := "认证令牌已过期"
  const AuthFailed := "认证处理失败"

  /** The request as the middlewares see it: the Authorization header, and
      the `user` slot they fill in. */
  class AuthRequest {
    const authorization: Option<string>
    var user: Option<PublicUser>

    constructor (authorization: Option<string>)
      ensures this.authorization == authorization && user == None
    {
      this.authorization := authorization;
      user := None;
    }
  }

  /** `authMiddleware`, as a decision. A thrown error is classified by
      testing `JsonWebTokenError` first and `TokenExpiredError` second. */
  function Decide(header: Option<string>, verify: string -> VerifyOutcome, byId: map<int, User>): (r: Decision)
    ensures BearerToken(header).None? ==> r == Reject(401, MissingToken)
    ensures r.Proceed? <==>
              BearerToken(header).Some? && verify(BearerToken(header).value).Decoded? &&
              verify(BearerToken(header).value).claims.id in byId
    ensures r.Proceed? ==> r.user == Public(byId[verify(BearerToken(header).value).claims.id])
    ensures Rejects401Or500(r)
    ensures r == Reject(500, AuthFailed) <==>
              BearerToken(header).Some? && verify(BearerToken(header).value).Thrown? &&
              !verify(BearerToken(header).value).isJsonWebTokenError &&
              !verify(BearerToken(header).value).isTokenExpiredError
    ensures BearerToken(header).Some? && verify(BearerToken(header).value).Decoded? &&
            verify(BearerToken(header).value).claims.id !in byId ==>
              r == Reject(401, UserGone)
    ensures BearerToken(header).Some? && verify(BearerToken(header).value).Thrown? &&
            verify(BearerToken(header).value).isJsonWebTokenError ==>
              r == Reject(401, InvalidToken)
    ensures BearerToken(header).Some? && verify(BearerToken(header).value).Thrown? &&
            !verify(BearerToken(header).value).isJsonWebTokenError &&
            verify(BearerToken(header).value).isTokenExpiredError ==>
              r == Reject(401, ExpiredToken)
  {
    match BearerToken(header)
    case None => Reject(401, MissingToken)
    case Some(token) =>
      match verify(token)
      case Thrown(isJwtError, isExpired) =>
        if isJwtError then Reject(401, InvalidToken)
        else if isExpired then Reject(401, ExpiredToken)
        else Reject(500, AuthFailed)
      case Decoded(claims) =>
        match FindById(byId, claims.id)
        case None => Reject(401, UserGone)
        case Some(u) => Proceed(PublicUser(u.id, u.phone))
  }

  /** `authMiddleware` on a request: on success `req.user` is set and the
      request goes on; on failure the request is answered and left as it was. */
  method Authenticate(req: AuthRequest, verify: string -> VerifyOutcome, byId: map<int, User>)
    returns (d: Decision)
    modifies req
    ensures d == Decide(req.authorization, verify, byId)
    ensures d.Proceed? ==> req.user == Some(d.user)
    ensures d.Reject? ==> req.user == old(req.user)
  {
    d := Decide(req.authorization, verify, byId);
    if d.Proceed? {
      req.user := Some(d.user);
    }
  }

  /** `optionalAuthMiddleware`: the user a request carries, if any; every
      failure is swallowed. */
  function OptionalUser(header: Option<string>, verify: string -> VerifyOutcome, byId: map<int, User>): (r: Option<PublicUser>)
    ensures r.Some? ==> BearerToken(header).Some? && verify(BearerToken(header).value).Decoded?
  {
    match BearerToken(header)
    case None => None
    case Some(token) =>
      match verify(token)
      case Thrown(_, _) => None
      case Decoded(claims) =>
        match FindById(byId, claims.id)
        case None => None
        case Some(u) => Some(PublicUser(u.id, u.phone))
  }

  /** `optionalAuthMiddleware` on a request: `req.user` is set only when a
      user is found, and the request always goes on. */
  method AuthenticateOptionally(req: AuthRequest, verify: string -> VerifyOutcome, byId: map<int, User>)
    modifies req
    ensures req.user == if OptionalUser(req.authorization, verify, byId).Some?
                        then OptionalUser(req.authorization, verify, byId) else old(req.user)
  {
    var found := OptionalUser(req.authorization, verify, byId);
    if found.Some? {
      req.user := found;
    }
  }

  /** The optional middleware attaches a user exactly when the strict one
      would let the request through, and it attaches the same user. */
  lemma OptionalAgreesWithStrict(header: Option<string>, verify: string -> VerifyOutcome, byId: map<int, User>)
    ensures OptionalUser(header, verify, byId).Some? <==> Decide(header, verify, byId).Proceed?
    ensures Decide(header, verify, byId).Proceed? ==>
              OptionalUser(header, verify, byId) == Some(Decide(header, verify, byId).user)
  {
  }

  /** The attached user comes from the store: its phone is the stored one,
      whatever phone the token's claims carry. */
  lemma AttachedPhoneIgnoresClaims(header: Option<string>, verify: string -> VerifyOutcome,
                                   verify': string -> VerifyOutcome, byId: map<int, User>)
    requires BearerToken(header).Some?
    requires verify(BearerToken(header).value).Decoded? && verify'(BearerToken(header).value).Decoded?
    requires verify(BearerToken(header).value).claims.id == verify'(BearerToken(header).value).claims.id
    ensures Decide(header, verify, byId) == Decide(header, verify', byId)
  {
  }

  /** Because `TokenExpiredError` is a subclass of `JsonWebTokenError` and is
      tested second, the "expired" answer is unreachable: an expired token
      gets the "invalid" message. */
  lemma ExpiredMessageUnreachable(header: Option<string>, verify: string -> VerifyOutcome, byId: map<int, User>)
    requires BearerToken(header).Some? ==> RespectsHierarchy(verify(BearerToken(header).value))
    ensures Decide(header, verify, byId) != Reject(401, ExpiredToken)
  {
  }

  /** The "expired" answer needs an error that is a `TokenExpiredError`
      without being a `JsonWebTokenError`, which the library never throws. */
  lemma ExpiredMessageNeedsBrokenHierarchy(header: Option<string>, verify: string -> VerifyOutcome, byId: map<int, User>)
    requires Decide(header, verify, byId) == Reject(401, ExpiredToken)
    ensures BearerToken(header).Some? && !RespectsHierarchy(verify(BearerToken(header).value))
  {
  }
}

=== FILE: auth_routes.dfy ===
/** The `/api/auth` router: registration, login and the current-user query.
    The user table is a `Users.UserStore`; bcrypt is the pair of functions
    `hash` (what is stored) and `matches` (`bcrypt.compare`); `jwt.sign` and
    `jwt.verify` are the functions `sign` (`None` when it throws) and `verify`; the database clock is
    the value `now`. */
module AuthRoutes {
  import opened Options
  import opened JsString
  import opened Jwt
  import opened Users

  /** The profile `/me` selects: `{ id, phone, createdAt }`. */
  datatype Profile = Profile(id: int, phone: string, createdAt: int)

  datatype Body =
    | Message(message: string)
    | Invalid(message: string, fieldErrors: map<string, seq<string>>)
    | Created(id: int, phone: string, createdAt: int)
    | LoggedIn(token: string, user: PublicUser)
    | CurrentUser(profile: Profile)

  datatype Response = Response(status: int, body: Body)

  /** The request body: an absent field is `None`. A field that is present
      but not a string is folded into `None` as well, although zod words its
      issue differently. */
  datatype Credentials = Credentials(phone: Option<string>, password: Option<string>)

  const ValidationFailed := "参数验证失败"
  const PhoneTaken := "手机号已注册"
  const BadCredentials := "手机号或密码错误"
  const Unauthenticated := "未认证"
  const InvalidTokenMessage := "无效的认证令牌"
  const NoSuchUser := "用户不存在"
  const MeFailed := "获取用户信息失败"
  const LoginFailed := "登录失败，请稍后重试"
  /** zod's message for an absent field. */
  const Required := "Required"
  /** zod's default message for `.min(6)` on a string. */
  const LoginMinMessage := "String must contain at least 6 character(s)"

  // ---------------------------------------------------------------------
  // registerSchema and loginSchema

  /** `[0-9+\-\s()]` */
  predicate IsRegisterPhoneChar(c: char) {
    IsDigit(c) || c == '+' || c == '-' || IsWhitespace(c) || c == '(' || c == ')'
  }

  predicate RegisterPhoneOk(phone: Option<string>) {
    phone.Some? && 6 <= |phone.value| <= 20 &&
    forall i :: 0 <= i < |phone.value| ==> IsRegisterPhoneChar(phone.value[i])
  }

  predicate RegisterPasswordOk(password: Option<string>) {
    password.Some? && 6 <= |password.value| <= 100
  }

  predicate RegisterSchemaOk(body: Credentials) {
    RegisterPhoneOk(body.phone) && RegisterPasswordOk(body.password)
  }

  /** The issues zod reports for the phone: every failing check, in the
      order min, max, regex. */
  function RegisterPhoneIssues(phone: Option<string>): (r: seq<string>)
    ensures r == [] <==> RegisterPhoneOk(phone)
    ensures phone.Some? && |phone.value| < 6 ==> "手机号至少6位" in r
    ensures phone.Some? && |phone.value| > 20 ==> "手机号最多20位" in r
  {
    match phone
    case None => [Required]
    case Some(p) =>
      (if |p| < 6 then ["手机号至少6位"] else []) +
      (if |p| > 20 then ["手机号最多20位"] else []) +
      (if p != [] && forall i :: 0 <= i < |p| ==> IsRegisterPhoneChar(p[i]) then [] else ["手机号格式不正确"])
  }

  function RegisterPasswordIssues(password: Option<string>): (r: seq<string>)
    ensures r == [] <==> RegisterPasswordOk(password)
  {
    match password
    case None => [Required]
    case Some(p) =>
      (if |p| < 6 then ["密码至少6位"] else []) +
      (if |p| > 100 then ["密码最多100位"] else [])
  }

  /** `error.flatten().fieldErrors`: one entry per field that has issues. */
  function FieldErrors(phoneIssues: seq<string>, passwordIssues: seq<string>): (r: map<string, seq<string>>)
    ensures "phone" in r <==> phoneIssues != []
    ensures "password" in r <==> passwordIssues != []
    ensures r.Keys <= {"phone", "password"}
    ensures "phone" in r ==> r["phone"] == phoneIssues
    ensures "password" in r ==> r["password"] == passwordIssues
  {
    var withPhone: map<string, seq<string>> := if phoneIssues == [] then map[] else map["phone" := phoneIssues];
    if passwordIssues == [] then withPhone else withPhone["password" := passwordIssues]
  }

  predicate LoginSchemaOk(body: Credentials) {
    body.phone.Some? && |body.phone.value| >= 6 &&
    body.password.Some? && |body.password.value| >= 6
  }

  function LoginFieldIssues(field: Option<string>): (r: seq<string>)
    ensures r == [] <==> field.Some? && |field.value| >= 6
  {
    match field
    case None => [Required]
    case Some(s) => if |s| < 6 then [LoginMinMessage] else []
  }

  // ---------------------------------------------------------------------
  // POST /register

  /** `POST /register`: schema check (400), duplicate phone (409), then the
      insertion of exactly one user whose stored password is `hash(password)`
      (201, answering only id, phone and createdAt). */
  method Register(store: UserStore, body: Credentials, hash: string -> string, now: int)
    returns (res: Response)
    requires store.Valid()
    modifies store
    ensures store.Valid()
    ensures !RegisterSchemaOk(body) ==>
              res == Response(400, Invalid(ValidationFailed,
                                           FieldErrors(RegisterPhoneIssues(body.phone),
                                                       RegisterPasswordIssues(body.password)))) &&
              store.byId == old(store.byId) && store.byPhone == old(store.byPhone) &&
              store.nextId == old(store.nextId)
    ensures RegisterSchemaOk(body) && body.phone.value in old(store.byPhone) ==>
              res == Response(409, Message(PhoneTaken)) &&
              store.byId == old(store.byId) && store.byPhone == old(store.byPhone) &&
              store.nextId == old(store.nextId)
    ensures RegisterSchemaOk(body) && body.phone.value !in old(store.byPhone) ==>
              var u := NewUser(old(store.nextId), body.phone.value, hash(body.password.value), now);
              res == Response(201, Created(u.id, u.phone, u.createdAt)) &&
              store.byId == old(store.byId)[u.id := u] &&
              store.byPhone == old(store.byPhone)[u.phone := u.id] &&
              store.nextId == old(store.nextId) + 1
  {
    if !RegisterSchemaOk(body) {
      var errors := FieldErrors(RegisterPhoneIssues(body.phone), RegisterPasswordIssues(body.password));
      return Response(400, Invalid(ValidationFailed, errors));
    }
    var phone, password := body.phone.value, body.password.value;
    FindByPhoneConsistent(store.byId, store.byPhone, store.nextId, phone);
    var existing := FindByPhone(store.byId, store.byPhone, phone);
    if existing.Some? {
      return Response(409, Message(PhoneTaken));
    }
    var hashed := hash(password);
    var user := store.Create(phone, hashed, now);
    res := Response(201, Created(user.id, user.phone, user.createdAt));
  }

  /** A successful registration adds one user: the store grows by exactly
      one row, which is the only row with that phone. */
  lemma RegisterAddsOneUser(byId: map<int, User>, byPhone: map<string, int>, nextId: int,
                            phone: string, passwordHash: string, now: int)
    requires Consistent(byId, byPhone, nextId)
    requires phone !in byPhone
    ensures |byId[nextId := NewUser(nextId, phone, passwordHash, now)]| == |byId| + 1
    ensures forall i | i in byId :: byId[nextId := NewUser(nextId, phone, passwordHash, now)][i] == byId[i]
  {
    assert nextId !in byId;
  }

  // ---------------------------------------------------------------------
  // POST /login

  /** `POST /login`: schema check, lookup by phone, `bcrypt.compare`, then a
      token signed over `{id, phone}`. `sign` is `None` when `jwt.sign`
      throws, as it does when `process.env.JWT_SECRET` is unset; the
      `catch` block then answers 500. */
  function Login(byId: map<int, User>, byPhone: map<string, int>, body: Credentials,
                 matches: (string, string) -> bool, sign: Claims -> Option<string>): (r: Response)
    ensures r.status == 400 <==> !LoginSchemaOk(body)
    ensures r.status == 400 ==>
              r.body == Invalid(ValidationFailed, FieldErrors(LoginFieldIssues(body.phone),
                                                              LoginFieldIssues(body.password)))
    ensures r.status == 401 <==>
              LoginSchemaOk(body) &&
              (FindByPhone(byId, byPhone, body.phone.value).None? ||
               !matches(body.password.value, FindByPhone(byId, byPhone, body.phone.value).value.passwordHash))
    ensures r.status == 200 <==>
              LoginSchemaOk(body) && FindByPhone(byId, byPhone, body.phone.value).Some? &&
              matches(body.password.value, FindByPhone(byId, byPhone, body.phone.value).value.passwordHash) &&
              var u := FindByPhone(byId, byPhone, body.phone.value).value;
              sign(Claims(u.id, u.phone)).Some?
    ensures r.status == 200 ==>
              var u := FindByPhone(byId, byPhone, body.phone.value).value;
              r.body == LoggedIn(sign(Claims(u.id, u.phone)).value, PublicUser(u.id, u.phone))
    ensures r.status in {200, 400, 401, 500}
    ensures r.status == 401 ==> r.body == Message(BadCredentials)
    ensures r.status == 500 ==> r.body == Message(LoginFailed)
  {
    if !LoginSchemaOk(body) then
      Response(400, Invalid(ValidationFailed, FieldErrors(LoginFieldIssues(body.phone),
                                                          LoginFieldIssues(body.password))))
    else
      match FindByPhone(byId, byPhone, body.phone.value)
      case None => Response(401, Message(BadCredentials))
      case Some(user) =>
        if !matches(body.password.value, user.passwordHash) then Response(401, Message(BadCredentials))
        else
          match sign(Claims(user.id, user.phone))
          case None => Response(500, Message(LoginFailed))
          case Some(token) => Response(200, LoggedIn(token, PublicUser(user.id, user.phone)))
  }

  /** The login schema asks for no more than six characters in each field:
      there is no upper bound and no character check. */
  lemma LoginSchemaHasNoUpperBound(phone: string, password: string)
    requires |phone| >= 6 && |password| >= 6
    ensures LoginSchemaOk(Credentials(Some(phone), Some(password)))
  {
  }

  /** An unknown phone and a wrong password for a known phone cannot be told
      apart from the response. */
  lemma {:induction false} LoginFailuresIndistinguishable(
    byId: map<int, User>, byPhone: map<string, int>, nextId: int,
    unknown: Credentials, wrong: Credentials,
    matches: (string, string) -> bool, sign: Claims -> Option<string>)
    requires Consistent(byId, byPhone, nextId)
    requires LoginSchemaOk(unknown) && unknown.phone.value !in byPhone
    requires LoginSchemaOk(wrong) && wrong.phone.value in byPhone
    requires !matches(wrong.password.value, byId[byPhone[wrong.phone.value]].passwordHash)
    ensures Login(byId, byPhone, unknown, matches, sign) == Login(byId, byPhone, wrong, matches, sign)
    ensures Login(byId, byPhone, unknown, matches, sign) == Response(401, Message(BadCredentials))
  {
    FindByPhoneConsistent(byId, byPhone, nextId, unknown.phone.value);
    FindByPhoneConsistent(byId, byPhone, nextId, wrong.phone.value);
  }

  /** Registering and then logging in with the same credentials succeeds,
      with a token over the new user's id and phone, as long as `matches`
      accepts every password against its own hash. */
  lemma {:induction false} RegisterThenLogin(
    byId: map<int, User>, byPhone: map<string, int>, nextId: int,
    body: Credentials, hash: string -> string, matches: (string, string) -> bool,
    sign: Claims -> Option<string>, now: int)
    requires Consistent(byId, byPhone, nextId)
    requires RegisterSchemaOk(body) && body.phone.value !in byPhone
    requires forall p :: matches(p, hash(p))
    ensures var u := NewUser(nextId, body.phone.value, hash(body.password.value), now);
            Login(byId[u.id := u], byPhone[u.phone := u.id], body, matches, sign) ==
              if sign(Claims(nextId, body.phone.value)).Some?
              then Response(200, LoggedIn(sign(Claims(nextId, body.phone.value)).value, PublicUser(nextId, body.phone.value)))
              else Response(500, Message(LoginFailed))
  {
    var u := NewUser(nextId, body.phone.value, hash(body.password.value), now);
    InsertKeepsConsistent(byId, byPhone, nextId, u.phone, u.passwordHash, now);
    assert FindByPhone(byId[u.id := u], byPhone[u.phone := u.id], u.phone) == Some(u);
    assert matches(body.password.value, hash(body.password.value));
  }

  // ---------------------------------------------------------------------
  // GET /me

  /** `GET /me`: a bearer header (401), token verification (401 for a
      `JsonWebTokenError`, 500 for anything else thrown), then the user the
      decoded id names (404 when it no longer exists). */
  function Me(header: Option<string>, verify: string -> VerifyOutcome, byId: map<int, User>): (r: Response)
    ensures BearerToken(header).None? ==> r == Response(401, Message(Unauthenticated))
    ensures r.status == 200 <==>
              BearerToken(header).Some? && verify(BearerToken(header).value).Decoded? &&
              verify(BearerToken(header).value).claims.id in byId
    ensures r.status == 200 ==>
              var u := byId[verify(BearerToken(header).value).claims.id];
              r.body == CurrentUser(Profile(u.id, u.phone, u.createdAt))
    ensures r.status == 404 <==>
              BearerToken(header).Some? && verify(BearerToken(header).value).Decoded? &&
              verify(BearerToken(header).value).claims.id !in byId
    ensures r.status == 500 <==>
              BearerToken(header).Some? && verify(BearerToken(header).value).Thrown? &&
              !verify(BearerToken(header).value).isJsonWebTokenError
    ensures BearerToken(header).Some? && verify(BearerToken(header).value).Thrown? &&
            verify(BearerToken(header).value).isJsonWebTokenError ==>
              r == Response(401, Message(InvalidTokenMessage))
    ensures r.status == 404 ==> r.body == Message(NoSuchUser)
    ensures r.status == 500 ==> r.body == Message(MeFailed)
  {
    match BearerToken(header)
    case None => Response(401, Message(Unauthenticated))
    case Some(token) =>
      match verify(token)
      case Thrown(isJwtError, _) =>
        if isJwtError then Response(401, Message(InvalidTokenMessage)) else Response(500, Message(MeFailed))
      case Decoded(claims) =>
        match FindById(byId, claims.id)
        case None => Response(404, Message(NoSuchUser))
        case Some(u) => Response(200, CurrentUser(Profile(u.id, u.phone, u.createdAt)))
  }

  /** Under the library's class hierarchy an expired token is a
      `JsonWebTokenError`, so `/me` answers it with 401 and never 500. */
  lemma MeExpiredIsUnauthorized(header: Option<string>, verify: string -> VerifyOutcome, byId: map<int, User>)
    requires BearerToken(header).Some?
    requires verify(BearerToken(header).value).Thrown? && verify(BearerToken(header).value).isTokenExpiredError
    requires RespectsHierarchy(verify(BearerToken(header).value))
    ensures Me(header, verify, byId) == Response(401, Message(InvalidTokenMessage))
  {
  }
}

=== FILE: client_utils.dfy ===
/** The client's utility functions: the form validators, the password
    strength meter, phone and text formatting, the browser-language fallback
    and the breakpoint selection. Translation is recorded as the key handed
    to `t` (see `Ui.Text`). */
module ClientUtils {
  import opened Options
  import opened JsString
  import opened Ui
  import opened Constants

  /** `{ isValid, errors }`: one entry per field that failed. */
  datatype ValidationResult = ValidationResult(isValid: bool, errors: map<string, Text>)

  // ---------------------------------------------------------------------
  // validation.*

  /** `validatePhone(phone, t, countryCode)`: empty, then the country's
      length (skipped for an unknown country), then the pattern. */
  method ValidatePhone(phone: string, countryCode: string) returns (res: ValidationResult)
    ensures res.isValid <==> res.errors == map[]
    ensures res.errors.Keys <= {"phone"}
    ensures phone == "" ==> res.errors == map["phone" := Tr("validation.phone_required")]
    ensures phone != "" && FindCountry(countryCode).Some? && |phone| != FindCountry(countryCode).value.maxLength ==>
              res.errors == map["phone" := TrParams("validation.phone_length",
                                                    map["length" := FindCountry(countryCode).value.maxLength])]
    ensures res.isValid <==>
              phone != "" && PhonePattern(phone) &&
              (FindCountry(countryCode).None? || |phone| == FindCountry(countryCode).value.maxLength)
    ensures phone != "" && (FindCountry(countryCode).None? || |phone| == FindCountry(countryCode).value.maxLength) &&
            !PhonePattern(phone) ==>
              res.errors == map["phone" := Tr("validation.phone_invalid")]
  {
    var errors: map<string, Text> := map[];
    var country := FindCountry(countryCode);
    if phone == "" {
      errors := errors["phone" := Tr("validation.phone_required")];
    } else if country.Some? && |phone| != country.value.maxLength {
      errors := errors["phone" := TrParams("validation.phone_length", map["length" := country.value.maxLength])];
    } else if !PhonePattern(phone) {
      errors := errors["phone" := Tr("validation.phone_invalid")];
    }
    res := ValidationResult(|errors| == 0, errors);
  }

  /** `validatePassword(password, t)`: empty, too short, too long; no
      character-class requirement. */
  method ValidatePassword(password: string) returns (res: ValidationResult)
    ensures res.isValid <==> res.errors == map[]
    ensures res.errors.Keys <= {"password"}
    ensures res.isValid <==> PasswordMinLength <= |password| <= PasswordMaxLength
    ensures password == "" ==> res.errors == map["password" := Tr("validation.password_required")]
    ensures 0 < |password| < PasswordMinLength ==>
              res.errors == map["password" := TrParams("validation.password_min_length", map["min" := PasswordMinLength])]
    ensures |password| > PasswordMaxLength ==>
              res.errors == map["password" := TrParams("validation.password_max_length", map["max" := PasswordMaxLength])]
  {
    var errors: map<string, Text> := map[];
    if password == "" {
      errors := errors["password" := Tr("validation.password_required")];
    } else if |password| < PasswordMinLength {
      errors := errors["password" := TrParams("validation.password_min_length", map["min" := PasswordMinLength])];
    } else if |password| > PasswordMaxLength {
      errors := errors["password" := TrParams("validation.password_max_length", map["max" := PasswordMaxLength])];
    }
    res := ValidationResult(|errors| == 0, errors);
  }

  /** `validateEmail(email, t)` */
  method ValidateEmail(email: string) returns (res: ValidationResult)
    ensures res.isValid <==> res.errors == map[]
    ensures res.errors.Keys <= {"email"}
    ensures res.isValid <==> EmailPattern(email)
    ensures email == "" ==> res.errors == map["email" := Tr("validation.email_required")]
    ensures email != "" && !EmailPattern(email) ==> res.errors == map["email" := Tr("validation.email_invalid")]
  {
    var errors: map<string, Text> := map[];
    if email == "" {
      errors := errors["email" := Tr("validation.email_required")];
    } else if !EmailPattern(email) {
      errors := errors["email" := Tr("validation.email_invalid")];
    }
    res := ValidationResult(|errors| == 0, errors);
  }

  /** `validateVerificationCode(code, t)`: empty, wrong length, non-digits. */
  method ValidateVerificationCode(code: string) returns (res: ValidationResult)
    ensures res.isValid <==> res.errors == map[]
    ensures res.errors.Keys <= {"code"}
    ensures res.isValid <==> |code| == CodeLength && AllDigits(code)
    ensures code == "" ==> res.errors == map["code" := Tr("validation.code_required")]
    ensures code != "" && |code| != CodeLength ==>
              res.errors == map["code" := TrParams("validation.code_length", map["length" := CodeLength])]
    ensures |code| == CodeLength && !AllDigits(code) ==> res.errors == map["code" := Tr("validation.code_invalid")]
  {
    var errors: map<string, Text> := map[];
    if code == "" {
      errors := errors["code" := Tr("validation.code_required")];
    } else if |code| != CodeLength {
      errors := errors["code" := TrParams("validation.code_length", map["length" := CodeLength])];
    } else if !CodePattern(code) {
      errors := errors["code" := Tr("validation.code_invalid")];
    }
    res := ValidationResult(|errors| == 0, errors);
  }

  /** A Chinese mobile number of the right length is valid for "CN", and the
      same digits are refused for a country with a different length. */
  lemma PhoneValidityDependsOnCountry()
    ensures PhonePattern("13800138000") && FindCountry("CN") == Some(Country("CN", "+86", 11))
    ensures FindCountry("US") == Some(Country("US", "+1", 10)) && |"13800138000"| != 10
  {
    var p := "13800138000";
    assert p[0] != '+';
    assert forall i :: 0 <= i < |p| ==> IsPhoneBodyChar(p[i]);
  }

  /** For a country code the table does not list, only emptiness and the
      pattern are checked. */
  lemma UnknownCountrySkipsLength(countryCode: string)
    requires countryCode !in {"CN", "US", "JP", "KR", "DE", "FR", "GB", "AU", "CA", "SG"}
    ensures FindCountry(countryCode).None?
  {
  }

  // ---------------------------------------------------------------------
  // passwordStrength.*

  /** `[!@#$%^&*(),.?":{}|<>]` */
  predicate IsSpecial(c: char) {
    c in "!@#$%^&*(),.?\":{}|<>"
  }

  function Indicator(b: bool): nat {
    if b then 1 else 0
  }

  /** How many of the six strength criteria a password meets. */
  function CriteriaMet(p: string): (r: nat)
    ensures r <= 6
  {
    Indicator(|p| >= 8) + Indicator(|p| >= 12) +
    Indicator(HasChar(p, IsLower)) + Indicator(HasChar(p, IsUpper)) +
    Indicator(HasChar(p, IsDigit)) + Indicator(HasChar(p, IsSpecial))
  }

  /** The strength the meter reports: the criteria met, capped at 4. */
  function StrengthScore(p: string): (r: nat)
    ensures r <= 4
  {
    if CriteriaMet(p) > 4 then 4 else CriteriaMet(p)
  }

  /** `calculateStrength(password)`, scoring one criterion at a time. */
  method CalculateStrength(password: string) returns (score: int)
    ensures score == StrengthScore(password)
    ensures 0 <= score <= 4
    ensures password == "" ==> score == 0
  {
    score := 0;
    if password == "" {
      return;
    }
    if |password| >= 8 { score := score + 1; }
    if |password| >= 12 { score := score + 1; }
    if HasChar(password, IsLower) { score := score + 1; }
    if HasChar(password, IsUpper) { score := score + 1; }
    if HasChar(password, IsDigit) { score := score + 1; }
    if HasChar(password, IsSpecial) { score := score + 1; }
    if score > 4 { score := 4; }
  }

  lemma HasCharAppend(p: string, q: string, f: char -> bool)
    requires HasChar(p, f)
    ensures HasChar(p + q, f)
  {
    var i :| 0 <= i < |p| && f(p[i]);
    assert (p + q)[i] == p[i];
  }

  /** Typing more characters never lowers the strength. */
  lemma {:induction false} StrengthGrowsWithText(p: string, q: string)
    ensures StrengthScore(p) <= StrengthScore(p + q)
  {
    if HasChar(p, IsLower) { HasCharAppend(p, q, IsLower); }
    if HasChar(p, IsUpper) { HasCharAppend(p, q, IsUpper); }
    if HasChar(p, IsDigit) { HasCharAppend(p, q, IsDigit); }
    if HasChar(p, IsSpecial) { HasCharAppend(p, q, IsSpecial); }
  }

  datatype StrengthLevel = Weak | Medium | Strong | VeryStrong

  /** `labels[score] || t('password_strength.weak')`: an index outside the
      four labels falls back to weak. */
  function StrengthLabel(score: int): (r: StrengthLevel)
    ensures 0 <= score < 4 ==> r == [Weak, Medium, Strong, VeryStrong][score]
    ensures !(0 <= score < 4) ==> r == Weak
  {
    if score == 1 then Medium else if score == 2 then Strong else if score == 3 then VeryStrong else Weak
  }

  /** `colors[score] || 'red'` */
  function StrengthColor(score: int): (r: string)
    ensures 0 <= score < 4 ==> r == ["red", "orange", "green", "blue"][score]
    ensures !(0 <= score < 4) ==> r == "red"
  {
    if score == 1 then "orange" else if score == 2 then "green" else if score == 3 then "blue" else "red"
  }

  /** As written, the strongest passwords are labelled weak: a password that
      meets five criteria scores 4, which has no label of its own. */
  lemma StrongestPasswordShownWeak()
    ensures CriteriaMet("Abcdefgh1234") == 5 && StrengthScore("Abcdefgh1234") == 4
    ensures StrengthLabel(StrengthScore("Abcdefgh1234")) == Weak
    ensures StrengthColor(StrengthScore("Abcdefgh1234")) == "red"
  {
    var p := "Abcdefgh1234";
    assert IsLower(p[1]) && IsUpper(p[0]) && IsDigit(p[8]);
    AlphanumericHasNoSpecial(p);
  }

  /** A password of letters and digits meets no special-character
      criterion. */
  lemma AlphanumericHasNoSpecial(p: string)
    requires forall i :: 0 <= i < |p| ==> IsLower(p[i]) || IsUpper(p[i]) || IsDigit(p[i])
    ensures !HasChar(p, IsSpecial)
  {
    forall i | 0 <= i < |p| ensures !IsSpecial(p[i]) {
      assert IsLower(p[i]) || IsUpper(p[i]) || IsDigit(p[i]);
    }
  }

  /** The strength with the scale the labels and colours have (0..3), so
      that four or more criteria read as very strong. */
  function DisplayedStrength(p: string): (r: nat)
    ensures r <= 3
    ensures r == 3 <==> CriteriaMet(p) >= 3
  {
    if CriteriaMet(p) > 3 then 3 else CriteriaMet(p)
  }

  /** On the corrected scale the label never drops as criteria are added:
      a password with more criteria never reads weaker. */
  lemma {:induction false} DisplayedLabelMonotone(p: string, q: string)
    requires CriteriaMet(p) <= CriteriaMet(q)
    ensures DisplayedStrength(p) <= DisplayedStrength(q)
    ensures StrengthLabel(DisplayedStrength(q)) == Weak ==> CriteriaMet(q) == 0
    ensures CriteriaMet(q) >= 3 ==> StrengthLabel(DisplayedStrength(q)) == VeryStrong
  {
  }

  // ---------------------------------------------------------------------
  // formatting.*

  /** `formatPhone(phone, countryCode)`: the dial code and a space are put in
      front only for a known country, a non-empty phone, and a phone that
      does not already start with "+". */
  function FormatPhone(phone: string, countryCode: string): (r: string)
    ensures FindCountry(countryCode).None? || phone == "" || StartsWith(phone, "+") ==> r == phone
    ensures FindCountry(countryCode).Some? && phone != "" && !StartsWith(phone, "+") ==>
              r == FindCountry(countryCode).value.dialCode + " " + phone
  {
    match FindCountry(countryCode)
    case None => phone
    case Some(country) =>
      if phone == "" then phone
      else if !StartsWith(phone, "+") then country.dialCode + " " + phone
      else phone
  }

  /** Formatting twice is formatting once: the prefixed result starts with
      "+". */
  lemma FormatPhoneIdempotent(phone: string, countryCode: string)
    ensures FormatPhone(FormatPhone(phone, countryCode), countryCode) == FormatPhone(phone, countryCode)
  {
    var c := FindCountry(countryCode);
    if c.Some? && phone != "" && !StartsWith(phone, "+") {
      DialCodesStartWithPlus(c.value);
      var r := c.value.dialCode + " " + phone;
      assert r[..1] == c.value.dialCode[..1];
    }
  }

  /** `truncateText(text, maxLength)` */
  function TruncateText(text: string, maxLength: int): (r: string)
    ensures |text| <= maxLength ==> r == text
    ensures 0 <= maxLength < |text| ==> r == text[..maxLength] + "..." && |r| == maxLength + 3
    ensures maxLength < 0 && |text| + maxLength >= 0 ==> r == text[..|text| + maxLength] + "..."
    ensures |text| + maxLength < 0 ==> r == "..."
  {
    if |text| <= maxLength then text else Slice(text, 0, maxLength) + "..."
  }

  /** A truncated text keeps a prefix of the original and adds the
      ellipsis. */
  lemma TruncatedKeepsPrefix(text: string, maxLength: nat)
    requires maxLength < |text|
    ensures var r := TruncateText(text, maxLength);
            StartsWith(text, r[..|r| - 3]) && EndsWith(r, "...")
  {
    var r := TruncateText(text, maxLength);
    assert r[..|r| - 3] == text[..maxLength];
    assert r[|r| - 3..] == "...";
  }

  // ---------------------------------------------------------------------
  // language.getBrowserLanguage

  const SupportedLanguages: seq<string> := ["zh-CN", "en-US", "ja-JP", "ko-KR", "de-DE", "fr-FR"]

  /** `supportedLanguages.find(lang => lang.startsWith(code))` */
  function FirstWithPrefix(langs: seq<string>, code: string): (r: Option<string>)
    ensures r.Some? ==> r.value in langs && StartsWith(r.value, code)
    ensures r.None? <==> forall i :: 0 <= i < |langs| ==> !StartsWith(langs[i], code)
    ensures r.Some? ==> exists i :: 0 <= i < |langs| && langs[i] == r.value && NoneBefore(langs, code, i)
  {
    if langs == [] then None
    else if StartsWith(langs[0], code) then
      assert NoneBefore(langs, code, 0);
      Some(langs[0])
    else
      var rest := FirstWithPrefix(langs[1..], code);
      if rest.Some? then
        var i :| 0 <= i < |langs| - 1 && langs[1..][i] == rest.value && NoneBefore(langs[1..], code, i);
        assert NoneBefore(langs, code, i + 1);
        rest
      else rest
  }

  /** No language before position `i` starts with `code`. */
  predicate NoneBefore(langs: seq<string>, code: string, i: nat)
    requires i <= |langs|
  {
    forall j :: 0 <= j < i ==> !StartsWith(langs[j], code)
  }

  /** `getBrowserLanguage()` for `navigator.language == browserLang`: an
      exact match, else the first supported language starting with the part
      before the first "-", else Chinese. */
  function BrowserLanguage(browserLang: string): (r: string)
    ensures r in SupportedLanguages
    ensures browserLang in SupportedLanguages ==> r == browserLang
    ensures browserLang !in SupportedLanguages && FirstWithPrefix(SupportedLanguages, Split(browserLang, '-')[0]).Some? ==>
              r == FirstWithPrefix(SupportedLanguages, Split(browserLang, '-')[0]).value &&
              StartsWith(r, Split(browserLang, '-')[0])
    ensures browserLang !in SupportedLanguages && FirstWithPrefix(SupportedLanguages, Split(browserLang, '-')[0]).None? ==>
              r == "zh-CN"
  {
    if browserLang in SupportedLanguages then browserLang
    else
      var langCode := Split(browserLang, '-')[0];
      match FirstWithPrefix(SupportedLanguages, langCode)
      case Some(lang) => lang
      case None => "zh-CN"
  }

  /** The language code of a tag with a dash at position 2. */
  lemma LanguageCodeOfTag(tag: string)
    requires |tag| >= 3 && tag[2] == '-' && tag[0] != '-' && tag[1] != '-'
    ensures Split(tag, '-')[0] == tag[..2]
  {
    IndexOfCharAt(tag, '-', 2);
  }

  /** A regional variant falls back to the supported language of the same
      language code. */
  lemma BrowserLanguageRegionalFallback()
    ensures BrowserLanguage("en-GB") == "en-US"
  {
    LanguageCodeOfTag("en-GB");
    assert "en-GB"[..2] == "en";
    assert !StartsWith("zh-CN", "en");
    assert StartsWith("en-US", "en");
  }

  /** A language the site does not support falls back to Chinese. */
  lemma BrowserLanguageDefaultFallback()
    ensures BrowserLanguage("it-IT") == "zh-CN"
  {
    LanguageCodeOfTag("it-IT");
    assert "it-IT"[..2] == "it";
    assert forall i :: 0 <= i < |SupportedLanguages| ==> !StartsWith(SupportedLanguages[i], "it");
  }

  // ---------------------------------------------------------------------
  // device.getScreenSize

  datatype ScreenSize = Sm | Md | Lg | Xl | Xxl

  function SizeRank(s: ScreenSize): nat {
    match s
    case Sm => 0
    case Md => 1
    case Lg => 2
    case Xl => 3
    case Xxl => 4
  }

  /** `getScreenSize()` for `window.innerWidth == width`; the `sm`
      breakpoint (640) is never consulted. */
  function ScreenSizeOf(width: int): (r: ScreenSize)
    ensures r == Xxl <==> width >= 1536
    ensures r == Xl <==> 1280 <= width < 1536
    ensures r == Lg <==> 1024 <= width < 1280
    ensures r == Md <==> 768 <= width < 1024
    ensures r == Sm <==> width < 768
  {
    if width >= 1536 then Xxl
    else if width >= 1280 then Xl
    else if width >= 1024 then Lg
    else if width >= 768 then Md
    else Sm
  }

  /** A wider window never gets a smaller size class. */
  lemma ScreenSizeMonotone(w1: int, w2: int)
    requires w1 <= w2
    ensures SizeRank(ScreenSizeOf(w1)) <= SizeRank(ScreenSizeOf(w2))
  {
  }
}

=== FILE: community_page.dfy ===
/** The `Community` page: five discussions per page, the page count, the
    pager's page buttons and ellipses, the new-topic form (a simulated
    publication that completes after a delay) and the navigation to a
    topic. Whether the visitor is logged in is a parameter. */
module CommunityPage {
  import opened JsString
  import Ui

  const PostsPerPage: nat := 5

  /** The ids of the page's six literal discussions, in their order. */
  const DiscussionIds: seq<nat> := [1, 2, 3, 4, 5, 6]

  // ---------------------------------------------------------------------
  // Pagination

  /** `Math.ceil(n / postsPerPage)` */
  function TotalPages(n: nat): (r: nat)
    ensures r * PostsPerPage >= n
    ensures r > 0 ==> (r - 1) * PostsPerPage < n
    ensures n == 0 <==> r == 0
  {
    (n + PostsPerPage - 1) / PostsPerPage
  }

  /** `discussions.slice(startIndex, startIndex + postsPerPage)` with
      `startIndex = (currentPage - 1) * postsPerPage`. */
  function PageSlice<T>(items: seq<T>, page: int): seq<T> {
    var start := (page - 1) * PostsPerPage;
    Slice(items, start, start + PostsPerPage)
  }

  /** A page in range shows the next up-to-five items, and at least one. */
  lemma PageSliceContents<T>(items: seq<T>, page: nat)
    requires 1 <= page <= TotalPages(|items|)
    ensures var start := (page - 1) * PostsPerPage;
            var end := if start + PostsPerPage <= |items| then start + PostsPerPage else |items|;
            start < end && PageSlice(items, page) == items[start..end]
    ensures 1 <= |PageSlice(items, page)| <= PostsPerPage
  {
  }

  /** Every item is on exactly one page: item `k` is at position `k % 5` of
      page `k / 5 + 1`, and the page count covers that page. */
  lemma EveryItemOnItsPage<T>(items: seq<T>, k: nat)
    requires k < |items|
    ensures 1 <= k / PostsPerPage + 1 <= TotalPages(|items|)
    ensures k % PostsPerPage < |PageSlice(items, k / PostsPerPage + 1)|
    ensures PageSlice(items, k / PostsPerPage + 1)[k % PostsPerPage] == items[k]
  {
    var page := k / PostsPerPage + 1;
    assert (page - 1) * PostsPerPage == k - k % PostsPerPage;
    PageSliceContents(items, page);
  }

  /** The six discussions make two pages: ids 1 to 5, then 6. */
  lemma TwoPagesOfDiscussions()
    ensures TotalPages(|DiscussionIds|) == 2
    ensures PageSlice(DiscussionIds, 1) == [1, 2, 3, 4, 5]
    ensures PageSlice(DiscussionIds, 2) == [6]
  {
  }

  // ---------------------------------------------------------------------
  // The pager

  /** The pager is rendered only for more than one page. */
  predicate PagerVisible(totalPages: nat) {
    totalPages > 1
  }

  /** Page `p` gets a button: the first, the last, and every page within
      one of the current one. */
  predicate ShowsButton(p: int, current: int, totalPages: nat) {
    p == 1 || p == totalPages || (p - current <= 1 && current - p <= 1)
  }

  /** Page `p` is rendered as an ellipsis. */
  predicate ShowsEllipsis(p: int, current: int, totalPages: nat) {
    !ShowsButton(p, current, totalPages) &&
    ((p == 2 && current > 3) || (p == totalPages - 1 && current < totalPages - 2))
  }

  /** The hidden pages are exactly the two gaps between the first page and
      the current one's neighbours and between those and the last page. */
  lemma HiddenPagesAreTheGaps(p: int, current: int, totalPages: nat)
    requires 1 <= current <= totalPages && 1 <= p <= totalPages
    ensures !ShowsButton(p, current, totalPages) <==>
              (2 <= p <= current - 2) || (current + 2 <= p <= totalPages - 1)
  {
  }

  /** An ellipsis is drawn at the start of each gap that is not empty,
      and nowhere else. */
  lemma EllipsisMarksEachGap(current: int, totalPages: nat)
    requires 1 <= current <= totalPages
    ensures ShowsEllipsis(2, current, totalPages) <==> 2 <= current - 2
    ensures totalPages - 1 != 2 ==>
              (ShowsEllipsis(totalPages - 1, current, totalPages) <==> current + 2 <= totalPages - 1)
    ensures forall p :: p != 2 && p != totalPages - 1 ==> !ShowsEllipsis(p, current, totalPages)
  {
  }

  /** `handlePageChange(page)`: the new current page. */
  function PageChange(current: int, page: int, totalPages: nat): (r: int)
    ensures 1 <= page <= totalPages ==> r == page
    ensures page < 1 || page > totalPages ==> r == current
  {
    if page < 1 || page > totalPages then current else page
  }

  /** An enabled previous or next button always moves by one page. */
  lemma EnabledArrowsMove(current: int, totalPages: nat)
    requires 1 <= current <= totalPages
    ensures current != 1 ==> PageChange(current, current - 1, totalPages) == current - 1
    ensures current != totalPages ==> PageChange(current, current + 1, totalPages) == current + 1
  {
  }

  /** The path a discussion links to. */
  function TopicPath(id: nat): (r: string)
    ensures StartsWith(r, "/community/topic/")
  {
    "/community/topic/" + NatToString(id)
  }

  class Community {
    /** `discussions.length` */
    const count: nat
    var currentPage: int
    var newTopic: string
    var isLoading: bool
    var log: seq<Ui.Effect>

    ghost predicate Valid()
      reads this
    {
      currentPage == 1 || 1 <= currentPage <= TotalPages(count)
    }

    constructor(count: nat)
      ensures Valid()
      ensures this.count == count && currentPage == 1 && newTopic == "" && !isLoading && log == []
    {
      this.count := count;
      currentPage := 1;
      newTopic := "";
      isLoading := false;
      log := [];
    }

    /** `handlePageChange(page)`; the scrolling is not modelled. */
    method HandlePageChange(page: int)
      requires Valid()
      modifies this
      ensures Valid()
      ensures currentPage == PageChange(old(currentPage), page, TotalPages(count))
      ensures newTopic == old(newTopic) && isLoading == old(isLoading) && log == old(log)
    {
      if page < 1 || page > TotalPages(count) {
        return;
      }
      currentPage := page;
    }

    /** The textarea's `onChange`; it is disabled while publishing. */
    method HandleTopicInput(value: string)
      requires Valid()
      modifies this
      ensures Valid()
      ensures !old(isLoading) ==> newTopic == value
      ensures old(isLoading) ==> newTopic == old(newTopic)
      ensures currentPage == old(currentPage) && isLoading == old(isLoading) && log == old(log)
    {
      if !isLoading {
        newTopic := value;
      }
    }

    /** The publish button running `handleNewTopic`: nothing while it is
        disabled; a visitor who is not logged in is sent to the login page;
        blank content is refused; otherwise the publication starts. */
    method HandleNewTopic(isAuthenticated: bool)
      requires Valid()
      modifies this
      ensures Valid()
      ensures old(isLoading) ==> isLoading && log == old(log)
      ensures !old(isLoading) && !isAuthenticated ==>
                !isLoading && log == old(log) + [Ui.Toast(Ui.Info, Ui.Tr("community.pleaseLogin")), Ui.Navigate("/login")]
      ensures !old(isLoading) && isAuthenticated && Trim(newTopic) == "" ==>
                !isLoading && log == old(log) + [Ui.Toast(Ui.Error, Ui.Tr("community.topicRequired"))]
      ensures !old(isLoading) && isAuthenticated && Trim(newTopic) != "" ==> isLoading && log == old(log)
      ensures currentPage == old(currentPage) && newTopic == old(newTopic)
    {
      if isLoading {
        return;
      }
      if !isAuthenticated {
        log := log + [Ui.Toast(Ui.Info, Ui.Tr("community.pleaseLogin")), Ui.Navigate("/login")];
        return;
      }
      if Trim(newTopic) == "" {
        log := log + [Ui.Toast(Ui.Error, Ui.Tr("community.topicRequired"))];
        return;
      }
      isLoading := true;
    }

    /** The publication's delay elapsed. */
    method CompleteNewTopic()
      requires Valid() && isLoading
      modifies this
      ensures Valid()
      ensures !isLoading && newTopic == ""
      ensures log == old(log) + [Ui.Toast(Ui.Success, Ui.Tr("community.topicPublished"))]
      ensures currentPage == old(currentPage)
    {
      log := log + [Ui.Toast(Ui.Success, Ui.Tr("community.topicPublished"))];
      newTopic := "";
      isLoading := false;
    }

    /** `handleDiscussionClick(id)` */
    method HandleDiscussionClick(id: nat)
      modifies this
      ensures log == old(log) + [Ui.Navigate(TopicPath(id))]
      ensures currentPage == old(currentPage) && newTopic == old(newTopic) && isLoading == old(isLoading)
    {
      log := log + [Ui.Navigate("/community/topic/" + NatToString(id))];
    }
  }
}

=== FILE: community_routes.dfy ===
/** The `/api/community` router: a paginated listing of discussions, the
    lookup of one discussion, creation by an authenticated user and deletion
    by its author. The discussion table is a `DiscussionStore`; the listing
    receives the table already in the order Prisma returns it
    (`createdAt` descending). */
module CommunityRoutes {
  import opened Options
  import opened JsString
  import opened Users
  import AuthMiddleware

  datatype Discussion = Discussion(id: int, title: string, content: string, authorPhone: string, createdAt: int)

  datatype Pagination = Pagination(page: int, limit: int, total: nat, pages: nat)

  datatype Body =
    | Message(message: string)
    | Invalid(message: string, fieldErrors: map<string, seq<string>>)
    | Listing(discussions: seq<Discussion>, pagination: Pagination)
    | One(discussion: Discussion)
    | NoContent

  datatype Response = Response(status: int, body: Body)

  /** The request body of a creation; an absent field, or one that is not a
      string, is `None`. */
  datatype DiscussionInput = DiscussionInput(title: Option<string>, content: Option<string>)

  const DefaultLimit := 20
  const MaxLimit := 100
  const InvalidId := "无效的ID"
  const NotFound := "讨论不存在"
  const Forbidden := "无权删除此讨论"
  const ValidationFailed := "参数验证失败"

  // ---------------------------------------------------------------------
  // GET /discussions

  /** `Math.max(1, parseInt(page) || 1)`, with `page` defaulting to 1. */
  function PageNumber(page: Option<string>): (r: int)
    ensures r >= 1
    ensures page.Some? && ParseInt(page.value).Some? && ParseInt(page.value).value >= 1 ==>
              r == ParseInt(page.value).value
    ensures page.None? || ParseInt(page.value).None? || ParseInt(page.value).value < 1 ==> r == 1
  {
    if page.None? then 1
    else
      var n := ParseInt(page.value);
      var p := if n.None? || n.value == 0 then 1 else n.value;
      if p < 1 then 1 else p
  }

  /** `Math.min(100, Math.max(1, parseInt(limit) || 20))`, with `limit`
      defaulting to 20. A limit of 0 is falsy and becomes 20, while a
      negative one becomes 1. */
  function LimitNumber(limit: Option<string>): (r: int)
    ensures 1 <= r <= MaxLimit
    ensures limit.Some? && ParseInt(limit.value).Some? && 1 <= ParseInt(limit.value).value <= MaxLimit ==>
              r == ParseInt(limit.value).value
    ensures limit.None? || ParseInt(limit.value) == None || ParseInt(limit.value) == Some(0) ==> r == DefaultLimit
    ensures limit.Some? && ParseInt(limit.value).Some? && ParseInt(limit.value).value < 0 ==> r == 1
    ensures limit.Some? && ParseInt(limit.value).Some? && ParseInt(limit.value).value > MaxLimit ==> r == MaxLimit
  {
    var n := if limit.None? then None else ParseInt(limit.value);
    var l := if n.None? || n.value == 0 then DefaultLimit else n.value;
    var atLeastOne := if l < 1 then 1 else l;
    if atLeastOne > MaxLimit then MaxLimit else atLeastOne
  }

  /** `Math.ceil(total / limit)`: the least number of pages that holds
      `total` rows. */
  function PageCount(total: nat, limit: int): (r: nat)
    requires limit >= 1
    ensures total <= r * limit
    ensures r == 0 || (r - 1) * limit < total
  {
    (total + limit - 1) / limit
  }

  /** The rows `findMany({ skip, take })` returns: those from `skip` on, at
      most `take` of them. */
  function SkipTake<T>(rows: seq<T>, skip: nat, take: nat): (r: seq<T>)
    ensures |r| <= take
    ensures skip <= |rows| ==> |r| == if skip + take <= |rows| then take else |rows| - skip
    ensures forall j :: 0 <= j < |r| ==> skip + j < |rows| && r[j] == rows[skip + j]
  {
    if skip >= |rows| then [] else if skip + take >= |rows| then rows[skip..] else rows[skip..skip + take]
  }

  /** `(pageNum - 1) * limitNum`: the rows on the pages before this one. */
  function Skip(pageNum: int, limitNum: int): (r: nat)
    requires pageNum >= 1 && limitNum >= 1
  {
    var before: nat := pageNum - 1;
    var size: nat := limitNum;
    before * size
  }

  /** `GET /discussions?page&limit` over the table in listing order. */
  function ListDiscussions(ordered: seq<Discussion>, page: Option<string>, limit: Option<string>): (r: Response)
    ensures r.status == 200 && r.body.Listing?
    ensures var p := r.body.pagination;
            p.page == PageNumber(page) && p.limit == LimitNumber(limit) && p.total == |ordered| &&
            p.pages == PageCount(|ordered|, p.limit)
    ensures |r.body.discussions| <= LimitNumber(limit)
    ensures var skip := Skip(PageNumber(page), LimitNumber(limit));
            |r.body.discussions| == if skip >= |ordered| then 0
                                    else if skip + LimitNumber(limit) <= |ordered| then LimitNumber(limit)
                                    else |ordered| - skip
    ensures var skip := Skip(PageNumber(page), LimitNumber(limit));
            forall j :: 0 <= j < |r.body.discussions| ==>
              skip + j < |ordered| && r.body.discussions[j] == ordered[skip + j]
  {
    var pageNum := PageNumber(page);
    var limitNum := LimitNumber(limit);
    Response(200, Listing(SkipTake(ordered, Skip(pageNum, limitNum), limitNum),
                          Pagination(pageNum, limitNum, |ordered|, PageCount(|ordered|, limitNum))))
  }

  /** The page arithmetic: row `k` sits at offset `k % limit` of page
      `k / limit + 1`, and that page is counted. */
  lemma PageOfRow(k: nat, limit: int, total: nat)
    requires k < total && limit >= 1
    ensures Skip(k / limit + 1, limit) + k % limit == k
    ensures k / limit + 1 <= PageCount(total, limit)
  {
    var q := k / limit;
    assert Skip(q + 1, limit) == q * limit;
    var pages := PageCount(total, limit);
    assert q * limit < pages * limit;
    MulLess(q, pages, limit);
  }

  lemma MulLess(x: int, y: int, b: int)
    requires b >= 1 && x * b < y * b
    ensures x < y
  {
    assert (y - x) * b == y * b - x * b;
  }

  /** A page number written in decimal is read back as that page. */
  lemma PageQuery(n: nat)
    requires n >= 1
    ensures PageNumber(Some(NatToString(n))) == n
  {
    ParseIntOfNatString(n, []);
    assert NatToString(n) + [] == NatToString(n);
  }

  /** A limit between 1 and 100 written in decimal is read back as itself. */
  lemma LimitQuery(n: nat)
    requires 1 <= n <= MaxLimit
    ensures LimitNumber(Some(NatToString(n))) == n
  {
    ParseIntOfNatString(n, []);
    assert NatToString(n) + [] == NatToString(n);
  }

  /** Row `k` is at `offset` of page `p` when the rows before that page and
      the offset add up to `k`. */
  lemma RowAtOffset(ordered: seq<Discussion>, k: nat, limit: nat, p: nat, offset: nat)
    requires k < |ordered| && 1 <= limit <= MaxLimit && p >= 1
    requires Skip(p, limit) + offset == k && offset < limit
    ensures var r := ListDiscussions(ordered, Some(NatToString(p)), Some(NatToString(limit)));
            offset < |r.body.discussions| && r.body.discussions[offset] == ordered[k]
  {
    PageQuery(p);
    LimitQuery(limit);
    var page, lim := Some(NatToString(p)), Some(NatToString(limit));
    assert PageNumber(page) == p && LimitNumber(lim) == limit;
    var rows := ListDiscussions(ordered, page, lim).body.discussions;
    var skip := Skip(p, limit);
    assert rows == SkipTake(ordered, skip, limit);
    assert skip <= |ordered| && offset < |rows|;
  }

  /** Every row of the table is on exactly the page its position says, and
      that page is within the page count the listing reports. */
  lemma {:induction false} EveryRowOnItsPage(ordered: seq<Discussion>, k: nat, limit: nat)
    requires k < |ordered|
    requires 1 <= limit <= MaxLimit
    ensures var r := ListDiscussions(ordered, Some(NatToString(k / limit + 1)), Some(NatToString(limit)));
            k / limit + 1 <= r.body.pagination.pages &&
            k % limit < |r.body.discussions| && r.body.discussions[k % limit] == ordered[k]
  {
    var p := k / limit + 1;
    var offset := k % limit;
    PageOfRow(k, limit, |ordered|);
    PageQuery(p);
    LimitQuery(limit);
    RowAtOffset(ordered, k, limit, p, offset);
  }

  /** The rows are in listing order, newest first. */
  predicate NewestFirst(rows: seq<Discussion>) {
    forall i, j :: 0 <= i < j < |rows| ==> rows[i].createdAt >= rows[j].createdAt
  }

  lemma SkipTakeKeepsOrder(rows: seq<Discussion>, skip: nat, take: nat)
    requires NewestFirst(rows)
    ensures NewestFirst(SkipTake(rows, skip, take))
  {
    var r := SkipTake(rows, skip, take);
    forall i, j | 0 <= i < j < |r| ensures r[i].createdAt >= r[j].createdAt {
      assert r[i] == rows[skip + i] && r[j] == rows[skip + j];
    }
  }

  /** Listing preserves order: a newest-first table gives a newest-first page. */
  lemma ListingKeepsOrder(ordered: seq<Discussion>, page: Option<string>, limit: Option<string>)
    requires NewestFirst(ordered)
    ensures NewestFirst(ListDiscussions(ordered, page, limit).body.discussions)
  {
    var pageNum := PageNumber(page);
    var limitNum := LimitNumber(limit);
    SkipTakeKeepsOrder(ordered, Skip(pageNum, limitNum), limitNum);
  }

  // ---------------------------------------------------------------------
  // GET /discussions/:id

  /** `GET /discussions/:id`: the id is read by `parseInt`, so trailing
      non-digits are ignored; `NaN` answers 400. */
  function GetDiscussion(rows: map<int, Discussion>, idParam: string): (r: Response)
    ensures r.status == 400 <==> ParseInt(idParam).None?
    ensures r.status == 400 ==> r.body == Message(InvalidId)
    ensures r.status == 404 <==> ParseInt(idParam).Some? && ParseInt(idParam).value !in rows
    ensures r.status == 404 ==> r.body == Message(NotFound)
    ensures r.status == 200 <==> ParseInt(idParam).Some? && ParseInt(idParam).value in rows
    ensures r.status == 200 ==> r.body == One(rows[ParseInt(idParam).value])
  {
    match ParseInt(idParam)
    case None => Response(400, Message(InvalidId))
    case Some(id) => if id in rows then Response(200, One(rows[id])) else Response(404, Message(NotFound))
  }

  /** `/discussions/7abc` names discussion 7. */
  lemma GetIgnoresTrailingText(rows: map<int, Discussion>, id: nat, rest: string)
    requires rest == [] || !IsDigit(rest[0])
    requires id in rows
    ensures GetDiscussion(rows, NatToString(id) + rest) == Response(200, One(rows[id]))
  {
    ParseIntOfNatString(id, rest);
  }

  // ---------------------------------------------------------------------
  // createDiscussionSchema

  predicate TitleOk(title: Option<string>) {
    title.Some? && 3 <= |title.value| <= 200
  }

  predicate ContentOk(content: Option<string>) {
    content.Some? && 1 <= |content.value| <= 5000
  }

  function TitleIssues(title: Option<string>): (r: seq<string>)
    ensures r == [] <==> TitleOk(title)
  {
    match title
    case None => ["Required"]
    case Some(t) =>
      (if |t| < 3 then ["标题至少3个字符"] else []) + (if |t| > 200 then ["标题最多200个字符"] else [])
  }

  function ContentIssues(content: Option<string>): (r: seq<string>)
    ensures r == [] <==> ContentOk(content)
  {
    match content
    case None => ["Required"]
    case Some(c) =>
      (if |c| < 1 then ["内容不能为空"] else []) + (if |c| > 5000 then ["内容最多5000个字符"] else [])
  }

  function FieldErrors(titleIssues: seq<string>, contentIssues: seq<string>): (r: map<string, seq<string>>)
    ensures "title" in r <==> titleIssues != []
    ensures "content" in r <==> contentIssues != []
    ensures r.Keys <= {"title", "content"}
    ensures "title" in r ==> r["title"] == titleIssues
    ensures "content" in r ==> r["content"] == contentIssues
  {
    var withTitle: map<string, seq<string>> := if titleIssues == [] then map[] else map["title" := titleIssues];
    if contentIssues == [] then withTitle else withTitle["content" := contentIssues]
  }

  /** The discussion table. */
  class DiscussionStore {
    var rows: map<int, Discussion>
    var nextId: int

    ghost predicate Valid()
      reads this
    {
      nextId >= 1 && forall i | i in rows :: rows[i].id == i && i < nextId
    }

    constructor ()
      ensures Valid() && rows == map[] && nextId == 1
    {
      rows := map[];
      nextId := 1;
    }

    /** `POST /discussions` behind `authMiddleware`: a rejected request is
        answered with the middleware's status; an invalid body gets 400;
        otherwise one discussion is added, written by the authenticated
        user's phone. */
    method Create(auth: AuthMiddleware.Decision, body: DiscussionInput, now: int) returns (res: Response)
      requires Valid()
      requires AuthMiddleware.Rejects401Or500(auth)
      modifies this
      ensures Valid()
      ensures auth.Reject? ==> res == Response(auth.status, Message(auth.message))
      ensures auth.Proceed? && !(TitleOk(body.title) && ContentOk(body.content)) ==>
                res == Response(400, Invalid(ValidationFailed, FieldErrors(TitleIssues(body.title), ContentIssues(body.content))))
      ensures res.status != 201 ==> rows == old(rows) && nextId == old(nextId)
      ensures res.status == 201 <==> auth.Proceed? && TitleOk(body.title) && ContentOk(body.content)
      ensures res.status == 201 ==>
                var d := Discussion(old(nextId), body.title.value, body.content.value, auth.user.phone, now);
                res == Response(201, One(d)) && rows == old(rows)[d.id := d] && nextId == old(nextId) + 1
    {
      if auth.Reject? {
        return Response(auth.status, Message(auth.message));
      }
      if !(TitleOk(body.title) && ContentOk(body.content)) {
        return Response(400, Invalid(ValidationFailed, FieldErrors(TitleIssues(body.title), ContentIssues(body.content))));
      }
      var d := Discussion(nextId, body.title.value, body.content.value, auth.user.phone, now);
      rows := rows[d.id := d];
      nextId := nextId + 1;
      res := Response(201, One(d));
    }

    /** `DELETE /discussions/:id` behind `authMiddleware`, checked in the
        order: authentication, id (400), existence (404), authorship (403);
        only then is that one discussion removed (204). */
    method Delete(auth: AuthMiddleware.Decision, idParam: string) returns (res: Response)
      requires Valid()
      requires AuthMiddleware.Rejects401Or500(auth)
      modifies this
      ensures Valid() && nextId == old(nextId)
      ensures res == DeleteOutcome(old(rows), auth, idParam)
      ensures rows == if res.status == 204 then old(rows) - {ParseInt(idParam).value} else old(rows)
    {
      res := DeleteOutcome(rows, auth, idParam);
      if res.status == 204 {
        rows := rows - {ParseInt(idParam).value};
      }
    }
  }

  /** The answer `DELETE /discussions/:id` gives on a given table. */
  function DeleteOutcome(rows: map<int, Discussion>, auth: AuthMiddleware.Decision, idParam: string): (r: Response)
    requires AuthMiddleware.Rejects401Or500(auth)
    ensures auth.Reject? ==> r == Response(auth.status, Message(auth.message))
    ensures r.status == 204 <==>
              auth.Proceed? && ParseInt(idParam).Some? && ParseInt(idParam).value in rows &&
              rows[ParseInt(idParam).value].authorPhone == auth.user.phone
    ensures r.status == 403 <==>
              auth.Proceed? && ParseInt(idParam).Some? && ParseInt(idParam).value in rows &&
              rows[ParseInt(idParam).value].authorPhone != auth.user.phone
    ensures auth.Proceed? && ParseInt(idParam).None? ==> r == Response(400, Message(InvalidId))
    ensures auth.Proceed? && ParseInt(idParam).Some? && ParseInt(idParam).value !in rows ==>
              r == Response(404, Message(NotFound))
    ensures r.status == 204 ==> r.body == NoContent
    ensures r.status == 403 ==> r.body == Message(Forbidden)
  {
    match auth
    case Reject(status, message) => Response(status, Message(message))
    case Proceed(user) =>
      match ParseInt(idParam)
      case None => Response(400, Message(InvalidId))
      case Some(id) =>
        if id !in rows then Response(404, Message(NotFound))
        else if rows[id].authorPhone != user.phone then Response(403, Message(Forbidden))
        else Response(204, NoContent)
  }

  /** A discussion is removed only by a request authenticated as its author;
      every other discussion stays as it was. */
  lemma OnlyAuthorDeletes(rows: map<int, Discussion>, auth: AuthMiddleware.Decision, idParam: string, other: int)
    requires AuthMiddleware.Rejects401Or500(auth)
    requires DeleteOutcome(rows, auth, idParam).status == 204
    requires other in rows && other != ParseInt(idParam).value
    ensures auth.Proceed? && rows[ParseInt(idParam).value].authorPhone == auth.user.phone
    ensures other in rows - {ParseInt(idParam).value} && (rows - {ParseInt(idParam).value})[other] == rows[other]
  {
  }
}

=== FILE: community_topic.dfy ===
/** The `CommunityTopic` page: the topic looked up from the route's `id`,
    the paragraphs drawn from its HTML-ish content, and replying and liking,
    each a simulated request that completes after a delay. `Date.now()` is
    the parameter `now` of a completion, and whether the visitor is logged
    in is a parameter of the handlers. */
module CommunityTopic {
  import opened Options
  import opened JsString
  import Ui
  import CommunityPage

  /** A reply; `likes` is absent on the literal replies. */
  datatype Reply = Reply(id: int, content: string, likes: Option<nat>)

  /** A topic: `replies` is the counter shown in the header, `repliesData`
      the replies listed. */
  datatype Topic = Topic(id: int, replies: nat, content: string, repliesData: seq<Reply>)

  // ---------------------------------------------------------------------
  // getTopicDetails

  /** `null` (no id), `undefined` (no topic with that id) or the topic. */
  datatype Lookup = Null | Undefined | Found(topic: Topic)

  function FindById(topics: seq<Topic>, id: int): (r: Option<nat>)
    ensures r.None? <==> forall k :: 0 <= k < |topics| ==> topics[k].id != id
    ensures r.Some? ==> r.value < |topics| && topics[r.value].id == id
    ensures r.Some? ==> forall k :: 0 <= k < r.value ==> topics[k].id != id
  {
    if topics == [] then None
    else if topics[0].id == id then Some(0)
    else match FindById(topics[1..], id)
      case None => None
      case Some(k) => Some(k + 1)
  }

  /** `getTopicDetails(id)`: an absent or empty id gives `null`; otherwise
      the first topic whose id is `parseInt(id)`, and `undefined` when there
      is none (in particular when `parseInt` gives `NaN`). */
  function GetTopicDetails(id: Option<string>, topics: seq<Topic>): (r: Lookup)
    ensures id.None? || id == Some("") <==> r.Null?
    ensures r.Found? ==> r.topic in topics && ParseInt(id.value) == Some(r.topic.id)
    ensures r.Undefined? ==> ParseInt(id.value).None? ||
                             forall k :: 0 <= k < |topics| ==> Some(topics[k].id) != ParseInt(id.value)
  {
    if id.None? || id.value == "" then Null
    else match ParseInt(id.value)
      case None => Undefined
      case Some(n) =>
        match FindById(topics, n)
        case None => Undefined
        case Some(k) => Found(topics[k])
  }

  /** The first topic with an id is found from the id's decimal text, also
      when anything not starting with a digit follows it. */
  lemma FoundFromItsId(topics: seq<Topic>, k: nat, rest: string)
    requires k < |topics| && topics[k].id >= 0
    requires forall j :: 0 <= j < k ==> topics[j].id != topics[k].id
    requires rest == [] || !IsDigit(rest[0])
    ensures GetTopicDetails(Some(NatToString(topics[k].id) + rest), topics) == Found(topics[k])
  {
    ParseIntOfNatString(topics[k].id, rest);
    var f := FindById(topics, topics[k].id);
  }

  /** The path a discussion on the community page links to carries the id
      in the route parameter, from which this page finds the topic. */
  lemma LinkedTopicOpens(topics: seq<Topic>, k: nat)
    requires k < |topics| && topics[k].id >= 0
    requires forall j :: 0 <= j < k ==> topics[j].id != topics[k].id
    ensures var path := CommunityPage.TopicPath(topics[k].id);
            var param := path[|"/community/topic/"|..];
            GetTopicDetails(Some(param), topics) == Found(topics[k])
  {
    var path := CommunityPage.TopicPath(topics[k].id);
    assert path[|"/community/topic/"|..] == NatToString(topics[k].id) + [];
    FoundFromItsId(topics, k, []);
  }

  // ---------------------------------------------------------------------
  // Paragraphs

  /** `s` starts with `<p>`. */
  predicate OpeningTagAt(s: string) {
    |s| >= 3 && s[0] == '<' && s[1] == 'p' && s[2] == '>'
  }

  /** `s` starts with `</p>`. */
  predicate ClosingTagAt(s: string) {
    |s| >= 4 && s[0] == '<' && s[1] == '/' && s[2] == 'p' && s[3] == '>'
  }

  /** `s.replace(/<\/?p>/g, '')`: every `<p>` and `</p>`, scanning left to
      right, removed. */
  function StripTags(s: string): (r: string)
    ensures |r| <= |s|
  {
    if OpeningTagAt(s) then StripTags(s[3..])
    else if ClosingTagAt(s) then StripTags(s[4..])
    else if s == [] then []
    else [s[0]] + StripTags(s[1..])
  }

  /** A line becomes a paragraph when, trimmed, it starts with `<p>` and
      ends with `</p>`; its text is the trimmed line without the tags. */
  function ParagraphOf(line: string): Option<string> {
    var t := Trim(line);
    if StartsWith(t, "<p>") && EndsWith(t, "</p>") then Some(StripTags(t)) else None
  }

  function Collect(lines: seq<string>): (r: seq<string>)
    ensures |r| <= |lines|
  {
    if lines == [] then []
    else
      var rest := Collect(lines[1..]);
      match ParagraphOf(lines[0])
      case None => rest
      case Some(p) => [p] + rest
  }

  /** The paragraphs rendered from `content.split('\n')`. */
  function Paragraphs(content: string): seq<string> {
    Collect(Split(content, '\n'))
  }

  /** Paragraphs keep the order of their lines: one more line adds its
      paragraph, if any, at the end. */
  lemma {:induction false} CollectAppend(lines: seq<string>, line: string)
    ensures Collect(lines + [line]) ==
            Collect(lines) + (match ParagraphOf(line) case None => [] case Some(p) => [p])
    decreases |lines|
  {
    if lines == [] {
      assert [] + [line] == [line];
      assert [line][1..] == [];
    } else {
      assert (lines + [line])[0] == lines[0];
      assert (lines + [line])[1..] == lines[1..] + [line];
      CollectAppend(lines[1..], line);
    }
  }

  /** Text without `<` passes through unchanged. */
  lemma {:induction false} StripTagsPlainPrefix(x: string, rest: string)
    requires forall k :: 0 <= k < |x| ==> x[k] != '<'
    ensures StripTags(x + rest) == x + StripTags(rest)
    decreases |x|
  {
    if x == [] {
      assert x + rest == rest;
    } else {
      var s := x + rest;
      assert s[0] == x[0];
      assert s[1..] == x[1..] + rest;
      StripTagsPlainPrefix(x[1..], rest);
      calc {
        StripTags(s);
        [s[0]] + StripTags(s[1..]);
        [x[0]] + (x[1..] + StripTags(rest));
        { assert [x[0]] + x[1..] == x; }
        x + StripTags(rest);
      }
    }
  }

  /** Tag removal takes the text out of `<p>x</p>` when `x` has no `<`. */
  lemma StripWrapped(x: string)
    requires forall k :: 0 <= k < |x| ==> x[k] != '<'
    ensures StripTags("<p>" + x + "</p>") == x
  {
    var tail := x + "</p>";
    assert "<p>" + x + "</p>" == "<p>" + tail;
    OpeningTagStripped(tail);
    StripTagsPlainPrefix(x, "</p>");
    ClosingTagStripped();
    assert x + [] == x;
  }

  lemma OpeningTagStripped(tail: string)
    ensures StripTags("<p>" + tail) == StripTags(tail)
  {
    var line := "<p>" + tail;
    assert OpeningTagAt(line);
    assert line[3..] == tail;
  }

  lemma ClosingTagStripped()
    ensures StripTags("</p>") == []
  {
    assert ClosingTagAt("</p>") && "</p>"[4..] == [];
  }

  /** A line `<p>text</p>` without other tags or surrounding blanks gives
      the paragraph `text`. */
  lemma SimpleParagraph(x: string)
    requires '<' !in x
    ensures ParagraphOf("<p>" + x + "</p>") == Some(x)
  {
    var line := "<p>" + x + "</p>";
    assert line[0] == '<' && line[|line| - 1] == '>';
    TrimOfUnpadded(line);
    forall k | 0 <= k < |x| ensures x[k] != '<' {
      assert x[k] in x;
    }
    StripWrapped(x);
    assert StartsWith(line, "<p>") by { assert line[..3] == "<p>"; }
    assert EndsWith(line, "</p>") by { assert line[|line| - 4..] == "</p>"; }
  }

  /** A line that is not wrapped in the two tags gives no paragraph. */
  lemma UnwrappedLineDropped(line: string)
    requires !StartsWith(Trim(line), "<p>")
    ensures ParagraphOf(line).None?
  {
  }

  // ---------------------------------------------------------------------
  // Replies and likes

  /** `(reply as any).likes || 0` */
  function Likes(r: Reply): nat {
    if r.likes.Some? then r.likes.value else 0
  }

  /** The `map` of `handleLike`: the replies with id `replyId` get one
      more like. */
  function LikeAll(rs: seq<Reply>, replyId: int): (r: seq<Reply>)
    ensures |r| == |rs|
    ensures forall i {:trigger r[i]} :: 0 <= i < |rs| ==>
              r[i] == if rs[i].id == replyId then rs[i].(likes := Some(Likes(rs[i]) + 1)) else rs[i]
  {
    if rs == [] then [] else
      [if rs[0].id == replyId then rs[0].(likes := Some(Likes(rs[0]) + 1)) else rs[0]] + LikeAll(rs[1..], replyId)
  }

  function Like(t: Topic, replyId: int): Topic {
    t.(repliesData := LikeAll(t.repliesData, replyId))
  }

  function AddReply(t: Topic, id: int, content: string): Topic {
    t.(repliesData := t.repliesData + [Reply(id, content, None)])
  }

  /** A like raises the count of the liked reply by exactly one and changes
      nothing else of the topic. */
  lemma LikeCountsOnce(t: Topic, replyId: int, i: nat)
    requires i < |t.repliesData|
    ensures |Like(t, replyId).repliesData| == |t.repliesData|
    ensures Likes(Like(t, replyId).repliesData[i]) ==
            Likes(t.repliesData[i]) + (if t.repliesData[i].id == replyId then 1 else 0)
    ensures Like(t, replyId).repliesData[i].id == t.repliesData[i].id
    ensures Like(t, replyId).repliesData[i].content == t.repliesData[i].content
    ensures Like(t, replyId).replies == t.replies && Like(t, replyId).content == t.content
  {
  }

  /** A reply is added at the end, with the typed text and no likes; the
      earlier replies stay, and so does the counter in the header. */
  lemma AddReplyAppends(t: Topic, id: int, content: string)
    ensures var u := AddReply(t, id, content);
            |u.repliesData| == |t.repliesData| + 1 &&
            u.repliesData[..|t.repliesData|] == t.repliesData &&
            u.repliesData[|t.repliesData|].content == content &&
            Likes(u.repliesData[|t.repliesData|]) == 0 &&
            u.replies == t.replies && u.id == t.id
  {
  }

  /** A request waiting for its delay, with the topic its handler saw. */
  datatype Pending = PendingReply(text: string, snapshot: Topic) | PendingLike(replyId: int, snapshot: Topic)

  /** What a completion stores, as written: the change applied to the topic
      the handler saw when it was called. */
  function Complete(p: Pending, now: int): Topic {
    match p
    case PendingReply(text, snapshot) => AddReply(snapshot, now, text)
    case PendingLike(replyId, snapshot) => Like(snapshot, replyId)
  }

  /** The evidently intended completion: the change applied to the topic as
      it is when the request completes. */
  function CompleteCorrected(current: Topic, p: Pending, now: int): Topic {
    match p
    case PendingReply(text, _) => AddReply(current, now, text)
    case PendingLike(replyId, _) => Like(current, replyId)
  }

  /** As written, two likes clicked within the delay count once: both
      apply to the topic seen at the clicks. */
  lemma DoubleLikeCountsOnce(t: Topic, replyId: int, i: nat, now: int)
    requires i < |t.repliesData| && t.repliesData[i].id == replyId
    ensures var first := Complete(PendingLike(replyId, t), now);
            var second := Complete(PendingLike(replyId, t), now);
            Likes(first.repliesData[i]) == Likes(t.repliesData[i]) + 1 &&
            Likes(second.repliesData[i]) == Likes(t.repliesData[i]) + 1
  {
    LikeCountsOnce(t, replyId, i);
  }

  /** As written, a like that completes while a reply is waiting is undone
      when the reply completes. */
  lemma ReplyUndoesLike(t: Topic, replyId: int, i: nat, now: int, text: string)
    requires i < |t.repliesData| && t.repliesData[i].id == replyId
    ensures var liked := Complete(PendingLike(replyId, t), now);
            var replied := Complete(PendingReply(text, t), now);
            Likes(liked.repliesData[i]) == Likes(t.repliesData[i]) + 1 &&
            Likes(replied.repliesData[i]) == Likes(t.repliesData[i])
  {
    LikeCountsOnce(t, replyId, i);
  }

  function LikeTimes(t: Topic, replyId: int, n: nat): Topic {
    if n == 0 then t else Like(LikeTimes(t, replyId, n - 1), replyId)
  }

  /** With the correction, `n` likes of a reply all count. */
  lemma {:induction false} CorrectedLikesAllCount(t: Topic, replyId: int, i: nat, n: nat, snapshot: Topic)
    requires i < |t.repliesData| && t.repliesData[i].id == replyId
    ensures |LikeTimes(t, replyId, n).repliesData| == |t.repliesData|
    ensures LikeTimes(t, replyId, n).repliesData[i].id == replyId
    ensures Likes(LikeTimes(t, replyId, n).repliesData[i]) == Likes(t.repliesData[i]) + n
    ensures n > 0 ==> LikeTimes(t, replyId, n) ==
                      CompleteCorrected(LikeTimes(t, replyId, n - 1), PendingLike(replyId, snapshot), 0)
  {
    if n > 0 {
      var prev := LikeTimes(t, replyId, n - 1);
      CorrectedLikesAllCount(t, replyId, i, n - 1, snapshot);
      LikeStep(prev, replyId, i, Likes(t.repliesData[i]) + (n - 1));
    }
  }

  /** One like of a reply that has `k` likes leaves it with `k + 1`. */
  lemma LikeStep(prev: Topic, replyId: int, i: nat, k: nat)
    requires i < |prev.repliesData| && prev.repliesData[i].id == replyId && Likes(prev.repliesData[i]) == k
    ensures |Like(prev, replyId).repliesData| == |prev.repliesData|
    ensures Like(prev, replyId).repliesData[i].id == replyId
    ensures Likes(Like(prev, replyId).repliesData[i]) == k + 1
  {
    LikeCountsOnce(prev, replyId, i);
  }

  /** With the correction, a like and a reply completing in either order
      give the same topic, as long as the new reply's id is not the liked
      one. */
  lemma CorrectedLikeAndReplyCommute(t: Topic, replyId: int, text: string, now: int, s1: Topic, s2: Topic)
    requires now != replyId
    ensures CompleteCorrected(CompleteCorrected(t, PendingLike(replyId, s1), now), PendingReply(text, s2), now) ==
            CompleteCorrected(CompleteCorrected(t, PendingReply(text, s2), now), PendingLike(replyId, s1), now)
  {
    var rs := t.repliesData;
    var a := LikeAll(rs, replyId) + [Reply(now, text, None)];
    var b := LikeAll(rs + [Reply(now, text, None)], replyId);
    assert |a| == |b|;
    forall i | 0 <= i < |a| ensures a[i] == b[i] {
      if i < |rs| {
        assert (rs + [Reply(now, text, None)])[i] == rs[i];
      }
    }
    assert a == b;
  }

  // ---------------------------------------------------------------------
  // The page

  function RemoveAt<T>(s: seq<T>, i: nat): (r: seq<T>)
    requires i < |s|
    ensures |r| == |s| - 1
  {
    s[..i] + s[i + 1..]
  }

  class TopicPage {
    /** `topicDetails`; `None` is the falsy value. */
    var topicDetails: Option<Topic>
    var replyContent: string
    /** The requests waiting for their delays; any of them may complete
        first. */
    var pending: seq<Pending>
    var log: seq<Ui.Effect>

    /** Mounting with the route's `id`: the lookup, then the effect that
        leaves for the community page when a non-empty id found nothing. */
    constructor(id: Option<string>, topics: seq<Topic>)
      ensures GetTopicDetails(id, topics).Found? ==> topicDetails == Some(GetTopicDetails(id, topics).topic)
      ensures !GetTopicDetails(id, topics).Found? ==> topicDetails.None?
      ensures GetTopicDetails(id, topics).Undefined? ==>
                log == [Ui.Toast(Ui.Error, Ui.Literal("话题不存在")), Ui.Navigate("/community")]
      ensures !GetTopicDetails(id, topics).Undefined? ==> log == []
      ensures replyContent == "" && pending == []
    {
      var found := GetTopicDetails(id, topics);
      var details := if found.Found? then Some(found.topic) else None;
      topicDetails := details;
      replyContent := "";
      pending := [];
      log := [];
      if details.None? && id.Some? && id.value != "" {
        log := [Ui.Toast(Ui.Error, Ui.Literal("话题不存在")), Ui.Navigate("/community")];
      }
    }

    /** The textarea's `onChange`. */
    method HandleReplyInput(value: string)
      modifies this
      ensures replyContent == value
      ensures topicDetails == old(topicDetails) && pending == old(pending) && log == old(log)
    {
      replyContent := value;
    }

    /** `handleReply()`, shown only with a topic: a visitor who is not
        logged in is sent to the login page; blank text is refused;
        otherwise the request starts with the text and the topic as they
        are now. */
    method HandleReply(isAuthenticated: bool)
      requires topicDetails.Some?
      modifies this
      ensures topicDetails == old(topicDetails) && replyContent == old(replyContent)
      ensures !isAuthenticated ==>
                pending == old(pending) &&
                log == old(log) + [Ui.Toast(Ui.Info, Ui.Literal("请先登录后再回复")), Ui.Navigate("/login")]
      ensures isAuthenticated && Trim(replyContent) == "" ==>
                pending == old(pending) && log == old(log) + [Ui.Toast(Ui.Error, Ui.Literal("请输入回复内容"))]
      ensures isAuthenticated && Trim(replyContent) != "" ==>
                pending == old(pending) + [PendingReply(replyContent, topicDetails.value)] && log == old(log)
    {
      if !isAuthenticated {
        log := log + [Ui.Toast(Ui.Info, Ui.Literal("请先登录后再回复")), Ui.Navigate("/login")];
        return;
      }
      var trimmed := Trim(replyContent);
      if trimmed == "" {
        log := log + [Ui.Toast(Ui.Error, Ui.Literal("请输入回复内容"))];
        return;
      }
      pending := pending + [PendingReply(replyContent, topicDetails.value)];
    }

    /** `handleLike(replyId)`: the request starts with the topic as it is
        now. */
    method HandleLike(replyId: int)
      requires topicDetails.Some?
      modifies this
      ensures topicDetails == old(topicDetails) && replyContent == old(replyContent) && log == old(log)
      ensures pending == old(pending) + [PendingLike(replyId, topicDetails.value)]
    {
      pending := pending + [PendingLike(replyId, topicDetails.value)];
    }

    /** The `i`-th waiting request completes at time `now`: the topic
        becomes its change applied to the topic its handler saw; a reply
        also clears the input, whatever was typed since. */
    method CompletePending(i: nat, now: int)
      requires i < |pending|
      modifies this
      ensures topicDetails == Some(Complete(old(pending)[i], now))
      ensures pending == RemoveAt(old(pending), i)
      ensures old(pending)[i].PendingReply? ==>
                replyContent == "" && log == old(log) + [Ui.Toast(Ui.Success, Ui.Literal("回复成功！"))]
      ensures old(pending)[i].PendingLike? ==>
                replyContent == old(replyContent) && log == old(log) + [Ui.Toast(Ui.Success, Ui.Literal("点赞成功！"))]
    {
      var p := pending[i];
      pending := pending[..i] + pending[i + 1..];
      match p {
        case PendingReply(text, snapshot) =>
          topicDetails := Some(snapshot.(repliesData := snapshot.repliesData + [Reply(now, text, None)]));
          log := log + [Ui.Toast(Ui.Success, Ui.Literal("回复成功！"))];
          replyContent := "";
        case PendingLike(replyId, snapshot) =>
          topicDetails := Some(snapshot.(repliesData := LikeAll(snapshot.repliesData, replyId)));
          log := log + [Ui.Toast(Ui.Success, Ui.Literal("点赞成功！"))];
      }
    }
  }
}

=== FILE: constants.dfy ===
/** The client's validation tables: the country list with dial codes and
    national number lengths, the length limits, and the regular expressions
    of the validation rules written as predicates. */
module Constants {
  import opened Options
  import opened JsString

  datatype Country = Country(code: string, dialCode: string, maxLength: nat)

  const Countries: seq<Country> := [
    Country("CN", "+86", 11), Country("US", "+1", 10), Country("JP", "+81", 10),
    Country("KR", "+82", 11), Country("DE", "+49", 11), Country("FR", "+33", 9),
    Country("GB", "+44", 10), Country("AU", "+61", 9), Country("CA", "+1", 10),
    Country("SG", "+65", 8)
  ]

  const PhoneMinLength := 6
  const PhoneMaxLength := 15
  const PasswordMinLength := 6
  const PasswordMaxLength := 128
  const CodeLength := 6

  /** `COUNTRIES.find(c => c.code === code)`: the first country with that code. */
  function FindCountry(code: string): (r: Option<Country>)
    ensures r.Some? ==> r.value in Countries && r.value.code == code
    ensures r.None? <==> forall i :: 0 <= i < |Countries| ==> Countries[i].code != code
  {
    FindCountryIn(Countries, code)
  }

  function FindCountryIn(cs: seq<Country>, code: string): (r: Option<Country>)
    ensures r.Some? ==> r.value in cs && r.value.code == code
    ensures r.None? <==> forall i :: 0 <= i < |cs| ==> cs[i].code != code
  {
    if cs == [] then None
    else if cs[0].code == code then Some(cs[0])
    else FindCountryIn(cs[1..], code)
  }

  /** Every dial code in the table starts with "+". */
  lemma {:induction false} DialCodesStartWithPlus(c: Country)
    requires c in Countries
    ensures StartsWith(c.dialCode, "+")
  {
    var i :| 0 <= i < |Countries| && Countries[i] == c;
    assert Countries[i].dialCode[0] == '+';
  }

  /** `[\d\s\-\(\)]` */
  predicate IsPhoneBodyChar(c: char) {
    IsDigit(c) || IsWhitespace(c) || c == '-' || c == '(' || c == ')'
  }

  /** `/^\+?[\d\s\-\(\)]+$/`: since "+" is not in the class, a leading "+"
      must be the optional sign, and at least one class character follows. */
  predicate PhonePattern(s: string) {
    var body := if |s| > 0 && s[0] == '+' then s[1..] else s;
    |body| >= 1 && forall i :: 0 <= i < |body| ==> IsPhoneBodyChar(body[i])
  }

  /** `[^\s@]` */
  predicate IsEmailChar(c: char) {
    !IsWhitespace(c) && c != '@'
  }

  predicate AllEmailChars(s: string) {
    forall k :: 0 <= k < |s| ==> IsEmailChar(s[k])
  }

  /** The match of `/^[^\s@]+@[^\s@]+\.[^\s@]+$/` with the "@" at `i` and
      the separating "." at `j`. */
  predicate EmailMatchAt(s: string, i: nat, j: nat) {
    0 < i && i + 1 < j && j + 1 < |s| && s[i] == '@' && s[j] == '.' &&
    AllEmailChars(s[..i]) && AllEmailChars(s[i + 1..j]) && AllEmailChars(s[j + 1..])
  }

  /** `/^[^\s@]+@[^\s@]+\.[^\s@]+$/.test(s)` */
  predicate EmailPattern(s: string) {
    exists i: nat, j: nat | j < |s| && i < j :: EmailMatchAt(s, i, j)
  }

  /** `/^\d{6}$/.test(s)` */
  predicate CodePattern(s: string) {
    |s| == CodeLength && AllDigits(s)
  }
}

=== FILE: contact_page.dfy ===
/** The `Contact` page's form: four text fields updated by name, a guard
    chain with literal toasts, and a simulated submission that completes
    after a delay and clears the form. */
module ContactPage {
  import opened Options
  import opened JsString
  import Constants
  import Ui

  const NameRequired := "请输入您的姓名"
  const EmailRequired := "请输入您的邮箱"
  const EmailInvalid := "请输入有效的邮箱地址"
  const SubjectRequired := "请输入主题"
  const MessageRequired := "请输入您的留言内容"
  const Submitted := "留言提交成功，我们将尽快回复您"

  datatype Field = Name | Email | Subject | Message

  /** The form's values. */
  datatype Form = Form(name: string, email: string, subject: string, message: string)

  const EmptyForm := Form("", "", "", "")

  /** `setFormData(prev => ({ ...prev, [name]: value }))` */
  function Update(f: Form, field: Field, value: string): (r: Form)
    ensures field == Name ==> r == f.(name := value)
    ensures field == Email ==> r == f.(email := value)
    ensures field == Subject ==> r == f.(subject := value)
    ensures field == Message ==> r == f.(message := value)
  {
    match field
    case Name => f.(name := value)
    case Email => f.(email := value)
    case Subject => f.(subject := value)
    case Message => f.(message := value)
  }

  function Get(f: Form, field: Field): string {
    match field
    case Name => f.name
    case Email => f.email
    case Subject => f.subject
    case Message => f.message
  }

  /** An update changes the named field and no other. */
  lemma UpdateOnlyNamedField(f: Form, field: Field, value: string, other: Field)
    ensures Get(Update(f, field, value), field) == value
    ensures other != field ==> Get(Update(f, field, value), other) == Get(f, other)
  {
  }

  /** The guard chain of `handleSubmit`: the text of the error toast of the
      first failing check, or `None` when the submission starts. The
      emptiness checks do not trim. */
  function SubmitCheck(f: Form): (r: Option<string>)
    ensures r.None? <==> f.name != "" && f.email != "" && Constants.EmailPattern(f.email) &&
                         f.subject != "" && f.message != ""
    ensures f.name == "" ==> r == Some(NameRequired)
    ensures f.name != "" && f.email == "" ==> r == Some(EmailRequired)
    ensures f.name != "" && f.email != "" && !Constants.EmailPattern(f.email) ==> r == Some(EmailInvalid)
    ensures (f.name != "" && Constants.EmailPattern(f.email) && f.subject == "") ==> r == Some(SubjectRequired)
    ensures (f.name != "" && Constants.EmailPattern(f.email) && f.subject != "" && f.message == "") ==>
              r == Some(MessageRequired)
  {
    if f.name == "" then Some(NameRequired)
    else if f.email == "" then Some(EmailRequired)
    else if !Constants.EmailPattern(f.email) then Some(EmailInvalid)
    else if f.subject == "" then Some(SubjectRequired)
    else if f.message == "" then Some(MessageRequired)
    else None
  }

  /** A matching email holds an "@" and no whitespace. */
  lemma EmailPatternShape(s: string)
    requires Constants.EmailPattern(s)
    ensures '@' in s
    ensures forall k :: 0 <= k < |s| ==> !IsWhitespace(s[k])
  {
    var i: nat, j: nat :| j < |s| && i < j && Constants.EmailMatchAt(s, i, j);
    forall k | 0 <= k < |s| ensures !IsWhitespace(s[k]) {
      if k < i {
        assert s[k] == s[..i][k];
      } else if i < k < j {
        assert s[k] == s[i + 1..j][k - i - 1];
      } else if j < k {
        assert s[k] == s[j + 1..][k - j - 1];
      }
    }
  }

  lemma EmailExamples()
    ensures Constants.EmailPattern("user@example.com")
    ensures !Constants.EmailPattern("user@example")
    ensures !Constants.EmailPattern("user example.com")
  {
    AcceptedEmail();
    NoDotRejected();
    NoAtRejected();
  }

  lemma AcceptedEmail()
    ensures Constants.EmailPattern("user@example.com")
  {
    var s := "user@example.com";
    assert forall k | 0 <= k < |s| && k != 4 :: Constants.IsEmailChar(s[k]);
    assert Constants.EmailMatchAt(s, 4, 12);
  }

  lemma NoDotRejected()
    ensures !Constants.EmailPattern("user@example")
  {
    var t := "user@example";
    assert forall k | 0 <= k < |t| :: t[k] != '.';
  }

  lemma NoAtRejected()
    ensures !Constants.EmailPattern("user example.com")
  {
    var u := "user example.com";
    assert forall k | 0 <= k < |u| :: u[k] != '@';
  }

  /** Fields holding only spaces get through every emptiness check. */
  lemma BlankFieldsPass()
    ensures SubmitCheck(Form(" ", "user@example.com", " ", " ")).None?
  {
    EmailExamples();
  }

  class Contact {
    var form: Form
    var isSubmitting: bool
    /** The submission's timer is waiting. */
    var pending: bool
    var log: seq<Ui.Effect>

    ghost predicate Valid()
      reads this
    {
      pending <==> isSubmitting
    }

    constructor()
      ensures Valid() && form == EmptyForm && !isSubmitting && log == []
    {
      form := EmptyForm;
      isSubmitting := false;
      pending := false;
      log := [];
    }

    /** `handleChange(e)` for the input named `field`. */
    method HandleChange(field: Field, value: string)
      requires Valid()
      modifies this
      ensures Valid()
      ensures form == Update(old(form), field, value)
      ensures isSubmitting == old(isSubmitting) && log == old(log)
    {
      match field {
        case Name => form := form.(name := value);
        case Email => form := form.(email := value);
        case Subject => form := form.(subject := value);
        case Message => form := form.(message := value);
      }
    }

    /** The submit button running `handleSubmit`: nothing while it is
        disabled during a submission; otherwise the first failing check
        shows its toast, or the submission starts. */
    method HandleSubmit()
      requires Valid()
      modifies this
      ensures Valid()
      ensures form == old(form)
      ensures old(isSubmitting) ==> isSubmitting && log == old(log)
      ensures !old(isSubmitting) ==>
                var err := SubmitCheck(form);
                (err.Some? ==> log == old(log) + [Ui.Toast(Ui.Error, Ui.Literal(err.value))] && !isSubmitting) &&
                (err.None? ==> log == old(log) && isSubmitting)
    {
      if isSubmitting {
        return;
      }
      if form.name == "" {
        log := log + [Ui.Toast(Ui.Error, Ui.Literal(NameRequired))];
        return;
      }
      if form.email == "" {
        log := log + [Ui.Toast(Ui.Error, Ui.Literal(EmailRequired))];
        return;
      }
      if !Constants.EmailPattern(form.email) {
        log := log + [Ui.Toast(Ui.Error, Ui.Literal(EmailInvalid))];
        return;
      }
      if form.subject == "" {
        log := log + [Ui.Toast(Ui.Error, Ui.Literal(SubjectRequired))];
        return;
      }
      if form.message == "" {
        log := log + [Ui.Toast(Ui.Error, Ui.Literal(MessageRequired))];
        return;
      }
      isSubmitting := true;
      pending := true;
    }

    /** The submission's delay elapsed: success toast, all four fields
        cleared. */
    method CompleteSubmit()
      requires Valid() && pending
      modifies this
      ensures Valid()
      ensures form == EmptyForm && !isSubmitting
      ensures log == old(log) + [Ui.Toast(Ui.Success, Ui.Literal(Submitted))]
    {
      log := log + [Ui.Toast(Ui.Success, Ui.Literal(Submitted))];
      form := EmptyForm;
      isSubmitting := false;
      pending := false;
    }
  }
}

=== FILE: courses_page.dfy ===
/** The `Courses` page's level filter. A course's level is stored as the
    translated level name, and the filter compares it with the translation
    of the level key of the route; `tr` is the translation in the current
    language. */
module CoursesPage {
  import opened Options

  datatype Course = Course(id: nat, level: string)

  const BeginnerKey := "courses.levels.beginner"
  const IntermediateKey := "courses.levels.intermediate"
  const AdvancedKey := "courses.levels.advanced"

  /** The six courses of the page, with their translated levels. */
  function Catalog(tr: string -> string): (r: seq<Course>)
    ensures |r| == 6
  {
    [Course(1, tr(BeginnerKey)), Course(2, tr(IntermediateKey)), Course(3, tr(AdvancedKey)),
     Course(4, tr(BeginnerKey)), Course(5, tr(AdvancedKey)), Course(6, tr(IntermediateKey))]
  }

  /** The `filter` callback for a non-empty level. */
  predicate Keep(c: Course, level: string, tr: string -> string) {
    if level == "beginner" then c.level == tr(BeginnerKey)
    else if level == "intermediate" then c.level == tr(IntermediateKey)
    else if level == "advanced" then c.level == tr(AdvancedKey)
    else false
  }

  function FilterLevel(courses: seq<Course>, level: string, tr: string -> string): (r: seq<Course>)
    ensures |r| <= |courses|
    ensures forall c :: c in r <==> c in courses && Keep(c, level, tr)
  {
    if courses == [] then []
    else if Keep(courses[0], level, tr) then [courses[0]] + FilterLevel(courses[1..], level, tr)
    else FilterLevel(courses[1..], level, tr)
  }

  /** `filteredCourses`: all courses without a level (or with an empty
      one), else the kept ones. */
  function FilteredCourses(courses: seq<Course>, level: Option<string>, tr: string -> string): seq<Course> {
    if level.None? || level.value == "" then courses else FilterLevel(courses, level.value, tr)
  }

  /** `a` is `b` with some elements left out, in the same order. */
  predicate IsSubsequence(a: seq<Course>, b: seq<Course>)
    decreases |b|
  {
    if a == [] then true
    else if b == [] then false
    else if a[0] == b[0] then IsSubsequence(a[1..], b[1..])
    else IsSubsequence(a, b[1..])
  }

  lemma {:induction false} SubsequenceOfSelf(b: seq<Course>)
    ensures IsSubsequence(b, b)
    decreases |b|
  {
    if b != [] {
      SubsequenceOfSelf(b[1..]);
    }
  }

  lemma {:induction false} FilterIsSubsequence(courses: seq<Course>, level: string, tr: string -> string)
    ensures IsSubsequence(FilterLevel(courses, level, tr), courses)
    decreases |courses|
  {
    if courses != [] {
      FilterIsSubsequence(courses[1..], level, tr);
      var rest := FilterLevel(courses[1..], level, tr);
      if Keep(courses[0], level, tr) {
        assert ([courses[0]] + rest)[1..] == rest;
      }
    }
  }

  /** The result keeps the list's order, and holds exactly the courses the
      level selects. */
  lemma FilteredIsOrderedSelection(courses: seq<Course>, level: Option<string>, tr: string -> string)
    ensures IsSubsequence(FilteredCourses(courses, level, tr), courses)
    ensures level.Some? && level.value != "" ==>
              forall c :: c in FilteredCourses(courses, level, tr) <==> c in courses && Keep(c, level.value, tr)
  {
    if level.None? || level.value == "" {
      SubsequenceOfSelf(courses);
    } else {
      FilterIsSubsequence(courses, level.value, tr);
    }
  }

  /** A level other than the three yields no course, so the empty state
      is shown. */
  lemma {:induction false} UnknownLevelIsEmpty(courses: seq<Course>, level: string, tr: string -> string)
    requires level != "" && level != "beginner" && level != "intermediate" && level != "advanced"
    ensures FilteredCourses(courses, Some(level), tr) == []
    decreases |courses|
  {
    if courses != [] {
      UnknownLevelIsEmpty(courses[1..], level, tr);
    }
  }

  function Pick(c: Course, level: string, tr: string -> string): seq<Course> {
    if Keep(c, level, tr) then [c] else []
  }

  lemma FilterStep(cs: seq<Course>, k: nat, level: string, tr: string -> string)
    requires k < |cs|
    ensures FilterLevel(cs[k..], level, tr) == Pick(cs[k], level, tr) + FilterLevel(cs[k + 1..], level, tr)
  {
    assert cs[k..][0] == cs[k] && cs[k..][1..] == cs[k + 1..];
  }

  /** The courses from position `k` on, filtered by a level that exactly
      the courses at positions `i` and `j` match. */
  lemma {:induction false} FilterSuffixPair(cs: seq<Course>, level: string, tr: string -> string, i: nat, j: nat, k: nat)
    requires i < j < |cs| && k <= |cs|
    requires forall m :: 0 <= m < |cs| ==> (Keep(cs[m], level, tr) <==> m == i || m == j)
    ensures FilterLevel(cs[k..], level, tr) == (if k <= i then [cs[i]] else []) + (if k <= j then [cs[j]] else [])
    decreases |cs| - k
  {
    if k < |cs| {
      FilterSuffixPair(cs, level, tr, i, j, k + 1);
      FilterStep(cs, k, level, tr);
    } else {
      assert cs[k..] == [];
    }
  }

  /** A level that exactly the courses at positions `i` and `j` match
      keeps those two, in order. */
  lemma FilterKeepsPair(cs: seq<Course>, level: string, tr: string -> string, i: nat, j: nat)
    requires i < j < |cs|
    requires forall k :: 0 <= k < |cs| ==> (Keep(cs[k], level, tr) <==> k == i || k == j)
    ensures FilterLevel(cs, level, tr) == [cs[i], cs[j]]
  {
    FilterSuffixPair(cs, level, tr, i, j, 0);
    assert cs[0..] == cs;
  }

  /** When the beginner name differs from the other two, the beginner
      filter keeps ids 1 and 4, in that order. */
  lemma BeginnerCourses(tr: string -> string)
    requires tr(BeginnerKey) != tr(IntermediateKey) && tr(BeginnerKey) != tr(AdvancedKey)
    ensures FilteredCourses(Catalog(tr), Some("beginner"), tr) == [Course(1, tr(BeginnerKey)), Course(4, tr(BeginnerKey))]
  {
    var cs := Catalog(tr);
    forall k | 0 <= k < 6
      ensures Keep(cs[k], "beginner", tr) <==> k == 0 || k == 3
    {
    }
    FilterKeepsPair(cs, "beginner", tr, 0, 3);
  }

  /** Likewise the intermediate filter keeps ids 2 and 6. */
  lemma IntermediateCourses(tr: string -> string)
    requires tr(IntermediateKey) != tr(BeginnerKey) && tr(IntermediateKey) != tr(AdvancedKey)
    ensures FilteredCourses(Catalog(tr), Some("intermediate"), tr) == [Course(2, tr(IntermediateKey)), Course(6, tr(IntermediateKey))]
  {
    var cs := Catalog(tr);
    forall k | 0 <= k < 6
      ensures Keep(cs[k], "intermediate", tr) <==> k == 1 || k == 5
    {
    }
    FilterKeepsPair(cs, "intermediate", tr, 1, 5);
  }

  /** Likewise the advanced filter keeps ids 3 and 5. */
  lemma AdvancedCourses(tr: string -> string)
    requires tr(AdvancedKey) != tr(BeginnerKey) && tr(AdvancedKey) != tr(IntermediateKey)
    ensures FilteredCourses(Catalog(tr), Some("advanced"), tr) == [Course(3, tr(AdvancedKey)), Course(5, tr(AdvancedKey))]
  {
    var cs := Catalog(tr);
    forall k | 0 <= k < 6
      ensures Keep(cs[k], "advanced", tr) <==> k == 2 || k == 4
    {
    }
    FilterKeepsPair(cs, "advanced", tr, 2, 4);
  }
}

=== FILE: debounced_validation.dfy ===
/** `useDebouncedValidation(validate, delay)`: each call cancels the pending
    timer and starts a new one; when a timer elapses, the value it was started
    with is validated and the result is stored. The timer is modelled by the
    value it will validate (`pending`) and an explicit `TimerElapsed` step;
    the delay itself is kept only as a field. */
module DebouncedValidation {
  import opened Options

  const DefaultDelay: nat := 300
  const InvalidFormat := "validation.invalidFormat"

  datatype Result = Result(isValid: bool, message: string)

  /** The message is empty exactly for a valid result. */
  predicate Coherent(r: Result) {
    r.message == "" <==> r.isValid
  }

  /** The state before any validation ran. */
  function Initial(): (r: Result)
    ensures r.isValid && Coherent(r)
  {
    Result(true, "")
  }

  /** What the timer callback stores for `value`. */
  function Judge(validate: string -> bool, value: string): (r: Result)
    ensures r.isValid == validate(value)
    ensures Coherent(r)
    ensures !r.isValid ==> r.message == InvalidFormat
  {
    var ok := validate(value);
    Result(ok, if ok then "" else InvalidFormat)
  }

  /** The hook's state: the value of the pending timer, if any, the stored
      result, and whether the component is still mounted (a state update
      after unmounting has no effect). */
  datatype Hook = Hook(pending: Option<string>, result: Result, mounted: bool)

  datatype Event = Call(value: string) | Elapse | Unmount

  function Step(validate: string -> bool, h: Hook, e: Event): Hook {
    match e
    case Call(v) => h.(pending := Some(v))
    case Elapse =>
      (match h.pending
       case None => h
       case Some(v) => h.(pending := None, result := if h.mounted then Judge(validate, v) else h.result))
    case Unmount => h.(pending := None, mounted := false)
  }

  function Run(validate: string -> bool, h: Hook, es: seq<Event>): Hook
    decreases |es|
  {
    if es == [] then h else Run(validate, Step(validate, h, es[0]), es[1..])
  }

  function Calls(vs: seq<string>): (r: seq<Event>)
    ensures |r| == |vs|
    ensures forall i :: 0 <= i < |vs| ==> r[i] == Call(vs[i])
  {
    if vs == [] then [] else [Call(vs[0])] + Calls(vs[1..])
  }

  lemma {:induction false} RunCalls(validate: string -> bool, h: Hook, vs: seq<string>)
    requires |vs| > 0
    ensures Run(validate, h, Calls(vs)) == h.(pending := Some(vs[|vs| - 1]))
    decreases |vs|
  {
    var es := Calls(vs);
    assert es[1..] == Calls(vs[1..]);
    if |vs| > 1 {
      RunCalls(validate, Step(validate, h, Call(vs[0])), vs[1..]);
    }
  }

  lemma {:induction false} RunAppend(validate: string -> bool, h: Hook, es: seq<Event>, more: seq<Event>)
    ensures Run(validate, h, es + more) == Run(validate, Run(validate, h, es), more)
    decreases |es|
  {
    if es != [] {
      assert (es + more)[0] == es[0];
      assert (es + more)[1..] == es[1..] + more;
      RunAppend(validate, Step(validate, h, es[0]), es[1..], more);
    } else {
      assert es + more == more;
    }
  }

  /** A burst of calls followed by one elapsed delay validates only the
      last value of the burst. */
  lemma LastCallWins(validate: string -> bool, h: Hook, vs: seq<string>)
    requires h.mounted && |vs| > 0
    ensures Run(validate, h, Calls(vs) + [Elapse]).result == Judge(validate, vs[|vs| - 1])
    ensures Run(validate, h, Calls(vs) + [Elapse]).pending.None?
  {
    RunAppend(validate, h, Calls(vs), [Elapse]);
    RunCalls(validate, h, vs);
  }

  /** Once unmounted, nothing changes the stored result any more. */
  lemma {:induction false} NoUpdateAfterUnmount(validate: string -> bool, h: Hook, es: seq<Event>)
    requires !h.mounted
    ensures Run(validate, h, es).result == h.result
    ensures !Run(validate, h, es).mounted
    decreases |es|
  {
    if es != [] {
      NoUpdateAfterUnmount(validate, Step(validate, h, es[0]), es[1..]);
    }
  }

  /** From the initial result on, the message is '' exactly when the result
      is valid, whatever happens. */
  lemma {:induction false} RunKeepsCoherent(validate: string -> bool, h: Hook, es: seq<Event>)
    requires Coherent(h.result)
    ensures Coherent(Run(validate, h, es).result)
    decreases |es|
  {
    if es != [] {
      RunKeepsCoherent(validate, Step(validate, h, es[0]), es[1..]);
    }
  }

  /** The hook instance: `timeoutRef.current` is `pending`, the state
      `validationResult` is `result`. */
  class DebouncedValidator {
    const validate: string -> bool
    const delay: nat
    var pending: Option<string>
    var result: Result
    var mounted: bool

    function State(): Hook
      reads this
    {
      Hook(pending, result, mounted)
    }

    constructor(validate: string -> bool, delay: nat)
      ensures this.validate == validate && this.delay == delay
      ensures State() == Hook(None, Initial(), true)
    {
      this.validate := validate;
      this.delay := delay;
      pending := None;
      result := Initial();
      mounted := true;
    }

    /** `debouncedValidate(value)`: the pending timer, if any, is replaced. */
    method DebouncedValidate(value: string)
      modifies this
      ensures pending == Some(value) && result == old(result) && mounted == old(mounted)
      ensures State() == Step(validate, old(State()), Call(value))
    {
      pending := Some(value);
    }

    /** The pending timer's delay has elapsed. */
    method TimerElapsed()
      modifies this
      ensures pending.None? && mounted == old(mounted)
      ensures old(pending).Some? && mounted ==> result == Judge(validate, old(pending).value)
      ensures old(pending).None? || !mounted ==> result == old(result)
      ensures State() == Step(validate, old(State()), Elapse)
    {
      if pending.Some? {
        if mounted {
          var ok := validate(pending.value);
          result := Result(ok, if ok then "" else InvalidFormat);
        }
        pending := None;
      }
    }

    /** The effect's cleanup: the pending timer is cleared. */
    method Unmount()
      modifies this
      ensures pending.None? && !mounted && result == old(result)
      ensures State() == Step(validate, old(State()), Event.Unmount)
    {
      pending := None;
      mounted := false;
    }
  }
}

=== FILE: digit_captcha.dfy ===
/** The `DigitCaptcha` widget: a code of random decimal digits, an input
    that keeps only digits and at most six of them, and a verification that
    completes after a delay, reports through `onVerify` and replaces the code
    on failure. The SVG picture is not modelled; the digits come from an
    oracle `digit`, where `digit(i)` stands for `Math.random() * 10` at
    position `i`. */
module DigitCaptcha {
  import opened Options
  import opened JsString
  import Ui

  const DefaultLength: nat := 6
  /** The cap `handleInputChange` puts on the filtered input. */
  const InputCap: nat := 6

  const SuccessText := "验证码验证成功！"
  const FailureText := "验证码不正确，请重试"

  /** The code part of `generateCaptcha(length)`. */
  function GenerateCode(digit: nat -> nat, length: nat): (r: string)
    ensures |r| == length && AllDigits(r)
  {
    if length == 0 then [] else GenerateCode(digit, length - 1) + [DigitChar(digit(length - 1) % 10)]
  }

  /** The value `handleInputChange` stores: the input with every non-digit
      removed, unless that is longer than six characters, in which case the
      previous value stays. */
  function Sanitize(previous: string, typed: string): (r: string)
    ensures |KeepDigits(typed)| <= InputCap ==> r == KeepDigits(typed)
    ensures |KeepDigits(typed)| > InputCap ==> r == previous
    ensures AllDigits(previous) && |previous| <= InputCap ==> AllDigits(r) && |r| <= InputCap
  {
    var v := KeepDigits(typed);
    if |v| <= InputCap then v else previous
  }

  /** `userInput.trim() === captcha.code` */
  predicate Matches(input: string, code: string) {
    Trim(input) == code
  }

  /** Since the stored input holds only digits, the trim changes nothing
      and the verdict is plain equality. */
  lemma MatchesIsEquality(input: string, code: string)
    requires AllDigits(input)
    ensures Matches(input, code) <==> input == code
  {
    TrimOfDigits(input);
  }

  /** Typing anything that, filtered, is exactly the code makes the verdict
      true. */
  lemma TypingTheCodeVerifies(typed: string, code: string, previous: string)
    requires |code| <= InputCap && KeepDigits(typed) == code
    ensures Matches(Sanitize(previous, typed), code)
  {
    MatchesIsEquality(code, code);
  }

  /** What a finished verification reports: the `onVerify` call, then the
      success or failure toast. */
  function VerdictEffects(ok: bool): (r: seq<Ui.Effect>)
    ensures |r| == 2 && r[0] == Ui.VerifyCallback(ok)
    ensures r[1].Toast? && (r[1].kind == Ui.Success <==> ok)
  {
    [Ui.VerifyCallback(ok),
     if ok then Ui.Toast(Ui.Success, Ui.Literal(SuccessText)) else Ui.Toast(Ui.Error, Ui.Literal(FailureText))]
  }

  class DigitCaptcha {
    var code: string
    var userInput: string
    var isVerifying: bool
    /** The input and code the pending verification timer captured. */
    var pending: Option<(string, string)>
    var log: seq<Ui.Effect>

    ghost predicate Valid()
      reads this
    {
      AllDigits(userInput) && |userInput| <= InputCap &&
      AllDigits(code) && |code| == DefaultLength &&
      (pending.Some? <==> isVerifying)
    }

    /** The widget after mounting: the effect has already replaced the
        initial code by a fresh one and cleared the input. */
    constructor(digit: nat -> nat)
      ensures Valid()
      ensures code == GenerateCode(digit, DefaultLength) && userInput == ""
      ensures !isVerifying && log == []
    {
      code := GenerateCode(digit, DefaultLength);
      userInput := "";
      isVerifying := false;
      pending := None;
      log := [];
    }

    /** `refreshCaptcha`, from the refresh button, which is disabled while
        a verification runs. */
    method RefreshCaptcha(digit: nat -> nat)
      requires Valid()
      modifies this
      ensures Valid()
      ensures !old(isVerifying) ==> code == GenerateCode(digit, DefaultLength) && userInput == ""
      ensures old(isVerifying) ==> code == old(code) && userInput == old(userInput)
      ensures isVerifying == old(isVerifying) && pending == old(pending) && log == old(log)
    {
      if !isVerifying {
        code := GenerateCode(digit, DefaultLength);
        userInput := "";
      }
    }

    /** `handleInputChange(e)`; the input is disabled while verifying. */
    method HandleInputChange(typed: string)
      requires Valid()
      modifies this
      ensures Valid()
      ensures !old(isVerifying) ==> userInput == Sanitize(old(userInput), typed)
      ensures old(isVerifying) ==> userInput == old(userInput)
      ensures code == old(code) && isVerifying == old(isVerifying) && pending == old(pending) && log == old(log)
    {
      if !isVerifying {
        var v := KeepDigits(typed);
        if |v| <= InputCap {
          userInput := v;
        }
      }
    }

    /** `handleVerify()`: ignored while a verification runs; otherwise the
        timer starts with the current input and code. */
    method HandleVerify()
      requires Valid()
      modifies this
      ensures Valid()
      ensures old(isVerifying) ==> isVerifying && pending == old(pending)
      ensures !old(isVerifying) ==> isVerifying && pending == Some((userInput, code))
      ensures code == old(code) && userInput == old(userInput) && log == old(log)
    {
      if isVerifying {
        return;
      }
      isVerifying := true;
      pending := Some((userInput, code));
    }

    /** The verify button's `disabled` is the negation of this: it is
        enabled only when no verification runs and the input is as long as
        the code. */
    predicate VerifyEnabled()
      reads this
    {
      !isVerifying && |userInput| == |code|
    }

    /** A click on the verify button: nothing while it is disabled;
        otherwise `handleVerify`, so a verification started by a click
        always compares an input of the code's full length (Enter, by
        contrast, starts one on any non-empty input). */
    method ClickVerify()
      requires Valid()
      modifies this
      ensures Valid()
      ensures !old(VerifyEnabled()) ==>
                code == old(code) && userInput == old(userInput) && isVerifying == old(isVerifying) &&
                pending == old(pending) && log == old(log)
      ensures old(VerifyEnabled()) ==> isVerifying && pending == Some((userInput, code))
      ensures pending != old(pending) ==> |pending.value.0| == |pending.value.1| == DefaultLength
      ensures code == old(code) && userInput == old(userInput) && log == old(log)
    {
      if isVerifying || |userInput| != |code| {
        return;
      }
      HandleVerify();
    }

    /** The verification timer fires: `onVerify` gets the verdict once, a
        toast follows, and on failure a fresh code replaces the old one and
        the input is cleared. */
    method CompleteVerify(digit: nat -> nat)
      requires Valid() && pending.Some?
      modifies this
      ensures Valid()
      ensures !isVerifying && pending.None?
      ensures log == old(log) + VerdictEffects(Matches(old(pending).value.0, old(pending).value.1))
      ensures Matches(old(pending).value.0, old(pending).value.1) ==> code == old(code) && userInput == old(userInput)
      ensures !Matches(old(pending).value.0, old(pending).value.1) ==>
                code == GenerateCode(digit, DefaultLength) && userInput == ""
    {
      var (input, expected) := pending.value;
      var ok := Matches(input, expected);
      log := log + VerdictEffects(ok);
      if !ok {
        code := GenerateCode(digit, DefaultLength);
        userInput := "";
      }
      isVerifying := false;
      pending := None;
    }

    /** `handleKeyPress(e)`: Enter starts a verification when something
        was typed. */
    method HandleKeyPress(key: string)
      requires Valid()
      modifies this
      ensures Valid()
      ensures key == "Enter" && old(userInput) != "" && !old(isVerifying) ==> pending == Some((userInput, code))
      ensures key == "Enter" && old(userInput) != "" && !old(isVerifying) ==> isVerifying
      ensures key != "Enter" || old(userInput) == "" ==> isVerifying == old(isVerifying) && pending == old(pending)
      ensures old(isVerifying) ==> isVerifying && pending == old(pending)
      ensures code == old(code) && userInput == old(userInput) && log == old(log)
    {
      if key == "Enter" && |userInput| > 0 {
        HandleVerify();
      }
    }
  }
}

=== FILE: env_config.dfy ===
/** The server's environment configuration: the defaults applied to the
    process environment, and the start-up validation. The process
    environment is a map from variable names to their values. */
module EnvConfig {
  import opened Options
  import opened JsString

  datatype Env = Env(
    nodeEnv: string,
    port: Option<int>,
    host: string,
    databaseUrl: string,
    jwtSecret: string,
    jwtExpiresIn: string,
    corsOrigin: seq<string>,
    rateLimitWindowMs: Option<int>,
    rateLimitMaxRequests: Option<int>)

  datatype Validation = Passed(warnings: seq<string>) | Threw(message: string)

  const DevSecret := "dev_secret_key"
  const DefaultDatabaseUrl := "file:./dev.db"
  const DefaultCorsOrigins: seq<string> := ["http://localhost:3000", "https://your-username.github.io"]
  const MissingPrefix := "缺少必需的环境变量: "
  const InsecureSecret := "生产环境必须设置安全的 JWT_SECRET"
  const WildcardWarning := "⚠️  生产环境不建议使用通配符 CORS 配置"

  /** `process.env[name] || fallback`: an unset or empty variable gives the
      fallback. */
  function OrDefault(vars: map<string, string>, name: string, fallback: string): (r: string)
    ensures name in vars && vars[name] != "" ==> r == vars[name]
    ensures name !in vars || vars[name] == "" ==> r == fallback
  {
    if name in vars && vars[name] != "" then vars[name] else fallback
  }

  /** `process.env.CORS_ORIGIN?.split(',') || [...]`: only an unset
      variable gives the defaults. */
  function CorsOrigins(vars: map<string, string>): (r: seq<string>)
    ensures "CORS_ORIGIN" in vars ==> Join(r, ",") == vars["CORS_ORIGIN"]
    ensures "CORS_ORIGIN" !in vars ==> r == DefaultCorsOrigins
  {
    if "CORS_ORIGIN" !in vars then DefaultCorsOrigins
    else
      JoinSplit(vars["CORS_ORIGIN"], ',');
      Split(vars["CORS_ORIGIN"], ',')
  }

  /** The `env` object. */
  function LoadEnv(vars: map<string, string>): (r: Env)
    ensures r.databaseUrl != "" && r.jwtSecret != ""
    ensures "JWT_SECRET" !in vars ==> r.jwtSecret == DevSecret
    ensures "CORS_ORIGIN" in vars ==> Join(r.corsOrigin, ",") == vars["CORS_ORIGIN"]
    ensures "CORS_ORIGIN" !in vars ==> r.corsOrigin == DefaultCorsOrigins
  {
    var databaseUrl := OrDefault(vars, "DATABASE_URL", DefaultDatabaseUrl);
    var jwtSecret := OrDefault(vars, "JWT_SECRET", DevSecret);
    var corsOrigin := CorsOrigins(vars);
    Env(OrDefault(vars, "NODE_ENV", "development"),
        ParseInt(OrDefault(vars, "PORT", "4000")),
        OrDefault(vars, "HOST", "localhost"),
        databaseUrl, jwtSecret,
        OrDefault(vars, "JWT_EXPIRES_IN", "7d"),
        corsOrigin,
        ParseInt(OrDefault(vars, "RATE_LIMIT_WINDOW_MS", "900000")),
        ParseInt(OrDefault(vars, "RATE_LIMIT_MAX_REQUESTS", "100")))
  }

  /** `required.filter(key => !env[key] || env[key] === '')` */
  function MissingKeys(env: Env): (r: seq<string>)
    ensures "JWT_SECRET" in r <==> env.jwtSecret == ""
    ensures "DATABASE_URL" in r <==> env.databaseUrl == ""
    ensures |r| <= 2
  {
    (if env.jwtSecret == "" then ["JWT_SECRET"] else []) +
    (if env.databaseUrl == "" then ["DATABASE_URL"] else [])
  }

  /** `validateEnv()`: a missing key throws first; in production the
      development secret throws and a wildcard origin only warns. */
  function ValidateEnv(env: Env): (r: Validation)
    ensures r == Threw(MissingPrefix + Join(MissingKeys(env), ", ")) <==> env.jwtSecret == "" || env.databaseUrl == ""
    ensures r == Threw(InsecureSecret) <==>
              env.jwtSecret == DevSecret && env.databaseUrl != "" && env.nodeEnv == "production"
    ensures r.Passed? <==>
              MissingKeys(env) == [] && !(env.nodeEnv == "production" && env.jwtSecret == DevSecret)
    ensures r.Passed? ==>
              r.warnings == if env.nodeEnv == "production" && "*" in env.corsOrigin then [WildcardWarning] else []
  {
    var missing := MissingKeys(env);
    if |missing| > 0 then Threw(MissingPrefix + Join(missing, ", "))
    else if env.nodeEnv == "production" && env.jwtSecret == DevSecret then Threw(InsecureSecret)
    else if env.nodeEnv == "production" && "*" in env.corsOrigin then Passed([WildcardWarning])
    else Passed([])
  }

  /** The defaults fill in both required keys, so the missing-key check can
      never fire on the `env` object. */
  lemma LoadedEnvHasNoMissingKeys(vars: map<string, string>)
    ensures MissingKeys(LoadEnv(vars)) == []
    ensures ValidateEnv(LoadEnv(vars)).Threw? ==> ValidateEnv(LoadEnv(vars)) == Threw(InsecureSecret)
  {
  }

  /** A production server started without a JWT secret refuses to start;
      one started in development accepts the development secret. */
  lemma ProductionNeedsSecret(vars: map<string, string>)
    requires "JWT_SECRET" !in vars
    ensures OrDefault(vars, "NODE_ENV", "development") == "production" ==>
              ValidateEnv(LoadEnv(vars)) == Threw(InsecureSecret)
    ensures OrDefault(vars, "NODE_ENV", "development") != "production" ==>
              ValidateEnv(LoadEnv(vars)) == Passed([])
  {
  }

  /** A wildcard among the configured origins never stops the server. */
  lemma WildcardOnlyWarns(vars: map<string, string>)
    requires "JWT_SECRET" in vars && vars["JWT_SECRET"] != "" && vars["JWT_SECRET"] != DevSecret
    requires "CORS_ORIGIN" in vars && "*" in LoadEnv(vars).corsOrigin
    ensures ValidateEnv(LoadEnv(vars)).Passed?
  {
  }
}

=== FILE: error_handler.dfy ===
/** The global Express error handler: an ordered classification of the
    error's message and name into a status and a JSON body, with the body's
    detail fields depending on whether `NODE_ENV` is "production". */
module ErrorHandler {
  import opened Options
  import opened JsString

  /** The fields of an `AppError` the handler reads. `name` is optional
      because `err.name?.includes` allows it to be missing. */
  datatype AppError = AppError(
    name: Option<string>,
    message: string,
    stack: string,
    status: Option<int>,
    statusCode: Option<int>,
    errors: seq<string>)

  datatype Body =
    | Message(message: string)
    | ValidationBody(message: string, errors: seq<string>)
    | DatabaseBody(message: string, details: Option<string>)
    /** `errorDetails` is sent under the key `details`; it cannot share that
        name with `DatabaseBody.details`, which holds a string. */
    | DefaultBody(message: string, timestamp: string, path: string,
                  stack: Option<string>, errorDetails: Option<AppError>)

  datatype Response = Response(status: int, body: Body)

  const CorsErrorMessage := "不允许的跨域请求"
  const CorsDenied := "跨域请求被拒绝"
  const InvalidTokenMessage := "无效的令牌"
  const ValidationMessage := "请求数据验证失败"
  const DatabaseMessage := "数据库操作失败"
  const GenericMessage := "服务器内部错误"

  predicate IsProduction(nodeEnv: Option<string>) {
    nodeEnv == Some("production")
  }

  /** `err.status || err.statusCode || 500`: a status of 0 is falsy and
      falls through to the next candidate. */
  function DefaultStatus(err: AppError): (r: int)
    ensures err.status.Some? && err.status.value != 0 ==> r == err.status.value
    ensures (err.status.None? || err.status == Some(0)) && err.statusCode.Some? && err.statusCode.value != 0 ==>
              r == err.statusCode.value
    ensures (err.status.None? || err.status == Some(0)) && (err.statusCode.None? || err.statusCode == Some(0)) ==>
              r == 500
    ensures r != 0
  {
    if err.status.Some? && err.status.value != 0 then err.status.value
    else if err.statusCode.Some? && err.statusCode.value != 0 then err.statusCode.value
    else 500
  }

  predicate IsPrismaError(err: AppError) {
    err.name.Some? && Includes(err.name.value, "Prisma")
  }

  /** `errorHandler(err, req, res)`, with the environment, the request path
      and the current time as inputs. The first matching test wins. */
  function HandleError(err: AppError, path: string, nodeEnv: Option<string>, now: string): (r: Response)
    ensures err.message == CorsErrorMessage ==> r == Response(403, Message(CorsDenied))
    ensures err.message != CorsErrorMessage && err.name == Some("JsonWebTokenError") ==>
              r == Response(401, Message(InvalidTokenMessage))
    ensures err.message != CorsErrorMessage && err.name == Some("ValidationError") ==>
              r == Response(400, ValidationBody(ValidationMessage, err.errors))
    ensures err.message != CorsErrorMessage && err.name != Some("JsonWebTokenError") &&
            err.name != Some("ValidationError") && IsPrismaError(err) ==>
              r.status == 500 && r.body.DatabaseBody? && r.body.message == DatabaseMessage &&
              (r.body.details.Some? <==> !IsProduction(nodeEnv)) &&
              (!IsProduction(nodeEnv) ==> r.body.details == Some(err.message))
    ensures err.message != CorsErrorMessage && err.name != Some("JsonWebTokenError") &&
            err.name != Some("ValidationError") && !IsPrismaError(err) ==>
              r.body.DefaultBody?
    ensures r.body.DefaultBody? ==>
              r.status == DefaultStatus(err) && r.body.path == path && r.body.timestamp == now &&
              (IsProduction(nodeEnv) ==> r.body.message == GenericMessage && r.body.stack.None? && r.body.errorDetails.None?) &&
              (!IsProduction(nodeEnv) ==> r.body.message == err.message && r.body.stack == Some(err.stack) &&
                                          r.body.errorDetails == Some(err))
  {
    if err.message == CorsErrorMessage then Response(403, Message(CorsDenied))
    else if err.name == Some("JsonWebTokenError") then Response(401, Message(InvalidTokenMessage))
    else if err.name == Some("ValidationError") then Response(400, ValidationBody(ValidationMessage, err.errors))
    else if IsPrismaError(err) then
      Response(500, DatabaseBody(DatabaseMessage, if IsProduction(nodeEnv) then None else Some(err.message)))
    else
      var production := IsProduction(nodeEnv);
      var message := if production then GenericMessage else err.message;
      Response(DefaultStatus(err),
               DefaultBody(message, now, path,
                           if production then None else Some(err.stack),
                           if production then None else Some(err)))
  }

  /** In production no response of the handler carries the error's own
      message, stack or object, except through the fixed texts above. */
  lemma ProductionRevealsNothing(err: AppError, path: string, now: string)
    requires err.message != CorsErrorMessage
    requires err.name != Some("JsonWebTokenError") && err.name != Some("ValidationError")
    ensures var r := HandleError(err, path, Some("production"), now);
            (r.body.DatabaseBody? && r.body.details.None?) ||
            (r.body.DefaultBody? && r.body.message == GenericMessage && r.body.stack.None? && r.body.errorDetails.None?)
  {
  }

  /** Any error the handler does not recognise is answered by one of the
      classified bodies or the default one, and never with status 0. */
  lemma StatusNeverZero(err: AppError, path: string, nodeEnv: Option<string>, now: string)
    ensures HandleError(err, path, nodeEnv, now).status != 0
  {
  }

  /** A CORS rejection is a 403 even when the error also carries a token or
      validation name: the message test comes first. */
  lemma CorsMessageWinsOverName(name: string, stack: string, status: Option<int>, path: string,
                                nodeEnv: Option<string>, now: string)
    ensures HandleError(AppError(Some(name), CorsErrorMessage, stack, status, None, []), path, nodeEnv, now) ==
            Response(403, Message(CorsDenied))
  {
  }
}

=== FILE: i18n_hook.dfy ===
/** `useI18n()`: the current language and a re-render counter, `t` with
    `{name}` parameter substitution over the dictionary lookup, and
    `changeLanguage` with the `languageChanged` event the hook itself also
    listens to. The dictionary is the function `translate`, and the
    language kept by the shared `i18n` instance is the field `i18nLanguage`. */
module I18nHook {
  import opened Options
  import opened JsString
  import Ui

  /** A parameter value: `string | number` (integers only). */
  datatype Param = Str(s: string) | Num(n: int)

  /** `String(value)` */
  function Render(p: Param): string {
    match p
    case Str(s) => s
    case Num(n) => IntToString(n)
  }

  /** The text `{name}` that a parameter replaces. */
  function Placeholder(name: string): (r: string)
    ensures |r| == |name| + 2 && r[0] == '{' && r[|r| - 1] == '}'
    ensures forall k :: 0 <= k < |name| ==> r[k + 1] == name[k]
  {
    "{" + name + "}"
  }

  /** The `forEach` over `Object.keys(params)`: each step replaces the first
      occurrence of that parameter's placeholder in the text so far. */
  function Substitute(text: string, params: seq<(string, Param)>): string
    decreases |params|
  {
    if params == [] then text
    else
      var last := params[|params| - 1];
      ReplaceFirst(Substitute(text, params[..|params| - 1]), Placeholder(last.0), Render(last.1))
  }

  predicate BraceFree(name: string) {
    '{' !in name && '}' !in name
  }

  /** Where `{name}` occurs, its braces are the only braces in that stretch. */
  lemma PlaceholderShape(s: string, name: string, i: nat)
    requires BraceFree(name) && OccursAt(s, Placeholder(name), i)
    ensures s[i] == '{' && s[i + |name| + 1] == '}'
    ensures forall k :: i < k <= i + |name| ==> s[k] != '{' && s[k] != '}'
  {
    var p := Placeholder(name);
    forall k | i <= k < i + |p|
      ensures s[k] == p[k - i]
    {
      assert s[i..i + |p|][k - i] == s[k];
    }
    forall k | i < k <= i + |name|
      ensures s[k] != '{' && s[k] != '}'
    {
      assert s[k] == name[k - i - 1];
      assert name[k - i - 1] in name;
    }
  }

  /** Two placeholders of the same length at the same place have the same
      name. */
  lemma SamePlaceSameName(s: string, a: string, i: nat, b: string, j: nat)
    requires OccursAt(s, Placeholder(a), i) && OccursAt(s, Placeholder(b), j)
    ensures i == j && |a| == |b| ==> a == b
  {
    if i == j && |a| == |b| {
      var pa, pb := Placeholder(a), Placeholder(b);
      assert pa == s[i..i + |pa|] == pb;
      assert a == pa[1..|pa| - 1];
      assert b == pb[1..|pb| - 1];
    }
  }

  /** Two placeholders with different brace-free names never overlap. */
  lemma PlaceholdersDisjoint(s: string, a: string, i: nat, b: string, j: nat)
    requires BraceFree(a) && BraceFree(b) && a != b
    requires OccursAt(s, Placeholder(a), i) && OccursAt(s, Placeholder(b), j)
    ensures j + |b| + 2 <= i || i + |a| + 2 <= j
  {
    PlaceholderShape(s, a, i);
    PlaceholderShape(s, b, j);
    SamePlaceSameName(s, a, i, b, j);
  }

  /** With no parameters, `t(key)` is the dictionary text unchanged. */
  lemma NoParamsUnchanged(text: string)
    ensures Substitute(text, []) == text
  {
  }

  /** A parameter replaces only the first occurrence of its placeholder: a
      second occurrence is still there afterwards. */
  lemma {:induction false} OnlyFirstOccurrenceReplaced(text: string, name: string, value: Param, i: nat, j: nat)
    requires IndexOf(text, Placeholder(name)) == Some(i)
    requires OccursAt(text, Placeholder(name), j) && i + |name| + 2 <= j
    ensures Includes(Substitute(text, [(name, value)]), Placeholder(name))
  {
    var ps := [(name, value)];
    assert ps[..0] == [];
    assert Substitute(text, ps) == ReplaceFirst(text, Placeholder(name), Render(value));
    ReplaceFirstKeepsDisjoint(text, Placeholder(name), Render(value), i, Placeholder(name), j);
  }

  /** A placeholder whose name is none of the parameters' survives the whole
      substitution. */
  lemma {:induction false} UnmatchedPlaceholderSurvives(text: string, params: seq<(string, Param)>, name: string)
    requires Includes(text, Placeholder(name)) && BraceFree(name)
    requires forall k :: 0 <= k < |params| ==> params[k].0 != name && BraceFree(params[k].0)
    ensures Includes(Substitute(text, params), Placeholder(name))
    decreases |params|
  {
    if params != [] {
      var init := params[..|params| - 1];
      var last := params[|params| - 1];
      UnmatchedPlaceholderSurvives(text, init, name);
      var s := Substitute(text, init);
      var j: nat :| j <= |s| && OccursAt(s, Placeholder(name), j);
      match IndexOf(s, Placeholder(last.0))
      case None =>
      case Some(i) =>
        PlaceholdersDisjoint(s, last.0, i, name, j);
        ReplaceFirstKeepsDisjoint(s, Placeholder(last.0), Render(last.1), i, Placeholder(name), j);
    }
  }

  /** `e.key === 'preferred-language' && e.newValue`: an empty new value is
      falsy too. */
  predicate StorageRefresh(key: Option<string>, newValue: Option<string>) {
    key == Some("preferred-language") && newValue.Some? && newValue.value != ""
  }

  /** The hook's state. `listening` says whether the effect's `storage` and
      `languageChanged` listeners are attached. */
  class I18n {
    const translate: (string, string) -> string
    var i18nLanguage: string
    var currentLanguage: string
    var version: nat
    var listening: bool
    var log: seq<Ui.Effect>

    /** Mounting: the state is initialised from the shared instance and
        the effect attaches its listeners. */
    constructor(translate: (string, string) -> string, i18nLanguage: string)
      ensures this.translate == translate && this.i18nLanguage == i18nLanguage
      ensures currentLanguage == i18nLanguage && version == 0 && listening && log == []
    {
      this.translate := translate;
      this.i18nLanguage := i18nLanguage;
      currentLanguage := i18nLanguage;
      version := 0;
      listening := true;
      log := [];
    }

    /** `t(key, params)` */
    method T(key: string, params: Option<seq<(string, Param)>>) returns (text: string)
      ensures params.None? ==> text == translate(key, currentLanguage)
      ensures params.Some? ==> text == Substitute(translate(key, currentLanguage), params.value)
    {
      text := translate(key, currentLanguage);
      if params.Some? {
        var ps := params.value;
        var i := 0;
        while i < |ps|
          invariant 0 <= i <= |ps|
          invariant text == Substitute(translate(key, currentLanguage), ps[..i])
        {
          assert ps[..i + 1][..i] == ps[..i];
          text := ReplaceFirst(text, Placeholder(ps[i].0), Render(ps[i].1));
          i := i + 1;
        }
        assert ps[..|ps|] == ps;
      }
    }

    /** `handleLanguageChange`: re-read the shared instance's language. */
    method HandleLanguageChange()
      modifies this
      ensures currentLanguage == i18nLanguage == old(i18nLanguage)
      ensures version == old(version) + 1
      ensures listening == old(listening) && log == old(log)
    {
      currentLanguage := i18nLanguage;
      version := version + 1;
    }

    /** `handleStorageChange(e)` for a `storage` event with `e.key` and
        `e.newValue`. */
    method HandleStorageChange(key: Option<string>, newValue: Option<string>)
      requires listening
      modifies this
      ensures StorageRefresh(key, newValue) ==> currentLanguage == i18nLanguage && version == old(version) + 1
      ensures !StorageRefresh(key, newValue) ==> currentLanguage == old(currentLanguage) && version == old(version)
      ensures i18nLanguage == old(i18nLanguage) && listening == old(listening) && log == old(log)
    {
      if key == Some("preferred-language") && newValue.Some? && newValue.value != "" {
        HandleLanguageChange();
      }
    }

    /** `changeLanguage(lang)`: the language is set and `version` goes up by
        one; the `languageChanged` event it then dispatches is delivered
        synchronously to this hook's own listener while it is attached,
        which adds one more. */
    method ChangeLanguage(lang: string)
      modifies this
      ensures i18nLanguage == lang && currentLanguage == lang
      ensures version == old(version) + (if old(listening) then 2 else 1)
      ensures listening == old(listening)
      ensures log == old(log) + [Ui.LanguageChangedEvent]
    {
      i18nLanguage := lang;
      currentLanguage := lang;
      version := version + 1;
      log := log + [Ui.LanguageChangedEvent];
      if listening {
        HandleLanguageChange();
      }
    }

    /** The effect's cleanup removes both listeners. */
    method Unmount()
      modifies this
      ensures !listening
      ensures i18nLanguage == old(i18nLanguage) && currentLanguage == old(currentLanguage)
      ensures version == old(version) && log == old(log)
    {
      listening := false;
    }
  }
}

=== FILE: image_captcha.dfy ===
/** The `ImageCaptcha` widget: three fixed sets of nine pictures, a
    selection of at most three pictures, a verdict that every selected
    picture is a target, cyclic and random switching between sets, and the
    counters of picture load and load-error events that end the loading
    phase. The widget state is the datatype `Widget`, changed by `Step`;
    the class `ImageCaptchaWidget` holds the same fields and its handlers are
    proved to perform `Step`. The random set choice is a drawn number
    `draw`, used modulo the number of sets. */
module ImageCaptcha {
  import opened Options
  import opened JsString
  import Ui

  datatype Image = Image(url: string, isTarget: bool)
  datatype CaptchaSet = CaptchaSet(category: string, target: string, images: seq<Image>)

  function Pic(seed: string, isTarget: bool): Image {
    Image("https://picsum.photos/seed/" + seed + "/200/200", isTarget)
  }

  const Animals := CaptchaSet("动物", "猫", [
    Pic("cat1", true), Pic("dog", false), Pic("bird", false),
    Pic("kitten", true), Pic("rabbit", false), Pic("persian", true),
    Pic("fish", false), Pic("hamster", false), Pic("siamese", true)])

  const Vehicles := CaptchaSet("交通工具", "汽车", [
    Pic("car1", true), Pic("bicycle", false), Pic("plane", false),
    Pic("sedan", true), Pic("ship", false), Pic("sports", true),
    Pic("train", false), Pic("motorcycle", false), Pic("suv", true)])

  const Foods := CaptchaSet("食物", "水果", [
    Pic("apple", true), Pic("bread", false), Pic("banana", true),
    Pic("meat", false), Pic("orange", true), Pic("pasta", false),
    Pic("grape", true), Pic("vegetable", false), Pic("strawberry", true)])

  /** `captchaSets`, in their order. */
  const Sets: seq<CaptchaSet> := [Animals, Vehicles, Foods]

  /** The most pictures a selection may hold, and the number a verification
      needs. */
  const MaxSelected: nat := 3
  const ImagesPerSet: nat := 9

  const VerifiedText := "验证成功！"
  const FailedPrefix := "验证失败，请选择所有"
  const SmsText := "已切换到短信验证方式"

  // ---------------------------------------------------------------------
  // Targets

  function CountTargets(images: seq<Image>): (r: nat)
    ensures r <= |images|
  {
    if images == [] then 0
    else CountTargets(images[..|images| - 1]) + (if images[|images| - 1].isTarget then 1 else 0)
  }

  /** `targetCount`: how many pictures of the set are targets. */
  function TargetCount(s: CaptchaSet): nat {
    CountTargets(s.images)
  }

  predicate NoDup(s: seq<nat>) {
    forall i, j :: 0 <= i < j < |s| ==> s[i] != s[j]
  }

  /** `selectedImages.every(index => captchaSet.images[index].isTarget)` */
  predicate AllTargets(s: CaptchaSet, selected: seq<nat>) {
    forall k :: 0 <= k < |selected| ==> selected[k] < |s.images| && s.images[selected[k]].isTarget
  }

  lemma CountOneMore(images: seq<Image>, m: nat)
    requires m < |images|
    ensures CountTargets(images[..m + 1]) == CountTargets(images[..m]) + (if images[m].isTarget then 1 else 0)
  {
    assert images[..m + 1][..m] == images[..m];
  }

  /** The positions of the targets among the first `n` pictures. */
  function TargetPositions(images: seq<Image>, n: nat): set<nat>
    requires n <= |images|
  {
    set m | 0 <= m < n && images[m].isTarget
  }

  lemma TargetPositionsStep(images: seq<Image>, n: nat)
    requires 0 < n <= |images|
    ensures |TargetPositions(images, n)| ==
            |TargetPositions(images, n - 1)| + (if images[n - 1].isTarget then 1 else 0)
  {
    var before := TargetPositions(images, n - 1);
    var after := TargetPositions(images, n);
    assert n - 1 !in before;
    if images[n - 1].isTarget {
      forall m | m in after ensures m in before + {n - 1} {
      }
      forall m | m in before + {n - 1} ensures m in after {
      }
      assert after == before + {n - 1};
    } else {
      forall m | m in after ensures m in before {
      }
      assert after == before;
    }
  }

  /** `targetCount` is the number of targets among the first `n` pictures
      when `n` is all of them. */
  lemma {:induction false} CountByPrefixes(images: seq<Image>, n: nat)
    requires n <= |images|
    ensures CountTargets(images[..n]) == |set m | 0 <= m < n && images[m].isTarget|
  {
    if n > 0 {
      CountByPrefixes(images, n - 1);
      CountOneMore(images, n - 1);
      TargetPositionsStep(images, n);
      assert TargetPositions(images, n - 1) == set m | 0 <= m < n - 1 && images[m].isTarget;
    }
  }

  function Indicator(img: Image): nat {
    if img.isTarget then 1 else 0
  }

  lemma CountOfNine(imgs: seq<Image>)
    requires |imgs| == ImagesPerSet
    ensures CountTargets(imgs) ==
            Indicator(imgs[0]) + Indicator(imgs[1]) + Indicator(imgs[2]) + Indicator(imgs[3]) + Indicator(imgs[4]) +
            Indicator(imgs[5]) + Indicator(imgs[6]) + Indicator(imgs[7]) + Indicator(imgs[8])
  {
    var c := seq(10, m requires 0 <= m <= 9 => CountTargets(imgs[..m]));
    assert c[0] == 0 by { assert imgs[..0] == []; }
    forall m | 0 <= m < 9
      ensures c[m + 1] == c[m] + Indicator(imgs[m])
    {
      CountOneMore(imgs, m);
    }
    assert c[9] == c[8] + Indicator(imgs[8]) && c[8] == c[7] + Indicator(imgs[7]) &&
           c[7] == c[6] + Indicator(imgs[6]) && c[6] == c[5] + Indicator(imgs[5]) &&
           c[5] == c[4] + Indicator(imgs[4]) && c[4] == c[3] + Indicator(imgs[3]) &&
           c[3] == c[2] + Indicator(imgs[2]) && c[2] == c[1] + Indicator(imgs[1]) &&
           c[1] == c[0] + Indicator(imgs[0]);
    assert imgs[..9] == imgs;
  }

  /** The counts of the three sets, as the header's "(共N个)" shows them. */
  lemma TargetCounts()
    ensures TargetCount(Sets[0]) == 4 && TargetCount(Sets[1]) == 4 && TargetCount(Sets[2]) == 5
  {
    CountOfNine(Sets[0].images);
    CountOfNine(Sets[1].images);
    CountOfNine(Sets[2].images);
  }

  /** A passing selection of set `k`: three of its targets. */
  function PassingSelection(k: nat): seq<nat> {
    if k == 2 then [0, 2, 4] else [0, 3, 5]
  }

  lemma PassingSelectionPasses(k: nat)
    requires k < |Sets|
    ensures |Sets[k].images| == ImagesPerSet && AllTargets(Sets[k], PassingSelection(k))
  {
    if k == 0 {
      assert Sets[0] == Animals;
      assert Animals.images[0].isTarget && Animals.images[3].isTarget && Animals.images[5].isTarget;
    } else if k == 1 {
      assert Sets[1] == Vehicles;
      assert Vehicles.images[0].isTarget && Vehicles.images[3].isTarget && Vehicles.images[5].isTarget;
    } else {
      assert Sets[2] == Foods;
      assert Foods.images[0].isTarget && Foods.images[2].isTarget && Foods.images[4].isTarget;
    }
  }

  /** Every set has nine pictures and more targets than a selection holds,
      and for each set some full selection passes. */
  lemma EverySetCanBePassed(k: nat)
    requires k < |Sets|
    ensures |Sets[k].images| == ImagesPerSet && TargetCount(Sets[k]) >= MaxSelected
    ensures exists sel: seq<nat> :: |sel| == MaxSelected && NoDup(sel) && AllTargets(Sets[k], sel)
  {
    TargetCounts();
    PassingSelectionPasses(k);
    var sel := PassingSelection(k);
    assert |sel| == MaxSelected && NoDup(sel) && AllTargets(Sets[k], sel);
  }

  // ---------------------------------------------------------------------
  // Selection

  /** `prev.filter(i => i !== index)` */
  function Without(s: seq<nat>, x: nat): (r: seq<nat>)
    ensures |r| <= |s|
    ensures forall y :: y in r <==> y in s && y != x
    ensures x !in s ==> r == s
  {
    if s == [] then []
    else if s[0] == x then Without(s[1..], x)
    else [s[0]] + Without(s[1..], x)
  }

  lemma {:induction false} WithoutKeepsNoDup(s: seq<nat>, x: nat)
    ensures NoDup(s) ==> NoDup(Without(s, x))
  {
    if s != [] && NoDup(s) {
      assert NoDup(s[1..]);
      WithoutKeepsNoDup(s[1..], x);
      assert s[0] !in s[1..];
    }
  }

  /** The updater in `handleImageSelect(index)`: a chosen picture is
      removed, a new one is added while fewer than three are chosen. */
  function Toggle(selected: seq<nat>, index: nat): (r: seq<nat>)
    ensures index in selected ==> index !in r && forall y :: y != index ==> (y in r <==> y in selected)
    ensures index !in selected && |selected| < MaxSelected ==> r == selected + [index]
    ensures index !in selected && |selected| >= MaxSelected ==> r == selected
    ensures forall y :: y in r ==> y in selected || y == index
    ensures NoDup(selected) ==> NoDup(r)
    ensures |selected| <= MaxSelected ==> |r| <= MaxSelected
  {
    if index in selected then
      WithoutKeepsNoDup(selected, index);
      Without(selected, index)
    else if |selected| < MaxSelected then selected + [index]
    else selected
  }

  lemma {:induction false} WithoutOfAppended(s: seq<nat>, x: nat)
    requires x !in s
    ensures Without(s + [x], x) == s
  {
    if s == [] {
      assert [] + [x] == [x];
    } else {
      assert (s + [x])[1..] == s[1..] + [x];
      WithoutOfAppended(s[1..], x);
    }
  }

  /** Selecting a new picture and then selecting it again restores the
      selection. */
  lemma ToggleTwice(selected: seq<nat>, index: nat)
    requires index !in selected && |selected| < MaxSelected
    ensures Toggle(Toggle(selected, index), index) == selected
  {
    WithoutOfAppended(selected, index);
  }

  // ---------------------------------------------------------------------
  // The widget

  datatype Widget = Widget(
    setIndex: nat,
    isLoading: bool,
    selected: seq<nat>,
    isVerified: Option<bool>,
    loadCount: nat,
    loadErrors: nat,
    showAlternative: bool,
    retryPending: bool,
    log: seq<Ui.Effect>)

  ghost predicate Valid(w: Widget) {
    w.setIndex < |Sets| && NoDup(w.selected) && |w.selected| <= MaxSelected &&
    forall x :: x in w.selected ==> x < ImagesPerSet
  }

  /** `canVerify` */
  predicate CanVerify(w: Widget) {
    |w.selected| == MaxSelected && !w.isLoading && w.isVerified.None?
  }

  /** What `generateNewCaptcha` and `nextCaptcha` share: loading again,
      no verdict, no selection, zeroed counters, and the set `index`. */
  function Reset(w: Widget, index: nat): Widget {
    w.(isLoading := true, isVerified := None, selected := [], loadCount := 0, loadErrors := 0, setIndex := index)
  }

  /** Once every picture reported a load or an error, loading ends; errors
      give a toast, and then two or more switch to the alternative
      verification while one schedules a new set. */
  function Settle(w: Widget): Widget {
    if w.loadCount + w.loadErrors < ImagesPerSet then w
    else
      var w1 := w.(isLoading := false);
      if w.loadErrors == 0 then w1
      else
        var w2 := w1.(log := w1.log + [Ui.Toast(Ui.Error, Ui.Literal("图片加载失败: " + IntToString(w.loadErrors) + " 张图片无法显示"))]);
        if w.loadErrors >= 2 then w2.(showAlternative := true) else w2.(retryPending := true)
  }

  datatype Event =
    | Select(index: nat)
    | Verify
    | Next
    | Generate(draw: nat)
    | ImageLoad
    | ImageError
    | Retry(draw: nat)
    | UseAlternative

  /** The handlers as written. */
  function Step(w: Widget, e: Event): Widget
    requires w.setIndex < |Sets|
  {
    match e
    case Select(i) =>
      if w.isLoading || w.isVerified == Some(true) then w else w.(selected := Toggle(w.selected, i))
    case Verify =>
      if w.isLoading || |w.selected| != MaxSelected then w
      else
        var s := Sets[w.setIndex];
        var ok := AllTargets(s, w.selected);
        w.(isVerified := Some(ok),
           log := w.log + [Ui.VerifyCallback(ok),
                           if ok then Ui.Toast(Ui.Success, Ui.Literal(VerifiedText))
                           else Ui.Toast(Ui.Error, Ui.Literal(FailedPrefix + s.target))])
    case Next => Reset(w, (w.setIndex + 1) % |Sets|)
    case Generate(r) => Reset(w, r % |Sets|)
    case ImageLoad => Settle(w.(loadCount := w.loadCount + 1))
    case ImageError => w.(loadErrors := w.loadErrors + 1)
    case Retry(r) => Reset(w, r % |Sets|).(retryPending := false)
    case UseAlternative =>
      w.(showAlternative := false, loadErrors := 0, log := w.log + [Ui.Toast(Ui.Info, Ui.Literal(SmsText))])
  }

  /** The state after mounting: the effect has called `generateNewCaptcha`. */
  function Mounted(draw: nat): (w: Widget)
    ensures Valid(w) && w.isLoading
    ensures w.setIndex == draw % |Sets| && w.loadCount == 0 && w.loadErrors == 0
  {
    Reset(Widget(0, true, [], None, 0, 0, false, false, []), draw % |Sets|)
  }

  lemma StepKeepsValid(w: Widget, e: Event)
    requires Valid(w)
    requires e.Select? ==> e.index < ImagesPerSet
    ensures Valid(Step(w, e))
  {
  }

  /** After a successful verification, clicks on pictures change nothing. */
  lemma VerifiedFreezesSelection(w: Widget, i: nat)
    requires Valid(w) && w.isVerified == Some(true)
    ensures Step(w, Select(i)) == w
  {
  }

  /** A verification yields true exactly when every selected picture is a
      target, and needs exactly three selected and loading finished. */
  lemma VerifyVerdict(w: Widget)
    requires Valid(w)
    ensures var w' := Step(w, Verify);
            (w.isLoading || |w.selected| != MaxSelected ==> w' == w) &&
            (!w.isLoading && |w.selected| == MaxSelected ==>
               w'.isVerified == Some(AllTargets(Sets[w.setIndex], w.selected)) &&
               w'.log[|w'.log| - 2] == Ui.VerifyCallback(AllTargets(Sets[w.setIndex], w.selected)))
  {
  }

  /** After a failed verification the verify button stays disabled until a
      set change resets the verdict: no other event clears it. */
  lemma FailedVerdictSticks(w: Widget, e: Event)
    requires Valid(w) && w.isVerified == Some(false)
    requires EnabledAsWritten(w, e) && !e.Next? && !e.Generate? && !e.Retry?
    ensures !CanVerify(w)
    ensures Step(w, e).isVerified == Some(false)
  {
  }

  /** `nextCaptcha` cycles through the sets; three steps return to the
      start, and the reset clears selection, verdict and counters. */
  lemma NextCycles(w: Widget)
    requires Valid(w)
    ensures var w1 := Step(w, Next);
            w1.setIndex == (w.setIndex + 1) % |Sets| && w1.selected == [] && w1.isVerified.None? &&
            w1.loadCount == 0 && w1.loadErrors == 0 && w1.isLoading
    ensures Step(Step(Step(w, Next), Next), Next).setIndex == w.setIndex
  {
  }

  // ---------------------------------------------------------------------
  // Which events can happen

  /** The pictures and the buttons are rendered only when not loading, and
      a picture reports once per set. */
  predicate EnabledAsWritten(w: Widget, e: Event) {
    match e
    case Select(i) => !w.isLoading && i < ImagesPerSet
    case Verify => !w.isLoading && CanVerify(w)
    case Next => !w.isLoading
    case Generate(_) => !w.isLoading
    case ImageLoad => !w.isLoading && w.loadCount + w.loadErrors < ImagesPerSet
    case ImageError => !w.isLoading && w.loadCount + w.loadErrors < ImagesPerSet
    case Retry(_) => w.retryPending
    case UseAlternative => w.showAlternative
  }

  function Run(w: Widget, es: seq<Event>): Widget
    requires Valid(w)
    requires forall k :: 0 <= k < |es| ==> es[k].Select? ==> es[k].index < ImagesPerSet
    decreases |es|
  {
    if es == [] then w
    else
      StepKeepsValid(w, es[0]);
      Run(Step(w, es[0]), es[1..])
  }

  predicate RunsAsWritten(w: Widget, es: seq<Event>)
    requires Valid(w)
    requires forall k :: 0 <= k < |es| ==> es[k].Select? ==> es[k].index < ImagesPerSet
    decreases |es|
  {
    es == [] ||
    (StepKeepsValid(w, es[0]);
     EnabledAsWritten(w, es[0]) && RunsAsWritten(Step(w, es[0]), es[1..]))
  }

  /** As written, loading never ends: only a picture's load event ends it,
      but no picture is rendered while loading, and every event that can
      happen while loading leaves it loading. */
  lemma {:induction false} LoadingNeverEnds(w: Widget, es: seq<Event>)
    requires Valid(w) && w.isLoading
    requires forall k :: 0 <= k < |es| ==> es[k].Select? ==> es[k].index < ImagesPerSet
    requires RunsAsWritten(w, es)
    ensures Run(w, es).isLoading
    decreases |es|
  {
    if es != [] {
      StepKeepsValid(w, es[0]);
      LoadingNeverEnds(Step(w, es[0]), es[1..]);
    }
  }

  /** The widget right after mounting stays on its spinner whatever the
      user does. */
  lemma MountedWidgetNeverLoads(draw: nat, es: seq<Event>)
    requires forall k :: 0 <= k < |es| ==> es[k].Select? ==> es[k].index < ImagesPerSet
    requires RunsAsWritten(Mounted(draw), es)
    ensures Run(Mounted(draw), es).isLoading
  {
    var w := Mounted(draw);
    assert Valid(w) && w.isLoading;
    LoadingNeverEnds(w, es);
  }

  // ---------------------------------------------------------------------
  // The evidently intended behaviour

  /** The pictures are rendered (hidden) while loading, so they report,
      and an error counts towards the end of loading just as a load does:
      "all pictures tried, whether they loaded or failed". */
  function StepCorrected(w: Widget, e: Event): Widget
    requires w.setIndex < |Sets|
  {
    match e
    case ImageError => Settle(w.(loadErrors := w.loadErrors + 1))
    case _ => Step(w, e)
  }

  predicate IsImageEvent(e: Event) {
    e.ImageLoad? || e.ImageError?
  }

  function RunCorrected(w: Widget, es: seq<Event>): Widget
    requires w.setIndex < |Sets|
    decreases |es|
  {
    if es == [] then w else RunCorrected(StepCorrected(w, es[0]), es[1..])
  }

  lemma {:induction false} ImageEventsCount(w: Widget, es: seq<Event>)
    requires w.setIndex < |Sets|
    requires forall k :: 0 <= k < |es| ==> IsImageEvent(es[k])
    requires w.loadCount + w.loadErrors + |es| <= ImagesPerSet
    ensures RunCorrected(w, es).loadCount + RunCorrected(w, es).loadErrors == w.loadCount + w.loadErrors + |es|
    ensures RunCorrected(w, es).setIndex == w.setIndex
    ensures w.isLoading && w.loadCount + w.loadErrors + |es| < ImagesPerSet ==> RunCorrected(w, es).isLoading
    ensures |es| > 0 && w.loadCount + w.loadErrors + |es| == ImagesPerSet ==> !RunCorrected(w, es).isLoading
    decreases |es|
  {
    if es != [] {
      var w' := StepCorrected(w, es[0]);
      ImageEventStep(w, es[0]);
      ImageEventsCount(w', es[1..]);
      assert RunCorrected(w, es) == RunCorrected(w', es[1..]);
    }
  }

  /** One load or error report adds one to the counters and ends loading
      exactly when it is the ninth. */
  lemma ImageEventStep(w: Widget, e: Event)
    requires w.setIndex < |Sets| && IsImageEvent(e)
    ensures var w' := StepCorrected(w, e);
            w'.loadCount + w'.loadErrors == w.loadCount + w.loadErrors + 1 &&
            w'.setIndex == w.setIndex &&
            w'.isLoading == (w.isLoading && w.loadCount + w.loadErrors + 1 < ImagesPerSet)
  {
  }

  /** With the correction, nine reports of a fresh set, loads and errors in
      any mix and order, end loading. */
  lemma CorrectedLoadingEnds(draw: nat, es: seq<Event>)
    requires |es| == ImagesPerSet
    requires forall k :: 0 <= k < |es| ==> IsImageEvent(es[k])
    ensures !RunCorrected(Mounted(draw), es).isLoading
  {
    var w := Mounted(draw);
    assert w.setIndex < |Sets| && w.loadCount + w.loadErrors + |es| == ImagesPerSet;
    ImageEventsCount(w, es);
  }

  // ---------------------------------------------------------------------
  // The component instance

  class ImageCaptchaWidget {
    var currentSetIndex: nat
    var isLoading: bool
    var selectedImages: seq<nat>
    var isVerified: Option<bool>
    var imageLoadCount: nat
    var imageLoadErrors: nat
    var showAlternativeVerification: bool
    var retryPending: bool
    var log: seq<Ui.Effect>

    function State(): Widget
      reads this
    {
      Widget(currentSetIndex, isLoading, selectedImages, isVerified, imageLoadCount, imageLoadErrors,
             showAlternativeVerification, retryPending, log)
    }

    constructor(draw: nat)
      ensures State() == Mounted(draw) && Valid(State())
    {
      currentSetIndex := draw % |Sets|;
      isLoading := true;
      selectedImages := [];
      isVerified := None;
      imageLoadCount := 0;
      imageLoadErrors := 0;
      showAlternativeVerification := false;
      retryPending := false;
      log := [];
    }

    method ResetTo(index: nat)
      modifies this
      ensures State() == Reset(old(State()), index)
    {
      isLoading := true;
      isVerified := None;
      selectedImages := [];
      imageLoadCount := 0;
      imageLoadErrors := 0;
      currentSetIndex := index;
    }

    /** `generateNewCaptcha()` */
    method GenerateNewCaptcha(draw: nat)
      requires Valid(State())
      modifies this
      ensures Valid(State()) && State() == Step(old(State()), Generate(draw))
    {
      ResetTo(draw % |Sets|);
    }

    /** `nextCaptcha()` */
    method NextCaptcha()
      requires Valid(State())
      modifies this
      ensures Valid(State()) && State() == Step(old(State()), Next)
    {
      ResetTo((currentSetIndex + 1) % |Sets|);
    }

    /** `handleImageSelect(index)` */
    method HandleImageSelect(index: nat)
      requires Valid(State()) && index < ImagesPerSet
      modifies this
      ensures Valid(State()) && State() == Step(old(State()), Select(index))
    {
      if isLoading || isVerified == Some(true) {
        return;
      }
      selectedImages := Toggle(selectedImages, index);
    }

    /** `handleVerify()` */
    method HandleVerify()
      requires Valid(State())
      modifies this
      ensures Valid(State()) && State() == Step(old(State()), Verify)
    {
      if isLoading || |selectedImages| != MaxSelected {
        return;
      }
      var s := Sets[currentSetIndex];
      var ok := AllTargets(s, selectedImages);
      isVerified := Some(ok);
      log := log + [Ui.VerifyCallback(ok)];
      if ok {
        log := log + [Ui.Toast(Ui.Success, Ui.Literal(VerifiedText))];
      } else {
        log := log + [Ui.Toast(Ui.Error, Ui.Literal(FailedPrefix + s.target))];
      }
    }

    /** `handleImageLoad()` */
    method HandleImageLoad()
      requires Valid(State())
      modifies this
      ensures Valid(State()) && State() == Step(old(State()), ImageLoad)
    {
      var newCount := imageLoadCount + 1;
      if newCount + imageLoadErrors >= ImagesPerSet {
        isLoading := false;
        if imageLoadErrors > 0 {
          log := log + [Ui.Toast(Ui.Error, Ui.Literal("图片加载失败: " + IntToString(imageLoadErrors) + " 张图片无法显示"))];
          if imageLoadErrors >= 2 {
            showAlternativeVerification := true;
          } else {
            retryPending := true;
          }
        }
      }
      imageLoadCount := newCount;
    }

    /** A picture's `onError` */
    method HandleImageError()
      requires Valid(State())
      modifies this
      ensures Valid(State()) && State() == Step(old(State()), ImageError)
    {
      imageLoadErrors := imageLoadErrors + 1;
    }

    /** The retry timer scheduled after a single load error fires. */
    method CompleteRetry(draw: nat)
      requires Valid(State())
      modifies this
      ensures Valid(State()) && State() == Step(old(State()), Retry(draw))
    {
      ResetTo(draw % |Sets|);
      retryPending := false;
    }

    /** The button of the alternative verification. */
    method UseSmsVerification()
      requires Valid(State())
      modifies this
      ensures Valid(State()) && State() == Step(old(State()), UseAlternative)
    {
      log := log + [Ui.Toast(Ui.Info, Ui.Literal(SmsText))];
      showAlternativeVerification := false;
      imageLoadErrors := 0;
    }
  }
}

=== FILE: js_string.dfy ===
/** JavaScript string primitives that the application code relies on, written
    out explicitly: the character classes its regular expressions use, prefix
    and substring tests, `trim`, `split`/`join`, `String.prototype.replace`
    with a string pattern, `String(n)`, `padStart`, `slice` and `parseInt`. */
module JsString {
  import opened Options

  // ---------------------------------------------------------------------
  // Character classes

  /** `\d` and `[0-9]` (JavaScript's `\d` is ASCII-only without the `u` flag). */
  predicate IsDigit(c: char) {
    '0' <= c <= '9'
  }

  /** `\s`, and the characters `String.prototype.trim` removes: the
      ECMAScript WhiteSpace and LineTerminator code points. */
  predicate IsWhitespace(c: char) {
    var n := c as int;
    n == 0x09 || n == 0x0A || n == 0x0B || n == 0x0C || n == 0x0D || n == 0x20 ||
    n == 0xA0 || n == 0x1680 || (0x2000 <= n <= 0x200A) || n == 0x2028 ||
    n == 0x2029 || n == 0x202F || n == 0x205F || n == 0x3000 || n == 0xFEFF
  }

  predicate IsLower(c: char) {
    'a' <= c <= 'z'
  }

  predicate IsUpper(c: char) {
    'A' <= c <= 'Z'
  }

  /** `[a-zA-Z]` */
  predicate IsAsciiLetter(c: char) {
    IsLower(c) || IsUpper(c)
  }

  predicate AllDigits(s: string) {
    forall i :: 0 <= i < |s| ==> IsDigit(s[i])
  }

  /** Some character of `s` satisfies `p` (an unanchored one-class regex test). */
  predicate HasChar(s: string, p: char -> bool) {
    exists i :: 0 <= i < |s| && p(s[i])
  }

  // ---------------------------------------------------------------------
  // Prefixes, suffixes, substrings

  predicate StartsWith(s: string, prefix: string) {
    |prefix| <= |s| && s[..|prefix|] == prefix
  }

  predicate EndsWith(s: string, suffix: string) {
    |suffix| <= |s| && s[|s| - |suffix|..] == suffix
  }

  predicate OccursAt(s: string, pat: string, i: nat) {
    i + |pat| <= |s| && s[i..i + |pat|] == pat
  }

  /** `s.includes(pat)` */
  predicate Includes(s: string, pat: string) {
    exists i: nat | i <= |s| :: OccursAt(s, pat, i)
  }

  /** The first position at or after `k` where `pat` occurs. */
  function IndexOfFrom(s: string, pat: string, k: nat): (r: Option<nat>)
    decreases |s| - k
    ensures r.Some? ==> k <= r.value && OccursAt(s, pat, r.value)
    ensures r.Some? ==> forall j: nat :: k <= j < r.value ==> !OccursAt(s, pat, j)
    ensures r.None? ==> forall j: nat :: k <= j ==> !OccursAt(s, pat, j)
  {
    if k + |pat| > |s| then None
    else if s[k..k + |pat|] == pat then Some(k)
    else IndexOfFrom(s, pat, k + 1)
  }

  /** `s.indexOf(pat)`, with `None` for -1. */
  function IndexOf(s: string, pat: string): (r: Option<nat>)
    ensures r.None? <==> !Includes(s, pat)
    ensures r.Some? ==> OccursAt(s, pat, r.value) &&
                        forall j: nat :: j < r.value ==> !OccursAt(s, pat, j)
  {
    IndexOfFrom(s, pat, 0)
  }

  /** `s.replace(pat, rep)` for a string `pat`: only the first occurrence is
      replaced. */
  function ReplaceFirst(s: string, pat: string, rep: string): string {
    match IndexOf(s, pat)
    case None => s
    case Some(i) => s[..i] + rep + s[i + |pat|..]
  }

  lemma ReplaceFirstAbsent(s: string, pat: string, rep: string)
    requires !Includes(s, pat)
    ensures ReplaceFirst(s, pat, rep) == s
  {
  }

  /** Replacing the first occurrence keeps everything before it and
      everything after it, so any other occurrence of a string that does not
      overlap the replaced one survives, shifted when it lies after it. */
  lemma {:induction false} ReplaceFirstKeepsDisjoint(s: string, pat: string, rep: string, i: nat, q: string, j: nat)
    requires IndexOf(s, pat) == Some(i)
    requires OccursAt(s, q, j)
    requires j + |q| <= i || i + |pat| <= j
    ensures j + |q| <= i ==> OccursAt(ReplaceFirst(s, pat, rep), q, j)
    ensures i + |pat| <= j ==> OccursAt(ReplaceFirst(s, pat, rep), q, j - |pat| + |rep|)
    ensures Includes(ReplaceFirst(s, pat, rep), q)
  {
    var r := ReplaceFirst(s, pat, rep);
    assert r == s[..i] + rep + s[i + |pat|..];
    assert |r| == |s| - |pat| + |rep|;
    assert forall m :: 0 <= m < |q| ==> s[j + m] == q[m] by {
      forall m | 0 <= m < |q| ensures s[j + m] == q[m] {
        assert s[j..j + |q|][m] == s[j + m];
      }
    }
    var k := if j + |q| <= i then j else j - |pat| + |rep|;
    forall m | 0 <= m < |q|
      ensures r[k + m] == q[m]
    {
      if j + |q| <= i {
        assert r[k + m] == s[j + m];
      } else {
        assert r[k + m] == s[i + |pat| + (k + m - i - |rep|)];
      }
    }
    assert r[k..k + |q|] == q;
    assert k <= |r| && OccursAt(r, q, k);
  }

  // ---------------------------------------------------------------------
  // Character filtering (`s.replace(/[^...]/g, '')`, `s.replace(/\s/g, '')`)

  function FilterChars(s: string, keep: char -> bool): (r: string)
    ensures |r| <= |s|
    ensures forall i :: 0 <= i < |r| ==> keep(r[i])
    ensures (forall i :: 0 <= i < |s| ==> keep(s[i])) ==> r == s
  {
    if s == [] then []
    else if keep(s[0]) then [s[0]] + FilterChars(s[1..], keep)
    else FilterChars(s[1..], keep)
  }

  /** `s.replace(/[^0-9]/g, '')` */
  function KeepDigits(s: string): (r: string)
    ensures AllDigits(r)
  {
    FilterChars(s, IsDigit)
  }

  predicate IsNotWhitespace(c: char) {
    !IsWhitespace(c)
  }

  /** `s.replace(/\s/g, '')` */
  function RemoveWhitespace(s: string): string {
    FilterChars(s, IsNotWhitespace)
  }

  // ---------------------------------------------------------------------
  // trim

  function TrimStart(s: string): (r: string)
    ensures |r| <= |s| && r == s[|s| - |r|..]
    ensures r == [] || !IsWhitespace(r[0])
    ensures forall i :: 0 <= i < |s| - |r| ==> IsWhitespace(s[i])
  {
    if s != [] && IsWhitespace(s[0]) then TrimStart(s[1..]) else s
  }

  function TrimEnd(s: string): (r: string)
    ensures |r| <= |s| && r == s[..|r|]
    ensures r == [] || !IsWhitespace(r[|r| - 1])
    ensures forall i :: |r| <= i < |s| ==> IsWhitespace(s[i])
  {
    if s != [] && IsWhitespace(s[|s| - 1]) then TrimEnd(s[..|s| - 1]) else s
  }

  /** `s.trim()` */
  function Trim(s: string): string {
    TrimEnd(TrimStart(s))
  }

  /** `trim` leaves a string of digits as it is. */
  lemma TrimOfDigits(s: string)
    requires AllDigits(s)
    ensures Trim(s) == s
  {
    assert TrimStart(s) == s;
  }

  lemma {:induction false} TrimStartOfBlank(s: string)
    requires forall i :: 0 <= i < |s| ==> IsWhitespace(s[i])
    ensures TrimStart(s) == []
  {
    if s != [] {
      TrimStartOfBlank(s[1..]);
    }
  }

  /** `!s.trim()`: the string is empty or whitespace only. */
  lemma {:induction false} TrimEmptyIffBlank(s: string)
    ensures Trim(s) == [] <==> forall i :: 0 <= i < |s| ==> IsWhitespace(s[i])
  {
    if forall i :: 0 <= i < |s| ==> IsWhitespace(s[i]) {
      TrimStartOfBlank(s);
    } else {
      var i :| 0 <= i < |s| && !IsWhitespace(s[i]);
      NonBlankSurvivesTrim(s, i);
    }
  }

  /** A character that is not whitespace survives `trim`. */
  lemma NonBlankSurvivesTrim(s: string, i: nat)
    requires i < |s| && !IsWhitespace(s[i])
    ensures Trim(s) != []
  {
    var t := TrimStart(s);
    var d := |s| - |t|;
    assert i >= d;
    assert t[i - d] == s[i] by { assert t == s[d..]; }
    NonBlankSurvivesTrimEnd(t, i - d);
  }

  /** A character that is not whitespace is kept by `trimEnd`, so what it
      returns is not empty. */
  lemma NonBlankSurvivesTrimEnd(t: string, j: nat)
    requires j < |t| && !IsWhitespace(t[j])
    ensures TrimEnd(t) != []
  {
  }

  /** `trim` leaves a string that neither starts nor ends with whitespace
      as it is. */
  lemma TrimOfUnpadded(s: string)
    requires s != [] && !IsWhitespace(s[0]) && !IsWhitespace(s[|s| - 1])
    ensures Trim(s) == s
  {
    assert TrimStart(s) == s;
    assert TrimEnd(s) == s;
  }

  // ---------------------------------------------------------------------
  // split / join on a one-character separator

  function IndexOfChar(s: string, c: char): (r: Option<nat>)
    ensures r.None? <==> c !in s
    ensures r.Some? ==> r.value < |s| && s[r.value] == c
    ensures r.Some? ==> forall j :: 0 <= j < r.value ==> s[j] != c
  {
    if s == [] then None
    else if s[0] == c then Some(0)
    else match IndexOfChar(s[1..], c)
      case None => None
      case Some(i) => Some(i + 1)
  }

  lemma IndexOfCharAt(s: string, c: char, k: nat)
    requires k < |s| && s[k] == c
    requires forall j :: 0 <= j < k ==> s[j] != c
    ensures IndexOfChar(s, c) == Some(k)
  {
  }

  /** `s.split(sep)` for a one-character separator: never empty, and no
      piece contains the separator. */
  function Split(s: string, sep: char): (r: seq<string>)
    ensures |r| >= 1
    ensures forall i :: 0 <= i < |r| ==> sep !in r[i]
    decreases |s|
  {
    match IndexOfChar(s, sep)
    case None => [s]
    case Some(i) => [s[..i]] + Split(s[i + 1..], sep)
  }

  /** `parts.join(sep)` */
  function Join(parts: seq<string>, sep: string): string {
    if |parts| == 0 then []
    else if |parts| == 1 then parts[0]
    else parts[0] + sep + Join(parts[1..], sep)
  }

  lemma {:induction false} JoinSplit(s: string, sep: char)
    ensures Join(Split(s, sep), [sep]) == s
    decreases |s|
  {
    match IndexOfChar(s, sep)
    case None =>
    case Some(i) =>
      var head, tail := s[..i], s[i + 1..];
      var rest := Split(tail, sep);
      JoinSplit(tail, sep);
      assert Split(s, sep) == [head] + rest;
      JoinCons(head, rest, [sep]);
      CutAround(s, i);
  }

  /** A string is what precedes position `i`, the character there and what
      follows. */
  lemma CutAround(s: string, i: nat)
    requires i < |s|
    ensures s == s[..i] + [s[i]] + s[i + 1..]
  {
  }

  lemma JoinCons(first: string, rest: seq<string>, sep: string)
    requires |rest| >= 1
    ensures Join([first] + rest, sep) == first + sep + Join(rest, sep)
  {
    assert ([first] + rest)[0] == first && ([first] + rest)[1..] == rest;
  }

  lemma {:induction false} SplitJoin(parts: seq<string>, sep: char)
    requires |parts| >= 1
    requires forall i :: 0 <= i < |parts| ==> sep !in parts[i]
    ensures Split(Join(parts, [sep]), sep) == parts
    decreases |parts|
  {
    if |parts| > 1 {
      var p := parts[0];
      var tail := Join(parts[1..], [sep]);
      var s := Join(parts, [sep]);
      assert s == p + [sep] + tail;
      assert s[|p|] == sep;
      assert forall j :: 0 <= j < |p| ==> s[j] == p[j];
      IndexOfCharAt(s, sep, |p|);
      assert s[..|p|] == p;
      assert s[|p| + 1..] == tail;
      SplitJoin(parts[1..], sep);
    } else {
      assert Join(parts, [sep]) == parts[0];
    }
  }

  // ---------------------------------------------------------------------
  // Decimal numerals

  function DigitChar(d: nat): (c: char)
    requires d < 10
    ensures IsDigit(c) && c as int - '0' as int == d
  {
    ('0' as int + d) as char
  }

  function DigitValue(c: char): nat
    requires IsDigit(c)
  {
    c as int - '0' as int
  }

  /** `String(n)` for a natural number. */
  function NatToString(n: nat): (r: string)
    ensures |r| >= 1 && AllDigits(r)
  {
    if n < 10 then [DigitChar(n)] else NatToString(n / 10) + [DigitChar(n % 10)]
  }

  /** `String(i)` for an integer. */
  function IntToString(i: int): string {
    if i < 0 then "-" + NatToString(-i) else NatToString(i)
  }

  /** The value of a string of decimal digits, most significant first. */
  function DigitsValue(s: string): nat
    requires AllDigits(s)
  {
    if s == [] then 0 else DigitsValue(s[..|s| - 1]) * 10 + DigitValue(s[|s| - 1])
  }

  lemma {:induction false} NatToStringValue(n: nat)
    ensures DigitsValue(NatToString(n)) == n
  {
    if n >= 10 {
      var s := NatToString(n);
      assert s[..|s| - 1] == NatToString(n / 10);
      NatToStringValue(n / 10);
    }
  }

  function Pow10(k: nat): (r: nat)
    ensures r >= 1
  {
    if k == 0 then 1 else 10 * Pow10(k - 1)
  }

  /** A number below 10^k has at most k digits. */
  lemma {:induction false} NatToStringLength(n: nat, k: nat)
    requires 1 <= k && n < Pow10(k)
    ensures |NatToString(n)| <= k
  {
    if n >= 10 {
      assert k >= 2;
      assert n / 10 < Pow10(k - 1);
      NatToStringLength(n / 10, k - 1);
    }
  }

  /** A number of at least 10^(k-1) has at least k digits. */
  lemma {:induction false} NatToStringLengthAtLeast(n: nat, k: nat)
    requires 1 <= k && Pow10(k - 1) <= n
    ensures |NatToString(n)| >= k
  {
    if k >= 2 {
      assert Pow10(k - 1) == 10 * Pow10(k - 2);
      assert n / 10 >= Pow10(k - 2);
      NatToStringLengthAtLeast(n / 10, k - 1);
    }
  }

  /** `s.padStart(len, c)` */
  function PadStart(s: string, len: nat, c: char): (r: string)
    ensures |s| <= len ==> |r| == len && r[len - |s|..] == s
    ensures forall i :: 0 <= i < |r| - |s| ==> r[i] == c
    ensures |s| >= len ==> r == s
  {
    if |s| >= len then s else seq(len - |s|, _ => c) + s
  }

  /** The longest prefix of `s` made of decimal digits. */
  function LeadingDigits(s: string): (r: string)
    ensures StartsWith(s, r) && AllDigits(r)
    ensures |r| < |s| ==> !IsDigit(s[|r|])
  {
    if s != [] && IsDigit(s[0]) then [s[0]] + LeadingDigits(s[1..]) else []
  }

  /** `parseInt(s)` read in base 10 (without a radix a "0x" prefix would
      be read as hexadecimal, which is not modelled): leading whitespace is skipped,
      an optional sign is read, then the longest run of digits; `None`
      stands for `NaN`, when there is no digit there. */
  function ParseInt(s: string): Option<int> {
    var t := TrimStart(s);
    var signed := |t| > 0 && (t[0] == '-' || t[0] == '+');
    var body := if signed then t[1..] else t;
    var d := LeadingDigits(body);
    if d == [] then None
    else if signed && t[0] == '-' then Some(-(DigitsValue(d) as int))
    else Some(DigitsValue(d))
  }

  lemma {:induction false} LeadingDigitsOfDigits(s: string)
    requires AllDigits(s)
    ensures LeadingDigits(s) == s
  {
    if s != [] {
      LeadingDigitsOfDigits(s[1..]);
    }
  }

  lemma {:induction false} LeadingDigitsStopsAtNonDigit(digits: string, rest: string)
    requires AllDigits(digits)
    requires rest == [] || !IsDigit(rest[0])
    ensures LeadingDigits(digits + rest) == digits
  {
    if digits != [] {
      assert (digits + rest)[0] == digits[0];
      assert (digits + rest)[1..] == digits[1..] + rest;
      LeadingDigitsStopsAtNonDigit(digits[1..], rest);
    } else {
      assert digits + rest == rest;
    }
  }

  /** parseInt reads back what String(n) writes, including a trailing part
      that does not start with a digit. */
  lemma ParseIntOfNatString(n: nat, rest: string)
    requires rest == [] || !IsDigit(rest[0])
    ensures ParseInt(NatToString(n) + rest) == Some(n)
  {
    var digits := NatToString(n);
    var s := digits + rest;
    assert s[0] == digits[0];
    assert IsDigit(s[0]);
    assert !IsWhitespace(s[0]);
    assert TrimStart(s) == s;
    assert s[0] != '-' && s[0] != '+';
    LeadingDigitsStopsAtNonDigit(digits, rest);
    assert LeadingDigits(s) == digits;
    NatToStringValue(n);
  }

  lemma {:induction false} ParseIntOfMinusDigits(d: string, n: nat)
    requires d != [] && AllDigits(d) && DigitsValue(d) == n
    ensures ParseInt("-" + d) == Some(-(n as int))
  {
    var s := "-" + d;
    assert s[0] == '-' && !IsWhitespace(s[0]);
    assert TrimStart(s) == s;
    assert s[1..] == d;
    LeadingDigitsOfDigits(d);
  }

  /** parseInt reads back what String(i) writes, for every integer. */
  lemma {:induction false} ParseIntOfIntString(i: int)
    ensures ParseInt(IntToString(i)) == Some(i)
  {
    if i < 0 {
      var d := NatToString(-i);
      assert IntToString(i) == "-" + d;
      NatToStringValue(-i);
      ParseIntOfMinusDigits(d, -i);
    } else {
      var d := NatToString(i);
      assert IntToString(i) == d;
      assert d + [] == d;
      ParseIntOfNatString(i, []);
      assert ParseInt(d) == Some(i);
    }
  }

  /** `parseInt` yields `NaN` exactly when no digit follows the skipped
      whitespace and the optional sign. */
  lemma ParseIntNaN(s: string)
    ensures var t := TrimStart(s);
            var body := if |t| > 0 && (t[0] == '-' || t[0] == '+') then t[1..] else t;
            ParseInt(s).None? <==> (body == [] || !IsDigit(body[0]))
  {
  }

  // ---------------------------------------------------------------------
  // slice

  /** Resolves a `slice` index: negative counts from the end, then clamps. */
  function SliceIndex(len: nat, x: int): (r: nat)
    ensures r <= len
  {
    if x < 0 then (if len + x < 0 then 0 else len + x) else if x > len then len else x
  }

  /** `s.slice(start, end)` */
  function Slice<T>(s: seq<T>, start: int, end: int): (r: seq<T>)
    ensures |r| <= |s|
    ensures 0 <= start <= end <= |s| ==> r == s[start..end]
  {
    var from := SliceIndex(|s|, start);
    var to := SliceIndex(|s|, end);
    if from < to then s[from..to] else []
  }
}

=== FILE: jwt.dfy ===
/** The JSON Web Token collaborator of the server, reduced to what the route
    handlers observe: the claims they sign, the outcome of `jwt.verify`, and
    the bearer-header convention used to carry a token. Signing and
    verification themselves are passed to the handlers as functions. */
module Jwt {
  import opened Options
  import opened JsString

  /** The payload signed at login: exactly the user's id and phone. */
  datatype Claims = Claims(id: int, phone: string)

  /** What `jwt.verify` does with a token: it returns the decoded claims, or
      throws an error. The handlers classify a thrown error only by two
      `instanceof` tests, recorded here as flags in the order they are made. */
  datatype VerifyOutcome =
    | Decoded(claims: Claims)
    | Thrown(isJsonWebTokenError: bool, isTokenExpiredError: bool)

  /** The option passed to `jwt.sign`: tokens expire after seven days. */
  const ExpiresIn: string := "7d"

  const BearerPrefix: string := "Bearer "

  /** `!h || !h.startsWith('Bearer ') ? reject : h.substring(7)`: the token
      carried by an Authorization header, if it has one. The prefix test is
      case-sensitive, and an empty header counts as missing. */
  function BearerToken(header: Option<string>): (r: Option<string>)
    ensures r.Some? <==> header.Some? && StartsWith(header.value, BearerPrefix)
    ensures r.Some? ==> header.value == BearerPrefix + r.value
  {
    if header.None? || header.value == "" || !StartsWith(header.value, BearerPrefix) then None
    else Some(header.value[7..])
  }

  /** Whatever follows the prefix is the token, including an empty one. */
  lemma BearerTokenOfHeader(token: string)
    ensures BearerToken(Some(BearerPrefix + token)) == Some(token)
  {
    var h := BearerPrefix + token;
    assert h[..|BearerPrefix|] == BearerPrefix;
    assert h[7..] == token;
  }

  /** In the jsonwebtoken library `TokenExpiredError` is a subclass of
      `JsonWebTokenError`; a verify outcome that respects this hierarchy. */
  predicate RespectsHierarchy(o: VerifyOutcome) {
    o.Thrown? && o.isTokenExpiredError ==> o.isJsonWebTokenError
  }
}

=== FILE: login_page.dfy ===
/** The `Login` page: the phone and password rules run through two
    debounced validators (500 ms), the submit guard chain, the simulated
    login that completes after a delay, and the captcha that appears after a
    failed attempt. The validators' states are `DebouncedValidation.Hook`
    values changed by `DebouncedValidation.Step`; the list the phone is
    looked up in is the module constant `testPhoneNumbers`, given as a
    parameter. */
module LoginPage {
  import opened Options
  import opened JsString
  import Ui
  import DV = DebouncedValidation
  import PhoneNumbers

  const Delay: nat := 500
  const TestPassword := "TestPassword123"

  /** `/^\+?[1-9]\d{7,15}$/` on the phone with all whitespace removed:
      an optional "+", a nonzero digit and 7 to 15 more digits. */
  predicate PhoneValid(value: string) {
    var cleaned := RemoveWhitespace(value);
    var body := if |cleaned| > 0 && cleaned[0] == '+' then cleaned[1..] else cleaned;
    8 <= |body| <= 16 && '1' <= body[0] <= '9' && AllDigits(body)
  }

  /** At least six characters, an ASCII letter and a digit. */
  predicate PasswordValid(value: string) {
    |value| >= 6 && HasChar(value, IsAsciiLetter) && HasChar(value, IsDigit)
  }

  /** The guard chain of `handleLoginSubmit`: the key of the toast of the
      first failing check, or `None` when the request may start. */
  function SubmitCheck(phone: string, phoneValid: bool, password: string, passwordValid: bool): (r: Option<string>)
    ensures r.None? <==> phone != "" && phoneValid && password != "" && passwordValid
    ensures phone == "" ==> r == Some("login.enterPhone")
    ensures phone != "" && !phoneValid ==> r == Some("login.enterValidPhone")
    ensures phone != "" && phoneValid && password == "" ==> r == Some("login.enterPassword")
    ensures phone != "" && phoneValid && password != "" && !passwordValid ==> r == Some("login.passwordMinLength")
  {
    if phone == "" then Some("login.enterPhone")
    else if !phoneValid then Some("login.enterValidPhone")
    else if password == "" then Some("login.enterPassword")
    else if !passwordValid then Some("login.passwordMinLength")
    else None
  }

  /** A value typed less than the delay ago is not judged yet: the stored
      result is still the initial, valid one, so the guards let even an
      invalid phone through. */
  lemma UnsettledValidationPasses(phone: string, password: string)
    requires phone != "" && password != ""
    ensures SubmitCheck(phone, DV.Initial().isValid, password, DV.Initial().isValid).None?
  {
  }

  // ---------------------------------------------------------------------
  // The phone lookup

  /** `testPhoneNumbers.includes(phone.replace(/[^0-9]/g, ''))` */
  predicate IsTestPhoneAsWritten(phone: string, tests: seq<string>) {
    KeepDigits(phone) in tests
  }

  /** Every generated number starts with "+", but the digit-only form of
      the typed phone never does, so the lookup as written fails for every
      phone. */
  lemma LookupAlwaysFails(phone: string, tests: seq<string>)
    requires forall i :: 0 <= i < |tests| ==> tests[i] != "" && tests[i][0] == '+'
    ensures !IsTestPhoneAsWritten(phone, tests)
  {
    var d := KeepDigits(phone);
    forall i | 0 <= i < |tests|
      ensures tests[i] != d
    {
      if |d| > 0 {
        assert IsDigit(d[0]);
      }
    }
  }

  lemma CountryCodesShape(c: string)
    requires c in PhoneNumbers.CountryCodes
    ensures 2 <= |c| <= 3 && c[0] == '+' && '1' <= c[1] <= '9' && AllDigits(c[1..])
  {
  }

  lemma DigitsAfterCode(p: string, c: string)
    requires 2 <= |c| <= |p| && c[0] == '+' && AllDigits(c[1..])
    requires StartsWith(p, c) && AllDigits(p[|c|..])
    ensures p[0] == '+' && p[1] == c[1] && AllDigits(p[1..])
  {
    assert p[..|c|] == c;
    forall k | 1 <= k < |p| ensures IsDigit(p[k]) {
      if k < |c| {
        assert p[k] == c[1..][k - 1];
      } else {
        assert p[k] == p[|c|..][k - |c|];
      }
    }
  }

  lemma PlusDigitsHaveNoBlank(p: string)
    requires |p| > 0 && p[0] == '+' && AllDigits(p[1..])
    ensures RemoveWhitespace(p) == p
  {
    forall k | 0 <= k < |p| ensures IsNotWhitespace(p[k]) {
      if k > 0 {
        assert p[k] == p[1..][k - 1];
      }
    }
  }

  /** Each generated number passes the page's own phone rule: it is
      rejected only by the lookup. */
  lemma TestPhonesPassValidation(p: string)
    requires PhoneNumbers.WellFormed(p)
    ensures PhoneValid(p)
  {
    var c :| c in PhoneNumbers.CountryCodes && StartsWith(p, c) && 8 <= |p| - |c| <= 12 && AllDigits(p[|c|..]);
    CountryCodesShape(c);
    DigitsAfterCode(p, c);
    PlusDigitsHaveNoBlank(p);
  }

  /** The evidently intended lookup: the typed phone and a listed number
      are compared by their digits alone. */
  predicate IsTestPhone(phone: string, tests: seq<string>) {
    exists i :: 0 <= i < |tests| && KeepDigits(tests[i]) == KeepDigits(phone)
  }

  lemma KeepDigitsIdempotent(s: string)
    ensures KeepDigits(KeepDigits(s)) == KeepDigits(s)
  {
  }

  /** With the correction, a listed number is recognised both as listed
      and typed without its "+". */
  lemma CorrectedLookupAcceptsListedNumbers(tests: seq<string>, i: nat)
    requires i < |tests|
    ensures IsTestPhone(tests[i], tests)
    ensures IsTestPhone(KeepDigits(tests[i]), tests)
  {
    KeepDigitsIdempotent(tests[i]);
  }

  /** The simulated request's verdict, as written and as intended. */
  predicate LoginAccepted(phone: string, password: string, tests: seq<string>) {
    IsTestPhoneAsWritten(phone, tests) && password == TestPassword
  }

  predicate LoginAcceptedCorrected(phone: string, password: string, tests: seq<string>) {
    IsTestPhone(phone, tests) && password == TestPassword
  }

  /** For a list of numbers written as the generator writes them, no login
      attempt succeeds as written, whatever is typed, while with the
      correction every listed number, with or without its "+", logs in with
      the test password. */
  lemma GeneratedListLocksEveryoneOut(tests: seq<string>, phone: string, password: string)
    requires forall i :: 0 <= i < |tests| ==> PhoneNumbers.WellFormed(tests[i]) && tests[i][0] == '+'
    ensures !LoginAccepted(phone, password, tests)
    ensures forall i :: 0 <= i < |tests| ==>
              LoginAcceptedCorrected(tests[i], TestPassword, tests) &&
              LoginAcceptedCorrected(KeepDigits(tests[i]), TestPassword, tests)
  {
    forall i | 0 <= i < |tests|
      ensures tests[i] != "" && tests[i][0] == '+'
    {
    }
    LookupAlwaysFails(phone, tests);
    forall i | 0 <= i < |tests|
      ensures LoginAcceptedCorrected(tests[i], TestPassword, tests)
      ensures LoginAcceptedCorrected(KeepDigits(tests[i]), TestPassword, tests)
    {
      CorrectedLookupAcceptsListedNumbers(tests, i);
    }
  }

  // ---------------------------------------------------------------------
  // The page

  /** The page's state as one value; `pending` holds the phone and
      password captured by each simulated request still waiting for its
      delay, oldest first. */
  datatype LoginState = LoginState(
    phone: string, password: string, isLoading: bool, showCaptcha: bool,
    captchaVerified: bool, selectedCountryCode: string,
    phoneCheck: DV.Hook, passwordCheck: DV.Hook,
    pending: seq<(string, string)>, authenticated: bool, log: seq<Ui.Effect>)

  class Login {
    var phone: string
    var password: string
    var isLoading: bool
    var showCaptcha: bool
    var captchaVerified: bool
    var selectedCountryCode: string
    var phoneCheck: DV.Hook
    var passwordCheck: DV.Hook
    /** The requests waiting for their delay. All wait equally long, so
        they complete in the order they started. */
    var pending: seq<(string, string)>
    var authenticated: bool
    var log: seq<Ui.Effect>

    function State(): LoginState
      reads this
    {
      LoginState(phone, password, isLoading, showCaptcha, captchaVerified, selectedCountryCode,
                 phoneCheck, passwordCheck, pending, authenticated, log)
    }

    constructor()
      ensures phone == "" && password == "" && !isLoading && !showCaptcha && !captchaVerified
      ensures selectedCountryCode == "+86" && pending == [] && !authenticated && log == []
      ensures phoneCheck == DV.Hook(None, DV.Initial(), true) && passwordCheck == DV.Hook(None, DV.Initial(), true)
    {
      phone := "";
      password := "";
      isLoading := false;
      showCaptcha := false;
      captchaVerified := false;
      selectedCountryCode := "+86";
      phoneCheck := DV.Hook(None, DV.Initial(), true);
      passwordCheck := DV.Hook(None, DV.Initial(), true);
      pending := [];
      authenticated := false;
      log := [];
    }

    /** `isFormValid()`, which together with `isLoading` disables the
        submit button. */
    predicate IsFormValid()
      reads this
    {
      phoneCheck.result.isValid && passwordCheck.result.isValid
    }

    /** `handlePhoneChange(e)`: an emptied field is not re-validated and
        keeps its previous verdict. */
    method HandlePhoneChange(value: string)
      modifies this
      ensures phone == value
      ensures value != "" ==> phoneCheck == DV.Step(PhoneValid, old(phoneCheck), DV.Call(value))
      ensures value == "" ==> phoneCheck == old(phoneCheck)
      ensures State() == old(State()).(phone := phone, phoneCheck := phoneCheck)
    {
      phone := value;
      if |value| > 0 {
        phoneCheck := phoneCheck.(pending := Some(value));
      }
    }

    /** The password field's `onChange` (and `handlePasswordChange`). */
    method HandlePasswordChange(value: string)
      modifies this
      ensures password == value
      ensures value != "" ==> passwordCheck == DV.Step(PasswordValid, old(passwordCheck), DV.Call(value))
      ensures value == "" ==> passwordCheck == old(passwordCheck)
      ensures State() == old(State()).(password := password, passwordCheck := passwordCheck)
    {
      password := value;
      if |value| > 0 {
        passwordCheck := passwordCheck.(pending := Some(value));
      }
    }

    /** The phone validator's delay elapsed. */
    method PhoneDelayElapsed()
      modifies this
      ensures State() == old(State()).(phoneCheck := DV.Step(PhoneValid, old(phoneCheck), DV.Elapse))
    {
      if phoneCheck.pending.Some? {
        var v := phoneCheck.pending.value;
        phoneCheck := phoneCheck.(pending := None,
                                  result := if phoneCheck.mounted then DV.Judge(PhoneValid, v) else phoneCheck.result);
      }
    }

    /** The password validator's delay elapsed. */
    method PasswordDelayElapsed()
      modifies this
      ensures State() == old(State()).(passwordCheck := DV.Step(PasswordValid, old(passwordCheck), DV.Elapse))
    {
      if passwordCheck.pending.Some? {
        var v := passwordCheck.pending.value;
        passwordCheck := passwordCheck.(pending := None,
                                        result := if passwordCheck.mounted then DV.Judge(PasswordValid, v) else passwordCheck.result);
      }
    }

    /** The country selector. */
    method HandleCountryChange(code: string)
      modifies this
      ensures State() == old(State()).(selectedCountryCode := code)
    {
      selectedCountryCode := code;
    }

    /** `onVerify` of the captcha: recorded, and never read by submit. */
    method HandleCaptchaVerify(isValid: bool)
      modifies this
      ensures State() == old(State()).(captchaVerified := isValid)
    {
      captchaVerified := isValid;
    }

    /** `handleLoginSubmit()` up to the simulated request: the first
        failing check shows its toast; otherwise loading starts and one
        more request waits. Nothing in the handler looks at `isLoading`,
        and the form is also submitted by the captcha's buttons, so a
        request may start while another one waits. */
    method HandleLoginSubmit()
      modifies this
      ensures var err := SubmitCheck(old(phone), old(phoneCheck).result.isValid, old(password), old(passwordCheck).result.isValid);
              (err.Some? ==> State() == old(State()).(log := old(log) + [Ui.Toast(Ui.Error, Ui.Tr(err.value))])) &&
              (err.None? ==> State() == old(State()).(isLoading := true, pending := old(pending) + [(old(phone), old(password))]))
      ensures old(IsFormValid()) && old(phone) != "" && old(password) != "" ==>
                isLoading && pending == old(pending) + [(old(phone), old(password))]
    {
      if phone == "" {
        log := log + [Ui.Toast(Ui.Error, Ui.Tr("login.enterPhone"))];
        return;
      }
      if !phoneCheck.result.isValid {
        log := log + [Ui.Toast(Ui.Error, Ui.Tr("login.enterValidPhone"))];
        return;
      }
      if password == "" {
        log := log + [Ui.Toast(Ui.Error, Ui.Tr("login.enterPassword"))];
        return;
      }
      if !passwordCheck.result.isValid {
        log := log + [Ui.Toast(Ui.Error, Ui.Tr("login.passwordMinLength"))];
        return;
      }
      isLoading := true;
      pending := pending + [(phone, password)];
    }

    /** The oldest request's delay elapsed: success authenticates and goes
        home; failure shows the captcha, which nothing hides again. The
        `finally` block ends loading even when later requests still
        wait. */
    method CompleteLogin(tests: seq<string>)
      requires pending != []
      modifies this
      ensures var (p, pw) := old(pending)[0];
              (LoginAccepted(p, pw, tests) ==>
                 State() == old(State()).(isLoading := false, pending := old(pending)[1..], authenticated := true,
                                          log := old(log) + [Ui.Toast(Ui.Success, Ui.Tr("login.success")), Ui.Navigate("/")])) &&
              (!LoginAccepted(p, pw, tests) ==>
                 State() == old(State()).(isLoading := false, pending := old(pending)[1..], showCaptcha := true,
                                          log := old(log) + [Ui.Toast(Ui.Error, Ui.Tr("login.failed"))]))
      ensures old(showCaptcha) ==> showCaptcha
    {
      var (p, pw) := pending[0];
      var isTestPhone := KeepDigits(p) in tests;
      var isCorrectPassword := pw == TestPassword;
      if isTestPhone && isCorrectPassword {
        authenticated := true;
        log := log + [Ui.Toast(Ui.Success, Ui.Tr("login.success")), Ui.Navigate("/")];
      } else {
        showCaptcha := true;
        log := log + [Ui.Toast(Ui.Error, Ui.Tr("login.failed"))];
      }
      isLoading := false;
      pending := pending[1..];
    }
  }
}

=== FILE: options.dfy ===
/** The optional-value wrapper used throughout the model: JavaScript's
    `undefined`/`null` next to a present value. */
module Options {

  datatype Option<T> = None | Some(value: T) {
    function GetOr(default: T): T {
      match this
      case Some(v) => v
      case None => default
    }
  }
}

=== FILE: phone_numbers.dfy ===
/** `generateRandomPhoneNumbers(count)`: random international test numbers,
    drawn until `count` distinct ones are collected. Each iteration's three
    calls to `Math.random()` are an oracle value `Draw`. */
module PhoneNumbers {
  import opened JsString

  const CountryCodes: seq<string> := ["+1", "+44", "+61", "+81", "+49", "+33", "+86", "+91", "+7", "+65"]

  /** One iteration's random choices: the country index, the length index
      and the number, each already scaled to a natural number. */
  datatype Draw = Draw(codeIndex: nat, lengthIndex: nat, value: nat)

  function DigitsLength(d: Draw): (r: nat)
    ensures 8 <= r <= 12
  {
    8 + d.lengthIndex % 5
  }

  /** The digits after the code: the number below 10^len, zero-padded. */
  function Digits(d: Draw): string {
    var len := DigitsLength(d);
    PadStart(NatToString(d.value % Pow10(len)), len, '0')
  }

  /** The phone one iteration proposes. */
  function Candidate(d: Draw): string {
    CountryCodes[d.codeIndex % |CountryCodes|] + Digits(d)
  }

  /** A number as the generator writes it: a listed code, then 8 to 12
      digits. */
  ghost predicate WellFormed(p: string) {
    exists c | c in CountryCodes :: StartsWith(p, c) && 8 <= |p| - |c| <= 12 && AllDigits(p[|c|..])
  }

  lemma DigitsShape(d: Draw)
    ensures |Digits(d)| == DigitsLength(d) && AllDigits(Digits(d))
  {
    var len := DigitsLength(d);
    var n := NatToString(d.value % Pow10(len));
    NatToStringLength(d.value % Pow10(len), len);
    var r := PadStart(n, len, '0');
    forall i | 0 <= i < |r| ensures IsDigit(r[i]) {
      if i >= len - |n| {
        assert r[i] == r[len - |n|..][i - (len - |n|)];
      }
    }
  }

  lemma CandidateWellFormed(d: Draw)
    ensures WellFormed(Candidate(d))
    ensures Candidate(d)[0] == '+'
  {
    var c := CountryCodes[d.codeIndex % |CountryCodes|];
    DigitsShape(d);
    var p := Candidate(d);
    assert p[..|c|] == c;
    assert p[|c|..] == Digits(d);
    assert c[0] == '+';
  }

  predicate Distinct(s: seq<string>) {
    forall i, j :: 0 <= i < j < |s| ==> s[i] != s[j]
  }

  lemma {:induction false} DistinctCard(s: seq<string>)
    requires Distinct(s)
    ensures |set x | x in s| == |s|
  {
    if s != [] {
      var init := s[..|s| - 1];
      assert Distinct(init);
      DistinctCard(init);
      assert (set x | x in s) == (set x | x in init) + {s[|s| - 1]};
      assert s[|s| - 1] !in init;
    }
  }

  /** The set of numbers the first `n` draws propose. */
  ghost function Proposed(draws: seq<Draw>): set<string> {
    set k | 0 <= k < |draws| :: Candidate(draws[k])
  }

  /** `p` is what one of the first `used` draws proposed. */
  ghost predicate ProposedBy(p: string, draws: seq<Draw>, used: nat) {
    exists k :: 0 <= k < used && k < |draws| && p == Candidate(draws[k])
  }

  /** `generateRandomPhoneNumbers(count)` with the random choices given in
      order: it returns the phones and how many draws it consumed. */
  method Generate(count: nat, draws: seq<Draw>) returns (phones: seq<string>, used: nat)
    ensures |phones| <= count
    ensures used <= |draws|
    ensures |phones| == count || used == |draws|
    ensures Distinct(phones)
    ensures forall i :: 0 <= i < |phones| ==> WellFormed(phones[i]) && phones[i][0] == '+'
    ensures forall i :: 0 <= i < |phones| ==> ProposedBy(phones[i], draws, used)
    ensures |phones| < count ==> forall k :: 0 <= k < |draws| ==> Candidate(draws[k]) in phones
  {
    phones := [];
    used := 0;
    ghost var origin: seq<nat> := [];
    while |phones| < count && used < |draws|
      invariant used <= |draws|
      invariant |phones| <= count
      invariant Distinct(phones)
      invariant |origin| == |phones|
      invariant forall i :: 0 <= i < |phones| ==> origin[i] < used && phones[i] == Candidate(draws[origin[i]])
      invariant forall k :: 0 <= k < used ==> Candidate(draws[k]) in phones
      decreases |draws| - used
    {
      var phone := Candidate(draws[used]);
      if phone !in phones {
        phones := phones + [phone];
        origin := origin + [used];
      }
      used := used + 1;
    }
    forall i | 0 <= i < |phones|
      ensures WellFormed(phones[i]) && phones[i][0] == '+' && ProposedBy(phones[i], draws, used)
    {
      var k := origin[i];
      CandidateWellFormed(draws[k]);
      assert 0 <= k < used && phones[i] == Candidate(draws[k]);
    }
  }

  lemma {:induction false} SubsetCard(a: set<string>, b: set<string>)
    requires a <= b
    ensures |a| <= |b|
    decreases |a|
  {
    if a != {} {
      var x :| x in a;
      SubsetCard(a - {x}, b - {x});
    }
  }

  /** A list of distinct phones that holds every proposed number is at
      least as long as the number of different proposals; so draws that
      propose at least `count` different numbers are enough for the
      generator to return exactly `count` of them. */
  lemma ProposalsBoundLength(draws: seq<Draw>, phones: seq<string>)
    requires Distinct(phones)
    requires forall k :: 0 <= k < |draws| ==> Candidate(draws[k]) in phones
    ensures |Proposed(draws)| <= |phones|
  {
    DistinctCard(phones);
    SubsetCard(Proposed(draws), set x | x in phones);
  }

  /** `testPhoneNumbers`: a hundred numbers. */
  method TestPhoneNumbers(draws: seq<Draw>) returns (phones: seq<string>)
    requires |Proposed(draws)| >= 100
    ensures |phones| == 100 && Distinct(phones)
    ensures forall i :: 0 <= i < |phones| ==> WellFormed(phones[i]) && phones[i][0] == '+'
  {
    var used;
    phones, used := Generate(100, draws);
    if |phones| < 100 {
      ProposalsBoundLength(draws, phones);
    }
  }
}

=== FILE: register_page.dfy ===
/** The `Register` page: the per-country phone patterns, the
    `passwordsMatch` effect, sending a verification code (a simulated request
    that completes after a delay, then a 60-second countdown driven by an
    interval), and the guard chain of `handleRegister`. The random code comes
    from an oracle `r`, standing for `Math.random() * 900000`; the interval's
    ticks and the two delays are explicit steps. */
module RegisterPage {
  import opened Options
  import opened JsString
  import Ui

  const CountdownStart: nat := 60

  // ---------------------------------------------------------------------
  // Country patterns

  /** `/^1[3-9]\d{9}$/` (+86) */
  predicate ChinaNumber(phone: string) {
    |phone| == 11 && phone[0] == '1' && '3' <= phone[1] <= '9' && AllDigits(phone)
  }

  /** `/^\d{10}$/` (+1) */
  predicate UsNumber(phone: string) {
    |phone| == 10 && AllDigits(phone)
  }

  /** `/^\d{10,11}$/` (+44) */
  predicate UkNumber(phone: string) {
    10 <= |phone| <= 11 && AllDigits(phone)
  }

  predicate KnownCountry(code: string) {
    code == "+86" || code == "+1" || code == "+44"
  }

  /** `!selectedCountry || selectedCountry.pattern.test(phone)`: a code not
      in the table is not checked at all. */
  predicate MatchesCountry(code: string, phone: string) {
    if code == "+86" then ChinaNumber(phone)
    else if code == "+1" then UsNumber(phone)
    else if code == "+44" then UkNumber(phone)
    else true
  }

  /** Each country's placeholder is a valid number for it. */
  lemma PlaceholdersMatch()
    ensures MatchesCountry("+86", "13800138000")
    ensures MatchesCountry("+1", "4155551234")
    ensures MatchesCountry("+44", "7911123456")
  {
  }

  /** The +86 pattern wants exactly eleven digits: nine, ten and twelve
      are refused. */
  lemma ChinaLengthBoundaries()
    ensures !MatchesCountry("+86", "138001380")
    ensures !MatchesCountry("+86", "1380013800")
    ensures MatchesCountry("+86", "13800138000")
    ensures !MatchesCountry("+86", "138001380001")
  {
  }

  /** A +86 or +1 number is also a valid +44 number. */
  lemma UkPatternIsWidest(phone: string)
    ensures ChinaNumber(phone) || UsNumber(phone) ==> UkNumber(phone)
  {
  }

  // ---------------------------------------------------------------------
  // Passwords, codes, countdown

  /** The `passwordsMatch` effect: an empty confirmation counts as
      matching. */
  predicate PasswordsMatch(password: string, confirm: string) {
    password == confirm || confirm == ""
  }

  /** The checks of `sendVerificationCode` after the countdown one: the key
      of the error toast, or `None` when the request starts. */
  function SendCheck(countryCode: string, phone: string): (r: Option<string>)
    ensures r.None? <==> phone != "" && MatchesCountry(countryCode, phone)
    ensures phone == "" ==> r == Some("enter_phone")
    ensures phone != "" && !MatchesCountry(countryCode, phone) ==> r == Some("enter_valid_phone")
  {
    if phone == "" then Some("enter_phone")
    else if !MatchesCountry(countryCode, phone) then Some("enter_valid_phone")
    else None
  }

  /** A code as the page generates it: six decimal digits, the first not
      zero. */
  predicate SixDigitCode(c: string) {
    |c| == 6 && AllDigits(c) && c[0] != '0'
  }

  /** `Math.floor(100000 + Math.random() * 900000).toString()` */
  function GenerateCode(r: nat): (c: string)
    ensures SixDigitCode(c)
    ensures DigitsValue(c) == 100000 + r % 900000
  {
    var n := 100000 + r % 900000;
    var c := NatToString(n);
    assert Pow10(5) == 100000 && Pow10(6) == 1000000;
    NatToStringLength(n, 6);
    NatToStringLengthAtLeast(n, 6);
    NatToStringValue(n);
    LeadingDigitNonZero(n);
    c
  }

  /** `String(n)` never starts with "0" except for `n == 0`. */
  lemma {:induction false} LeadingDigitNonZero(n: nat)
    requires n > 0
    ensures NatToString(n)[0] != '0'
  {
    if n >= 10 {
      LeadingDigitNonZero(n / 10);
      assert NatToString(n)[0] == NatToString(n / 10)[0];
    }
  }

  /** One interval tick: at 1 or below the countdown stops at 0. */
  function Tick(countdown: nat): (r: nat)
    ensures countdown > 0 ==> r == countdown - 1
    ensures countdown == 0 ==> r == 0
  {
    if countdown <= 1 then 0 else countdown - 1
  }

  function Ticks(countdown: nat, k: nat): nat {
    if k == 0 then countdown else Ticks(Tick(countdown), k - 1)
  }

  /** After `k` ticks the countdown has dropped by `k`, and stays at 0
      once there: it never goes negative. */
  lemma {:induction false} TicksFrom(countdown: nat, k: nat)
    ensures Ticks(countdown, k) == if k >= countdown then 0 else countdown - k
  {
    if k > 0 {
      TicksFrom(Tick(countdown), k - 1);
    }
  }

  /** Sixty ticks after a code is sent the button is enabled again, and not
      one tick earlier. */
  lemma CountdownLastsSixtyTicks(k: nat)
    ensures Ticks(CountdownStart, k) == 0 <==> k >= 60
  {
    TicksFrom(CountdownStart, k);
  }

  // ---------------------------------------------------------------------
  // handleRegister

  /** The guard chain of `handleRegister` once not loading: the key of the
      error toast of the first failing check, or `None` when the request
      starts. The confirmation is not among the fields checked for
      emptiness. */
  function RegisterCheck(phone: string, code: string, password: string, confirm: string,
                         generated: string, captchaVerified: bool): (r: Option<string>)
    ensures r.None? <==> phone != "" && code != "" && password != "" && password == confirm &&
                         code == generated && captchaVerified
    ensures phone == "" || code == "" || password == "" ==> r == Some("fill_all_fields")
    ensures phone != "" && code != "" && password != "" && password != confirm ==>
              r == Some("passwords_do_not_match")
    ensures phone != "" && code != "" && password != "" && password == confirm && code != generated ==>
              r == Some("incorrect_verification_code")
    ensures (phone != "" && code != "" && password != "" && password == confirm && code == generated &&
             !captchaVerified) ==> r == Some("complete_captcha")
  {
    if phone == "" || code == "" || password == "" then Some("fill_all_fields")
    else if password != confirm then Some("passwords_do_not_match")
    else if code != generated then Some("incorrect_verification_code")
    else if !captchaVerified then Some("complete_captcha")
    else None
  }

  /** Before any code was sent the stored code is '', and every attempt is
      refused: an empty entered code fails the first check, any other the
      code comparison. */
  lemma NoRegistrationBeforeCodeSent(phone: string, code: string, password: string, confirm: string, captcha: bool)
    ensures RegisterCheck(phone, code, password, confirm, "", captcha).Some?
  {
  }

  /** An accepted attempt would also have found the submit button enabled
      (when not loading). */
  lemma AcceptedMeansButtonEnabled(phone: string, code: string, password: string, confirm: string,
                                   generated: string, captcha: bool)
    requires RegisterCheck(phone, code, password, confirm, generated, captcha).None?
    ensures PasswordsMatch(password, confirm) && captcha
  {
  }

  /** An empty confirmation leaves the button enabled, but the handler
      refuses it as a mismatch. */
  lemma EmptyConfirmationRefused(phone: string, code: string, password: string, generated: string, captcha: bool)
    requires phone != "" && code != "" && password != ""
    ensures PasswordsMatch(password, "")
    ensures RegisterCheck(phone, code, password, "", generated, captcha) == Some("passwords_do_not_match")
  {
  }

  // ---------------------------------------------------------------------
  // The page

  datatype Field = PhoneNumber | VerificationCode | Password | ConfirmPassword

  /** The page's state as one value. */
  datatype RegisterState = RegisterState(
    phoneNumber: string, verificationCode: string, password: string, confirmPassword: string,
    countryCode: string, isLoading: bool, showPassword: bool, showConfirmPassword: bool,
    countdown: nat, captchaVerified: bool, passwordsMatch: bool, generatedCode: string,
    intervalRunning: bool, sendPending: bool, registerPending: bool, log: seq<Ui.Effect>)

  class Register {
    var phoneNumber: string
    var verificationCode: string
    var password: string
    var confirmPassword: string
    var countryCode: string
    var isLoading: bool
    var showPassword: bool
    var showConfirmPassword: bool
    var countdown: nat
    var captchaVerified: bool
    var passwordsMatch: bool
    /** `generatedCodeRef.current` */
    var generatedCode: string
    /** Whether the countdown interval is installed. */
    var intervalRunning: bool
    /** A code request or a registration request is waiting for its
        delay. */
    var sendPending: bool
    var registerPending: bool
    var log: seq<Ui.Effect>

    ghost predicate Valid()
      reads this
    {
      passwordsMatch == PasswordsMatch(password, confirmPassword) &&
      countdown <= CountdownStart &&
      (intervalRunning <==> countdown > 0) &&
      (generatedCode == "" || SixDigitCode(generatedCode)) &&
      (isLoading <==> sendPending || registerPending) &&
      !(sendPending && registerPending) &&
      (sendPending ==> countdown == 0)
    }

    function State(): RegisterState
      reads this
    {
      RegisterState(phoneNumber, verificationCode, password, confirmPassword, countryCode, isLoading,
                    showPassword, showConfirmPassword, countdown, captchaVerified, passwordsMatch,
                    generatedCode, intervalRunning, sendPending, registerPending, log)
    }

    constructor()
      ensures Valid()
      ensures phoneNumber == "" && verificationCode == "" && password == "" && confirmPassword == ""
      ensures countryCode == "+86" && !isLoading && countdown == 0 && !captchaVerified && passwordsMatch
      ensures !showPassword && !showConfirmPassword
      ensures generatedCode == "" && !intervalRunning && !sendPending && !registerPending && log == []
    {
      phoneNumber := "";
      verificationCode := "";
      password := "";
      confirmPassword := "";
      countryCode := "+86";
      isLoading := false;
      showPassword := false;
      showConfirmPassword := false;
      countdown := 0;
      captchaVerified := false;
      passwordsMatch := true;
      generatedCode := "";
      intervalRunning := false;
      sendPending := false;
      registerPending := false;
      log := [];
    }

    /** The submit button's `disabled`. The form is also submitted by the
        captcha's buttons, so the handler runs whatever it says; a started
        registration nonetheless always had it enabled. */
    predicate SubmitDisabled()
      reads this
    {
      isLoading || !captchaVerified || !passwordsMatch
    }

    /** The get-code button's `disabled`. */
    predicate SendDisabled()
      reads this
    {
      countdown > 0 || isLoading
    }

    /** `handleInputChange(field)`, followed by the `passwordsMatch`
        effect. */
    method HandleInputChange(field: Field, value: string)
      requires Valid()
      modifies this
      ensures Valid()
      ensures phoneNumber == (if field == PhoneNumber then value else old(phoneNumber))
      ensures verificationCode == (if field == VerificationCode then value else old(verificationCode))
      ensures password == (if field == Password then value else old(password))
      ensures confirmPassword == (if field == ConfirmPassword then value else old(confirmPassword))
      ensures passwordsMatch == PasswordsMatch(password, confirmPassword)
      ensures countryCode == old(countryCode) && isLoading == old(isLoading) && countdown == old(countdown)
      ensures showPassword == old(showPassword) && showConfirmPassword == old(showConfirmPassword)
      ensures captchaVerified == old(captchaVerified) && generatedCode == old(generatedCode)
      ensures intervalRunning == old(intervalRunning) && sendPending == old(sendPending)
      ensures registerPending == old(registerPending) && log == old(log)
    {
      match field {
        case PhoneNumber => phoneNumber := value;
        case VerificationCode => verificationCode := value;
        case Password => password := value;
        case ConfirmPassword => confirmPassword := value;
      }
      passwordsMatch := password == confirmPassword || confirmPassword == "";
    }

    /** The country selector. */
    method HandleCountryChange(code: string)
      requires Valid()
      modifies this
      ensures Valid()
      ensures State() == old(State()).(countryCode := code)
    {
      countryCode := code;
    }

    /** `togglePasswordVisibility(field)`: `forPassword` selects the
        password field, otherwise the confirmation. */
    method TogglePasswordVisibility(forPassword: bool)
      requires Valid()
      modifies this
      ensures Valid()
      ensures forPassword ==> showPassword == !old(showPassword) && showConfirmPassword == old(showConfirmPassword)
      ensures !forPassword ==> showConfirmPassword == !old(showConfirmPassword) && showPassword == old(showPassword)
      ensures State() == old(State()).(showPassword := showPassword, showConfirmPassword := showConfirmPassword)
    {
      if forPassword {
        showPassword := !showPassword;
      } else {
        showConfirmPassword := !showConfirmPassword;
      }
    }

    /** The captcha's `onVerify`. */
    method HandleCaptchaVerify(verified: bool)
      requires Valid()
      modifies this
      ensures Valid()
      ensures State() == old(State()).(captchaVerified := verified)
    {
      captchaVerified := verified;
    }

    /** A click on the get-code button running `sendVerificationCode`: a
        no-op while the button is disabled (the function itself returns
        while the countdown runs); otherwise the first failing check shows
        its toast, or the request starts. */
    method SendVerificationCode()
      requires Valid()
      modifies this
      ensures Valid()
      ensures old(SendDisabled()) ==> State() == old(State())
      ensures !old(SendDisabled()) ==>
                var err := SendCheck(old(countryCode), old(phoneNumber));
                (err.Some? ==> State() == old(State()).(log := old(log) + [Ui.Toast(Ui.Error, Ui.Tr(err.value))])) &&
                (err.None? ==> State() == old(State()).(isLoading := true, sendPending := true))
    {
      if countdown > 0 || isLoading {
        return;
      }
      if phoneNumber == "" {
        log := log + [Ui.Toast(Ui.Error, Ui.Tr("enter_phone"))];
        return;
      }
      if !MatchesCountry(countryCode, phoneNumber) {
        log := log + [Ui.Toast(Ui.Error, Ui.Tr("enter_valid_phone"))];
        return;
      }
      isLoading := true;
      sendPending := true;
    }

    /** The simulated request's delay elapsed: the code is generated and
        stored, the countdown starts at 60 and its interval is installed;
        in development the toast shows the code. */
    method CompleteSend(r: nat, development: bool)
      requires Valid() && sendPending
      modifies this
      ensures Valid()
      ensures generatedCode == GenerateCode(r) && countdown == CountdownStart && intervalRunning
      ensures !isLoading && !sendPending
      ensures development ==> log == old(log) + [Ui.Toast(Ui.Success, Ui.TrSuffix("code_sent_test", ": " + generatedCode))]
      ensures !development ==> log == old(log) + [Ui.Toast(Ui.Success, Ui.Tr("code_sent"))]
      ensures State() == old(State()).(generatedCode := generatedCode, countdown := countdown,
                                       intervalRunning := intervalRunning, isLoading := isLoading,
                                       sendPending := sendPending, log := log)
    {
      var code := GenerateCode(r);
      var toast := if development then Ui.Toast(Ui.Success, Ui.TrSuffix("code_sent_test", ": " + code))
                   else Ui.Toast(Ui.Success, Ui.Tr("code_sent"));
      generatedCode, countdown, intervalRunning, isLoading, sendPending, log :=
        code, CountdownStart, true, false, false, log + [toast];
    }

    /** One second of the countdown interval; the interval removes itself
        when the countdown reaches 0. Nothing happens when none is
        installed. */
    method IntervalTick()
      requires Valid()
      modifies this
      ensures Valid()
      ensures countdown == Tick(old(countdown))
      ensures intervalRunning == (countdown > 0)
      ensures State() == old(State()).(countdown := countdown, intervalRunning := intervalRunning)
    {
      if intervalRunning {
        if countdown <= 1 {
          intervalRunning := false;
          countdown := 0;
        } else {
          countdown := countdown - 1;
        }
      }
    }

    /** `handleRegister(e)`: ignored while loading; otherwise the first
        failing check shows its toast, or the request starts. */
    method HandleRegister()
      requires Valid()
      modifies this
      ensures Valid()
      ensures old(isLoading) ==> State() == old(State())
      ensures !old(isLoading) ==>
                var err := RegisterCheck(old(phoneNumber), old(verificationCode), old(password), old(confirmPassword),
                                         old(generatedCode), old(captchaVerified));
                (err.Some? ==> State() == old(State()).(log := old(log) + [Ui.Toast(Ui.Error, Ui.Tr(err.value))])) &&
                (err.None? ==> State() == old(State()).(isLoading := true, registerPending := true))
      ensures registerPending && !old(registerPending) ==> !old(SubmitDisabled())
    {
      if isLoading {
        return;
      }
      var err := RegisterCheck(phoneNumber, verificationCode, password, confirmPassword,
                               generatedCode, captchaVerified);
      if err.Some? {
        log := log + [Ui.Toast(Ui.Error, Ui.Tr(err.value))];
        return;
      }
      isLoading := true;
      registerPending := true;
    }

    /** The registration's delay elapsed: success toast, then home. */
    method CompleteRegister()
      requires Valid() && registerPending
      modifies this
      ensures Valid()
      ensures !isLoading && !registerPending
      ensures State() == old(State()).(isLoading := false, registerPending := false,
                                       log := old(log) + [Ui.Toast(Ui.Success, Ui.Tr("register_success")), Ui.Navigate("/")])
    {
      log := log + [Ui.Toast(Ui.Success, Ui.Tr("register_success")), Ui.Navigate("/")];
      isLoading := false;
      registerPending := false;
    }
  }
}

=== FILE: ui.dfy ===
/** What the browser pages and widgets do to the outside world, recorded as
    an appended log instead of performed: toasts, navigation and the
    `onVerify` callbacks of the captcha widgets. */
module Ui {

  datatype ToastKind = Success | Error | Info

  /** A user-visible text: a translation key handed to `t` (with its
      parameters, or followed by a literal suffix), or a literal. */
  datatype Text =
    | Tr(key: string)
    | TrParams(key: string, params: map<string, int>)
    | TrSuffix(key: string, suffix: string)
    | Literal(text: string)

  datatype Effect =
    | Toast(kind: ToastKind, text: Text)
    | Navigate(path: string)
    | VerifyCallback(isValid: bool)
    | LanguageChangedEvent
}

=== FILE: users.dfy ===
/** The `user` table as the server sees it through Prisma: rows keyed by
    their id, with a unique index from phone number to id. */
module Users {
  import opened Options

  /** A stored user. `passwordHash` holds what the hash function returned
      for the password, never the password. */
  datatype User = User(id: int, phone: string, passwordHash: string, createdAt: int)

  /** The fields that leave the server: `select: { id: true, phone: true }`. */
  datatype PublicUser = PublicUser(id: int, phone: string)

  function Public(u: User): PublicUser {
    PublicUser(u.id, u.phone)
  }

  /** The store invariant over plain maps: the two keys agree, and every id
      is below the next one to be allocated. */
  ghost predicate Consistent(byId: map<int, User>, byPhone: map<string, int>, nextId: int) {
    (forall p | p in byPhone :: byPhone[p] in byId && byId[byPhone[p]].phone == p) &&
    (forall i | i in byId :: byId[i].id == i && byId[i].phone in byPhone && byPhone[byId[i].phone] == i) &&
    (forall i | i in byId :: i < nextId) &&
    nextId >= 1
  }

  /** `findUnique({ where: { phone } })` */
  function FindByPhone(byId: map<int, User>, byPhone: map<string, int>, phone: string): (r: Option<User>)
    ensures r.Some? ==> phone in byPhone && byPhone[phone] in byId && r.value == byId[byPhone[phone]]
    ensures r.None? ==> phone !in byPhone || byPhone[phone] !in byId
  {
    if phone in byPhone && byPhone[phone] in byId then Some(byId[byPhone[phone]]) else None
  }

  /** `findUnique({ where: { id } })` */
  function FindById(byId: map<int, User>, id: int): Option<User> {
    if id in byId then Some(byId[id]) else None
  }

  /** A consistent store finds a user by phone exactly when the phone is
      indexed, and the user found carries that phone. */
  lemma FindByPhoneConsistent(byId: map<int, User>, byPhone: map<string, int>, nextId: int, phone: string)
    requires Consistent(byId, byPhone, nextId)
    ensures FindByPhone(byId, byPhone, phone).Some? <==> phone in byPhone
    ensures FindByPhone(byId, byPhone, phone).Some? ==> FindByPhone(byId, byPhone, phone).value.phone == phone
  {
  }

  /** The row `user.create` adds: the next id, and the database's `now()`. */
  function NewUser(nextId: int, phone: string, passwordHash: string, now: int): User {
    User(nextId, phone, passwordHash, now)
  }

  /** Inserting a row under a fresh phone keeps the store consistent. */
  lemma InsertKeepsConsistent(byId: map<int, User>, byPhone: map<string, int>, nextId: int,
                              phone: string, passwordHash: string, now: int)
    requires Consistent(byId, byPhone, nextId)
    requires phone !in byPhone
    ensures Consistent(byId[nextId := NewUser(nextId, phone, passwordHash, now)],
                       byPhone[phone := nextId], nextId + 1)
  {
    var u := NewUser(nextId, phone, passwordHash, now);
    var ids := byId[nextId := u];
    var phones := byPhone[phone := nextId];
    forall p | p in phones ensures phones[p] in ids && ids[phones[p]].phone == p {
      if p != phone {
        assert byPhone[p] < nextId;
      }
    }
    forall i | i in ids ensures ids[i].id == i && ids[i].phone in phones && phones[ids[i].phone] == i {
      if i != nextId {
        assert byId[i].phone != phone;
      }
    }
  }

  /** The Prisma `user` model: the two maps and the id sequence. */
  class UserStore {
    var byId: map<int, User>
    var byPhone: map<string, int>
    var nextId: int

    ghost predicate Valid()
      reads this
    {
      Consistent(byId, byPhone, nextId)
    }

    constructor ()
      ensures Valid()
      ensures byId == map[] && byPhone == map[] && nextId == 1
    {
      byId := map[];
      byPhone := map[];
      nextId := 1;
    }

    /** `user.create({ data: { phone, password } })`, on a phone that is not
        yet registered. */
    method Create(phone: string, passwordHash: string, now: int) returns (u: User)
      requires Valid()
      requires phone !in byPhone
      modifies this
      ensures Valid()
      ensures u == NewUser(old(nextId), phone, passwordHash, now)
      ensures byId == old(byId)[u.id := u]
      ensures byPhone == old(byPhone)[phone := u.id]
      ensures nextId == old(nextId) + 1
    {
      InsertKeepsConsistent(byId, byPhone, nextId, phone, passwordHash, now);
      u := NewUser(nextId, phone, passwordHash, now);
      byId := byId[u.id := u];
      byPhone := byPhone[phone := u.id];
      nextId := nextId + 1;
    }
  }
}
